=== FILE: README.md ===
# Sevak control panel: offline queue, sync and decision logic

This project models the Sevak tractor control panel in Dafny. The centre is
the browser-side offline store of `offlineService.js`: a key/value cache
plus an auto-increment log of operations. The log supports enqueue, list,
mark-completed, clear-completed and a sync pass that walks it in key order.
Around the store sit the services that decide what is queued when a call
fails while offline (`schedulerService.js`, `tractorService.js`). Next to
them is the in-memory offline context (`OfflineContext.jsx`) and the
tractor UI state (`TractorContext.jsx`), including the upcoming-task list.
The model also covers several small decision functions from across the
stack:

- the socket gate of the backend;
- the HTTP client;
- the display helpers;
- the language choice;
- the server's response envelope and auth middleware;
- the diagnostics and password screens;
- the battery indicator;
- the on-board drive controller.

JavaScript values are one datatype, `Json.Json`, with JavaScript's
truthiness (`Json.Truthy`). Numbers are exact reals or `NaN`, and objects
are `map<string, Json>`; an object spread is map union. The following
become parameters: the clock, `navigator.onLine`, whether the IndexedDB
write succeeds, what each awaited API call resolves to or throws,
`JSON.parse`, `JSON.stringify`, `jwt.verify` and the database save. Every
operation is a pure function from the old state and these parameters to
the new state and the answer. The two loops over the operation log are
methods, each proved against a recursive reference definition.

Modules, one per source file (the shared ones first):

- Shared modules:
  - `Wrappers` holds `Option` and `Result`.
  - `Json` holds JavaScript values and comparisons.
  - `Strings` holds decimal rendering, `split`/`join` and prefixes.
  - `Runtime` holds the clock, the environment and the kinds of thrown errors.
- Offline layer:
  - `OfflineStore` models `src/services/offlineService.js`.
  - `SchedulerService` models `src/services/schedulerService.js`.
  - `TractorService` models `src/services/tractorService.js`.
  - `OfflineContext` models `src/context/OfflineContext.jsx`.
- Client state and HTTP:
  - `TractorContext` models `src/context/TractorContext.jsx`.
  - `ApiClient` models `src/services/api.js`.
  - `Helpers` models `src/utils/helpers.js`.
  - `Language` models `src/context/LanguageContext.jsx`.
  - `BatteryIndicator` models `src/components/common/BatteryIndicator.jsx`.
- Server:
  - `SocketGate` models the socket handlers of `backend/src/index.js`.
  - `ResponseFormatter` models `server/src/middleware/responseFormatter.js`.
  - `AuthMiddleware` models `server/src/middleware/auth.js`.
- Mobile app and hardware:
  - `Diagnostics` models `mobile-app/src/screens/DiagnosticsScreen.js`.
  - `ChangePassword` models `mobile-app/src/screens/ChangePasswordScreen.js`.
  - `TractorControl` models `hardware/tractor_control.py`.

## Model

| member | source | states |
|---|---|---|
| OfflineStore.CacheData | src/services/offlineService.js:52-69 | The key then holds the data. Every other key keeps its entry, and the operation log and key generator are untouched. |
| OfflineStore.GetCachedData | src/services/offlineService.js:76-101 | A key that was never cached reads `null`. |
| OfflineStore.ClearCache | src/services/offlineService.js:108-125 | A non-empty key removes exactly that entry. An omitted or empty key empties the whole cache. The log is untouched. |
| OfflineStore.CacheThenGet | src/services/offlineService.js:52-101 | Reading a key just cached gives back the cached data. |
| OfflineStore.CacheOtherKey | src/services/offlineService.js:52-101 | Caching under one key does not change what any other key reads. |
| OfflineStore.ClearKeyThenGet | src/services/offlineService.js:76-125 | After the key is cleared it reads `null`, and every other key reads as before. |
| OfflineStore.QueueOperation | src/services/offlineService.js:132-151 | Appends exactly one pending record. Its id is fresh and larger than every existing id, it is stamped with the clock, and the earlier records are unchanged. The store stays valid. A failed write stores nothing and answers `false`. |
| OfflineStore.GetPendingOperations | src/services/offlineService.js:157-177 | Returns exactly the stored records, completed ones included, in increasing key order. |
| OfflineStore.MarkOperationComplete | src/services/offlineService.js:184-225 | Answers `true` exactly when the database and transaction can be opened and the id is stored. When storage is down, or the id is unknown, it answers `false` and changes nothing. Otherwise only that record changes: its status becomes completed and `completedAt` is stamped, with every other field kept. |
| OfflineStore.MarkPreservesValid | src/services/offlineService.js:184-225 | Marking a record keeps the store's key-order invariant. |
| OfflineStore.MarkTwice | src/services/offlineService.js:194-206 | Marking an already completed record stamps it again with the later time. |
| OfflineStore.PendingPlusCompleted | src/services/offlineService.js:231-265 | The kept records and the removed count add up to the whole log. |
| OfflineStore.PendingOpsMembers | src/services/offlineService.js:245-255 | Cleanup keeps a record exactly when it is pending. |
| OfflineStore.PendingOpsOrdered | src/services/offlineService.js:238-258 | The kept records stay in increasing key order. |
| OfflineStore.ClearCompletedOperations | src/services/offlineService.js:231-269 | The log afterwards is the pending records in their original order, and the count returned is the number removed. The cache and key generator are untouched. |
| OfflineStore.ClearPreservesValid | src/services/offlineService.js:231-269 | Cleanup keeps the store valid; the key generator is not reset. |
| OfflineStore.SyncPendingOperations | src/services/offlineService.js:275-319 | A rejected read of the log answers `{success: false, error}` and changes nothing. A database that cannot be opened, or an empty log, gives `{success: true, synced: 0, failed: 0}` and no change. Otherwise each record is settled in key order against the reference `SettleAll`, and the summary carries the reference counts and failures list. A mark that rejects is a failure; one that resolves counts as synced whatever it answered, so a record whose mark answered `false` is counted but stays pending. `success` is `true` even when some records failed. |
| OfflineStore.SettleAll | src/services/offlineService.js:284-313 | The log after a pass keeps its length. Each record is settled on its own: a pending record whose mark succeeds is completed, and every other record is unchanged. |
| OfflineStore.SyncAccountsForEveryPending | src/services/offlineService.js:284-313 | `synced + failed` equals the number of pending records in the snapshot. |
| OfflineStore.SyncOutcomePerRecord | src/services/offlineService.js:292-311 | A pending record whose mark rejects or answers `false` stays as it was, one whose mark succeeds is completed, and no id changes. |
| OfflineStore.NoFailuresCompletesAll | src/services/offlineService.js:292-302 | A pass in which every pending record's mark succeeds leaves every record completed. |
| OfflineStore.UnmarkedCountedAsSynced | src/services/offlineService.js:184-302 | The sync ignores what `markOperationComplete` answers. A record whose mark answers `false` is counted as synced and is not a failure, yet it stays pending, and the next pass syncs it again. |
| OfflineStore.AllCompletedSyncsNothing | src/services/offlineService.js:292-293 | A log with every record completed syncs nothing and fails nothing. |
| OfflineStore.SecondPassIsNoop | src/services/offlineService.js:284-313 | After a pass in which every pending record's mark succeeded, an immediate second pass reports `synced = 0`. |
| OfflineStore.SyncPreservesValid | src/services/offlineService.js:275-319 | A sync pass keeps the store valid. |
| SchedulerService.OfflineId | src/services/schedulerService.js:50 | The temporary id starts with `offline_`. |
| SchedulerService.OfflineIdsDistinct | src/services/schedulerService.js:50 | Different clock readings give different temporary ids. |
| SchedulerService.FindCreate | src/services/schedulerService.js:76-81 | Finds the first queued `create_task` whose local task has the id. It finds nothing exactly when no such record exists. |
| SchedulerService.FindById | src/services/schedulerService.js:94 | `find` answers the first element with the id, all earlier elements being objects with another id. It answers nothing exactly when every element is such an object, and throws `TypeError` exactly when a `null` or `undefined` element is reached first. |
| SchedulerService.FindCachedTask | src/services/schedulerService.js:94 | A cached value that is not an array throws `TypeError`; an array is searched with `find`. |
| SchedulerService.LookUpCachedTask | src/services/schedulerService.js:92-96 | A falsy `all_tasks` entry gives no task. A task found is an element of the cached array carrying the id, and when none is found every element was read past. The only error is `TypeError`. |
| SchedulerService.GetAllTasks | src/services/schedulerService.js:14-34 | A truthy answer is returned and cached under `tractor_tasks_<id>`. An offline failure answers the truthy cached list, and otherwise rethrows. An online failure rethrows. |
| SchedulerService.TasksCachedThenRead | src/services/schedulerService.js:14-34 | A task list read online is what a later offline read of the same tractor answers. |
| SchedulerService.GetAllTasksLeavesTaskLookup | src/services/schedulerService.js:14-96 | `getAllTasks` never changes what the offline `getTask` and `updateTask` lookups find, because it caches under `tractor_tasks_<id>` and not `all_tasks`. |
| SchedulerService.OfflineTask | src/services/schedulerService.js:48-53 | The optimistic task has the caller's fields, an `offline_` id, status `scheduled` and the clock's ISO time as `createdAt`. |
| SchedulerService.CreateTask | src/services/schedulerService.js:41-66 | Success and online failure pass through without queuing. An offline failure queues one `create_task` carrying the payload, with the returned task as `localResult`. |
| SchedulerService.GetTask | src/services/schedulerService.js:73-100 | An `offline_` id with a queued creation answers that record's local task without asking the server. Otherwise a success or an online failure passes through. An offline failure answers the first cached `all_tasks` entry with the id, rethrows when there is none, and throws `TypeError` when the cache is not an array or the search meets `null`. |
| SchedulerService.UpdateTask | src/services/schedulerService.js:108-175 | An offline-created task is edited on the queue. For a server task a success or an online failure passes through. Offline, a task found in the `all_tasks` cache is answered overlaid with the updates and a new `updatedAt`, and one `update_task {taskId, updates}` carrying that task is queued; no cached task rethrows, and a failed search throws `TypeError`. A failure never changes the store. |
| SchedulerService.DeleteTask | src/services/schedulerService.js:182-214 | An offline-created task completes its creation record. A server task failing offline queues a `delete_task`. |
| SchedulerService.ExecuteTask | src/services/schedulerService.js:221-243 | An offline failure queues one `execute_task` and answers `offlineQueued: true`. An online failure rethrows. |
| SchedulerService.OnlineFailureRethrows | src/services/schedulerService.js:41-243 | For each of create, update, delete and execute, a failure while online rethrows the error and leaves the store as it was. |
| SchedulerService.OfflineCreateQueuesOne | src/services/schedulerService.js:47-62 | Offline creation appends exactly one pending `create_task` whose data is the payload and whose `localResult` is the returned task, which has an `offline_` id. Earlier records are unchanged and the store stays valid. |
| SchedulerService.CreateThenGet | src/services/schedulerService.js:47-84 | A task created offline is then found by `getTask` under its temporary id, whatever the server would answer. |
| SchedulerService.UpdateOfflineTask | src/services/schedulerService.js:111-135 | The answer is the local task overlaid with the updates, and the updates win. One `update_task` is queued carrying the original payload, and the stored creation record is not rewritten. |
| SchedulerService.OfflineServerUpdate | src/services/schedulerService.js:141-171 | Editing a cached server task offline answers it overlaid with the updates (they win), appends exactly one pending `update_task` naming the id and the updates, and keeps the store valid. A later offline `getTask` still answers the task as cached, since the cache is not rewritten. |
| SchedulerService.DeleteOfflineTask | src/services/schedulerService.js:185-195 | The matching creation record becomes completed, no `delete_task` is queued and every other record is unchanged. With storage down the mark answers `false` and changes nothing, and success is reported all the same. |
| SchedulerService.DeletedOfflineTaskStillVisible | src/services/schedulerService.js:73-195 | A task created and then deleted offline is still answered by `getTask`, because the lookup does not filter completed records. |
| SchedulerService.OfflineDeleteQueuesOne | src/services/schedulerService.js:202-210 | Deleting a server task offline appends one `delete_task` naming it and reports success. |
| SchedulerService.LostWhenStorageDown | src/services/schedulerService.js:55-62 | When the database write fails the store is unchanged, yet the caller is still told the action was queued. |
| TractorService.ReadWithFallback | src/services/tractorService.js:14-28 | Success passes through and an online failure rethrows. An offline failure never throws: it answers the cached data, or `null` when nothing is cached. |
| TractorService.GetStatus | src/services/tractorService.js:14-28 | A success or an online failure passes through. An offline failure answers the `tractor_status_<id>` entry, or `null` when there is none, and never throws. |
| TractorService.GetLocation | src/services/tractorService.js:99-119 | A truthy answer is cached under `tractor_location_<id>`; otherwise the store is unchanged. The result follows the shared offline read. |
| TractorService.GetDiagnostics | src/services/tractorService.js:126-140 | A success or an online failure passes through. An offline failure answers the `tractor_diagnostics_<id>` entry, or `null` when there is none, and never throws. |
| TractorService.OfflineReadsNeverThrow | src/services/tractorService.js:14-140 | Offline, `getStatus`, `getLocation` and `getDiagnostics` all succeed after a failure. |
| TractorService.LocationCachedThenRead | src/services/tractorService.js:103-116 | A location read online is what a later offline read answers. |
| TractorService.ReadsUseSeparateKeys | src/services/tractorService.js:14-140 | Caching a location does not change what an offline status or diagnostics read answers, for any tractor. |
| TractorService.SendCommand | src/services/tractorService.js:37-67 | Success and online failure pass through unchanged. An offline failure queues one `tractor_command` with the arguments and answers `offlineQueued`. |
| TractorService.EmergencyStop | src/services/tractorService.js:74-92 | Never throws and never touches the store. It answers the server's response unchanged, or the local acknowledgement on any failure whatever the connectivity. |
| TractorService.StartOperation | src/services/tractorService.js:148-173 | Success and online failure pass through unchanged. An offline failure queues one `start_operation` with the arguments and answers `offlineQueued`. |
| TractorService.OfflineCommandQueuesOne | src/services/tractorService.js:37-173 | Offline, a failed command or operation start appends exactly one record carrying its arguments, and earlier records are unchanged. |
| TractorService.EmergencyStopNeverQueues | src/services/tractorService.js:78-91 | Offline, the emergency stop leaves the log's length as it was, while a command under the same conditions adds one record. |
| OfflineContext.Entry | src/context/OfflineContext.jsx:63-67 | The appended element has the operation's fields plus `timestamp` and an `op-<ms>` id. |
| OfflineContext.QueueOperation | src/context/OfflineContext.jsx:62-68 | Appends exactly one element at the end and keeps every earlier element and the other state. |
| OfflineContext.ExecuteOperation | src/context/OfflineContext.jsx:71-93 | Online, nothing is queued and the answer has `isOfflineResult: false`. Offline, the fallback's result is queued once as `fallbackResult` and returned with `isOfflineResult: true`. Any throw becomes `{success: false, error}` and never propagates; a `null` or `undefined` `operationData` gives V8's message naming `null` or `undefined` respectively. |
| OfflineContext.SyncPendingOperations | src/context/OfflineContext.jsx:39-59 | An empty list changes nothing. Otherwise the list is emptied and `lastSyncTime` stamped. |
| OfflineContext.HandleStatusChange | src/context/OfflineContext.jsx:13-36 | `isOffline` becomes `!navigator.onLine`. A sync happens exactly when online with something pending; otherwise the list and the sync time are kept. |
| OfflineContext.QueueAndCommit | src/context/OfflineContext.jsx:13-68 | Queueing re-runs the connectivity effect, whose dependency is the list: online, the list is emptied at once and the sync time stamped; offline, the entry is appended and the sync time kept. |
| OfflineContext.ExecuteAndCommit | src/context/OfflineContext.jsx:13-93 | The caller gets the answer `executeOperation` gives. A call that queues nothing leaves the state as it was. An offline call whose fallback succeeded is synced away at once when the browser is back online, and otherwise stays queued as one entry. |
| OfflineContext.CommitIsStable | src/context/OfflineContext.jsx:13-36 | Online, the effect leaves nothing pending, and re-running it with the same connectivity, as the sync's own emptying of the list makes React do, changes nothing. |
| OfflineContext.OnlineQueueNeverLingers | src/context/OfflineContext.jsx:13-68 | Over any number of queued operations: online, none stays pending and the sync time is stamped; offline, their entries accumulate after the earlier ones in call order. |
| OfflineContext.OfflineThenOnline | src/context/OfflineContext.jsx:14-93 | An operation executed offline is queued with its result. Regaining connectivity then empties the list and stamps the time, while another offline status change keeps it. |
| TractorContext.SendDirectionCommand | src/context/TractorContext.jsx:90-97 | Sets the direction. The status becomes standby for `stop` and operational otherwise. Nothing else changes. |
| TractorContext.SendSpeedCommand | src/context/TractorContext.jsx:99-105 | Changes only the speed. |
| TractorContext.ToggleOperation | src/context/TractorContext.jsx:107-114 | Clears the mode when it equals the type, sets it otherwise, and always leaves the tractor operational. |
| TractorContext.ToggleTwice | src/context/TractorContext.jsx:107-114 | Toggling the same mode twice from no mode comes back to no mode. |
| TractorContext.TriggerOperation | src/context/TractorContext.jsx:116-147 | `returnHome` gives transport, forward, speed 50. Any other type sets that mode. Both leave the tractor operational with the power fields untouched. |
| TractorContext.CommandsLastWins | src/context/TractorContext.jsx:90-147 | The last direction and the last speed win, a direction and a speed command commute, and triggering the same operation twice equals triggering it once. |
| TractorContext.TriggerEmergencyStop | src/context/TractorContext.jsx:149-158 | Standby, no mode, no direction, speed 0, with id, battery, charging and runtime unchanged. |
| TractorContext.EmergencyStopHalts | src/context/TractorContext.jsx:149-158 | Two states that differ only in motion stop to the same state, and stopping again changes nothing. |
| TractorContext.StopUndoesCommands | src/context/TractorContext.jsx:90-158 | An emergency stop after any direction, speed, toggle or trigger command reaches the state a stop without it reaches. |
| TractorContext.AddTask | src/context/TractorContext.jsx:161-168 | Appends exactly one task with a `t<ms>` id and status `scheduled`, keeping the caller's other fields and every existing task. |
| TractorContext.UpdateTask | src/context/TractorContext.jsx:170-176 | Keeps length and order. Tasks with another id are unchanged, and tasks with the id get the updates overlaid. |
| TractorContext.DeleteTask | src/context/TractorContext.jsx:178-180 | Keeps every copy of every task with another id, as many times as it occurs, and no task with the id. |
| TractorContext.DeleteKeepsOrder | src/context/TractorContext.jsx:178-180 | The remaining tasks keep their original order. |
| TractorContext.DeleteAbsentIsIdentity | src/context/TractorContext.jsx:178-180 | Deleting an id no task carries leaves the list as it was. |
| TractorContext.TimeOf | src/context/TractorContext.jsx:55 | `new Date(scheduledTime)` as a time value: a date keeps its time, a string goes through the date parser, a number is truncated and valid only within ±8.64·10^15 ms, and `undefined` or `NaN` is an invalid date. |
| TractorContext.FilterUpcoming | src/context/TractorContext.jsx:53-55 | Keeps exactly the scheduled tasks whose `scheduledTime`, a date, a number or a parsed string, is after now, each no more often than in the input. |
| TractorContext.Insert | src/context/TractorContext.jsx:56 | The result is the input with the new element added, as a multiset. |
| TractorContext.InsertSorted | src/context/TractorContext.jsx:56 | Inserting into a time-sorted list keeps it sorted. |
| TractorContext.SortByTime | src/context/TractorContext.jsx:56 | The sort is a permutation of its input. |
| TractorContext.SortByTimeSorted | src/context/TractorContext.jsx:56 | The sort orders by scheduled time. |
| TractorContext.SortByTimeStable | src/context/TractorContext.jsx:56 | The sort is stable: tasks with the same time come out in their input order, as `Array.prototype.sort` guarantees. |
| TractorContext.UpcomingTasks | src/context/TractorContext.jsx:52-56 | Sorted by time, a permutation of the filtered tasks, and holding exactly the scheduled tasks dated after now. |
| TractorContext.UpcomingIsSubMultiset | src/context/TractorContext.jsx:52-56 | The upcoming list is a sub-multiset of all tasks. |
| TractorContext.AddedTaskUpcoming | src/context/TractorContext.jsx:52-168 | A task just added is in the upcoming list exactly when its time is valid and after now. |
| TractorContext.NumericAndStringTimes | src/context/TractorContext.jsx:53-55 | A scheduled task whose time is a whole number of milliseconds in range, or a string the parser reads as one, is upcoming exactly when that time is after now. |
| SocketGate.OnControl | backend/src/index.js:50-62 | Emits exactly one message. It is a broadcast of the data on `tractor-control` exactly when the type is `movement` or `action`, and otherwise an `error` to the sender. Nothing is saved. |
| SocketGate.OnTelemetry | backend/src/index.js:65-81 | Valid telemetry whose save succeeds is saved once and then broadcast once on `tractor-telemetry`. Anything else, a failed save included, changes nothing. |
| SocketGate.RejectedControlNeverBroadcasts | backend/src/index.js:53-61 | A rejected command adds no broadcast, and `null` or `undefined` payloads are rejected. |
| SocketGate.ZeroTelemetryDropped | backend/src/index.js:68-70 | A zero battery, speed or temperature is falsy, so the message is neither saved nor broadcast. |
| SocketGate.BroadcastsFollowSaves | backend/src/index.js:73-77 | Over any run of telemetry messages, the broadcasts are exactly the saved documents, in order. |
| ApiClient.HandleResponse | src/services/api.js:15-31 | A 204 answers `null` and another 2xx answers the parsed body. A non-2xx response throws an error carrying the status and the body's message, or `HTTP error! Status: <code>`. A non-2xx body that parses to `null` throws a `TypeError` instead, with no status. |
| ApiClient.Headers | src/services/api.js:46-149 | `Authorization: Bearer <token>` is present exactly when a token is stored or given by the caller. The JSON content type is present except for uploads. Caller headers win. |
| ApiClient.BuildRequest | src/services/api.js:46-58 | The URL is the base URL plus the endpoint. The built method and headers are used unless the caller's options replace them, since `...options` is spread last. |
| ApiClient.Send | src/services/api.js:54-66 | A rejected `fetch` is a network error; an answer goes through `handleResponse`. |
| ApiClient.AuthorizationExactlyWithToken | src/services/api.js:48-58 | Without caller headers, `Authorization` is sent exactly when a token is stored. Caller headers replace the whole set, token included. |
| ApiClient.ContentTypeOnlyForJson | src/services/api.js:10-149 | The JSON content type is sent exactly for the non-upload helpers. |
| ApiClient.ErrorsCarryStatus | src/services/api.js:16-23 | With an object body or none, an HTTP error is thrown exactly for a non-2xx status, and it carries that status. |
| Helpers.Round | src/utils/helpers.js:169 | `Math.round` lies within half a unit of its argument. |
| Helpers.BandOf | src/utils/helpers.js:145-155 | The bands are: at most 10, (10,30], (30,60], (60,80], and above 80. Exactly one applies. |
| Helpers.BandMonotone | src/utils/helpers.js:145-155 | A fuller battery never falls in a lower band. |
| Helpers.FormatBatteryStatus | src/utils/helpers.js:106-156 | A non-number or NaN gives `Unknown`/`gray`. Otherwise the band's label in the chosen language, English when unsupported, and the band's colour. |
| Helpers.BatteryColorIgnoresLanguage | src/utils/helpers.js:143 | The colour depends only on the percentage, and an unsupported language reads as English. |
| Helpers.BatteryStatusTellsBand | src/utils/helpers.js:106-156 | Two readings share a colour exactly when both are unknown or both fall in the same band, whatever the languages. Within one language the text tells the band too, and a number never reads `Unknown`. |
| Helpers.CalculateEstimatedRuntime | src/utils/helpers.js:164-170 | 0 for a non-number and 0 when `p/100 * full` is negative. Otherwise it is the nearest whole number to `p/100 * full`. |
| Helpers.RuntimeMonotone | src/utils/helpers.js:169 | Non-decreasing in the percentage for a fixed non-negative full-charge runtime, and 100% gives 300 by default. |
| Helpers.DurationAsWritten | src/utils/helpers.js:207-224 | The source's duration. Unknown exactly for non-numbers. Below 60 the rounded minutes. From 60 on, `H = floor(m/60)` hours with `60·H ≤ m < 60·(H+1)` and the remainder `m − 60·H` rounded, which can reach 60. |
| Helpers.FormatDurationAsWritten | src/utils/helpers.js:207-224 | The source's text: it reads back as the duration the source computes, and is `Unknown` exactly for non-numbers. |
| Helpers.DurationShowsSixtyMinutes | src/utils/helpers.js:212-217 | 119.6 minutes renders as `1 hr 60 min`, and 59.7 as `60 min`. |
| Helpers.Duration | src/utils/helpers.js:207-224 | The corrected duration. Unknown exactly for non-numbers. Otherwise the shown minutes are below 60 and `60·hours + minutes` is the rounded duration. |
| Helpers.FormatDuration | src/utils/helpers.js:207-224 | The corrected text: it reads back as the corrected duration, and is `Unknown` exactly for non-numbers. |
| Helpers.ReadRender | src/utils/helpers.js:207-224 | Every duration text reads back as the duration it renders: `N min`, `H hr`, `H hr M min` or `Unknown`. |
| Helpers.DurationAgreesOnWholeMinutes | src/utils/helpers.js:212-223 | On whole minutes the source and the corrected duration agree. |
| Helpers.AsWrittenDiffersOnlyAtSixty | src/utils/helpers.js:212-223 | The source's hours and minutes always total the rounded duration, and the source differs from the correction exactly when it shows 60 minutes. |
| Helpers.GetStatusColor | src/utils/helpers.js:231-244 | Total: a non-default class triple exactly for the four tractor statuses. |
| Helpers.StatusColorTellsStatus | src/utils/helpers.js:231-244 | Two statuses get the same colours exactly when they are equal or both fall to the default. |
| Helpers.GetTaskStatusColor | src/utils/helpers.js:277-290 | Total: the scheduled, in-progress and cancelled statuses have their colours, and every other value the default. |
| Helpers.TaskColorTellsStatus | src/utils/helpers.js:277-290 | Two task statuses get the same colours exactly when they are equal or neither is scheduled, in progress or cancelled; `completed` looks like an unknown status. |
| Language.ProfileLanguage | src/context/LanguageContext.jsx:19-22 | The profile's `preferences.language`. An unparsable or `null` profile throws. |
| Language.GetUserLanguage | src/context/LanguageContext.jsx:12-33 | Any language returned is supported, and a supported stored language wins. |
| Language.GetUserLanguagePrecedence | src/context/LanguageContext.jsx:13-32 | Without a usable stored value, a supported `preferences.language` wins whatever else the profile holds. A missing or unsupported profile language, or no profile at all, falls through to the browser's primary subtag when supported and Hindi otherwise. A profile that does not parse, or parses to `null`, makes the call throw. |
| Language.BrowserPrimarySubtag | src/context/LanguageContext.jsx:27 | Only the part before the first `-` counts: `mr-IN` gives Marathi and `en_US` gives Hindi. |
| Language.SetLanguage | src/context/LanguageContext.jsx:38-46 | An unsupported code changes nothing. A supported one becomes both the state and the stored value. |
| Language.SetLanguagePersists | src/context/LanguageContext.jsx:12-46 | A language once set is the one the next load starts in. |
| ResponseFormatter.Wire | server/src/middleware/responseFormatter.js:5-8 | The serialised body keeps exactly the keys whose value is not `undefined`. |
| ResponseFormatter.Success | server/src/middleware/responseFormatter.js:3-9 | Status 200 unless given, `success: true`, and message `Success` by default. |
| ResponseFormatter.Pages | server/src/middleware/responseFormatter.js:21 | `pages` is the ceiling of `total/limit`, or `null` for a zero limit. |
| ResponseFormatter.PagesCoverTotal | server/src/middleware/responseFormatter.js:21 | With positive totals and limits, `pages·limit ≥ total` and `(pages−1)·limit < total`. |
| ResponseFormatter.Paginated | server/src/middleware/responseFormatter.js:12-24 | Status 200 unless given, `success: true`, and the pagination carries total, limit and the page count. |
| ResponseFormatter.Error | server/src/middleware/responseFormatter.js:27-33 | Status 400 unless given, `success: false`, and `errors` defaulting to `null`. |
| ResponseFormatter.Fixed | server/src/middleware/responseFormatter.js:36-57 | The fixed status, `success: false`, and the default message unless one is given. |
| ResponseFormatter.EnvelopeReadsBack | server/src/middleware/responseFormatter.js:3-57 | A client reads back the data, message and errors the handler passed (omitted ones as their defaults), `success` tells success from error, and no other key is sent. `notFound`, `unauthorized` and `forbidden` answer 404, 401 and 403. |
| AuthMiddleware.TokenOf | server/src/middleware/auth.js:7 | A token, when there is one, contains no space. |
| AuthMiddleware.VerifyToken | server/src/middleware/auth.js:6-20 | Passes on exactly when a non-empty token verifies, with the decoded user. Otherwise 401: `No token provided` without a token, `Invalid token` when verification fails. |
| AuthMiddleware.TokenIsSecondWord | server/src/middleware/auth.js:7 | The token is the word after the scheme, whatever the scheme says. |
| AuthMiddleware.BareHeaderHasNoToken | server/src/middleware/auth.js:7-11 | A header without a space carries no token and answers 401. |
| AuthMiddleware.CheckRole | server/src/middleware/auth.js:23-35 | 401 without a user, 403 for an unlisted role, and otherwise passes on unchanged. |
| AuthMiddleware.TokenThenRole | server/src/middleware/auth.js:6-35 | A request passes both guards exactly when its token decodes to a user whose role is listed. |
| AuthMiddleware.CheckOwnership | server/src/middleware/auth.js:38-56 | 500 on a lookup error, on a resource without the owner field and on a request without a user. 404 for a missing resource. 403 when the owner differs from `req.user.id`. It passes on only for the owner. |
| AuthMiddleware.OnlyOwnerProceeds | server/src/middleware/auth.js:38-56 | Two users who both pass carry the same id, a user carrying the owner's id passes, and the verdict depends only on the user's id. |
| AuthMiddleware.Check2FA | server/src/middleware/auth.js:59-69 | 401 without a user, 403 when two-factor is off, and otherwise passes on. |
| AuthMiddleware.GuardsAnswer401Or403 | server/src/middleware/auth.js:23-69 | The role and two-factor guards answer only 401 or 403, and 401 exactly when there is no user. |
| Diagnostics.WarningsOf | mobile-app/src/screens/DiagnosticsScreen.js:36-44 | At most two warnings. Low battery exactly below 20, high temperature exactly above 80, battery first. |
| Diagnostics.ErrorsOf | mobile-app/src/screens/DiagnosticsScreen.js:46-54 | One error per component not `normal`, motor first, with the status in the text. |
| Diagnostics.UpdateDiagnostics | mobile-app/src/screens/DiagnosticsScreen.js:28-64 | `Error` exactly with errors, `Warning` exactly with warnings only, and `Normal` otherwise. |
| Diagnostics.NormalExactly | mobile-app/src/screens/DiagnosticsScreen.js:36-61 | `Normal` exactly when both components are normal, the battery is not below 20 and the temperature not above 80. A missing status is an error. |
| Diagnostics.ErrorsOutrankWarnings | mobile-app/src/screens/DiagnosticsScreen.js:57-61 | A failing component gives `Error` even with warnings. |
| ChangePassword.HandleChangePassword | mobile-app/src/screens/ChangePasswordScreen.js:15-35 | Given the outcome of the context's `changePassword`: a mismatch sets its error and makes no call; a short password sets the length error and makes no call. Otherwise `changePassword(current, new)` is called exactly once, going back on success and showing the thrown message on failure. |
| ChangePassword.MismatchBeforeLength | mobile-app/src/screens/ChangePasswordScreen.js:16-24 | Two different passwords report the mismatch whatever their length, never the length error. |
| ChangePassword.ErrorShownIsExplained | mobile-app/src/screens/ChangePasswordScreen.js:15-35 | The text left on screen is a validation message, the thrown message after the one call, or the earlier text after a success; going back needs a valid form. |
| BatteryIndicator.FillColor | src/components/common/BatteryIndicator.jsx:5-12 | Red at most 20, yellow in (20,40], green otherwise. Exactly one applies. |
| BatteryIndicator.FillMonotone | src/components/common/BatteryIndicator.jsx:5-12 | More charge never gives a more alarming colour. `undefined` is drawn green and `null` red. |
| BatteryIndicator.ShowRuntime | src/components/common/BatteryIndicator.jsx:33-38 | The runtime block is shown exactly for a truthy runtime. A runtime of 0 prints `0` instead. |
| BatteryIndicator.EstimateAlwaysShows | src/components/common/BatteryIndicator.jsx:33-38 | A whole-minute estimate is never hidden: a positive one shows the block with its value, and 0 prints a stray `0`. |
| TractorControl.Clip | hardware/tractor_control.py:59-60 | The clamp lies in [-1, 1] and is the identity inside it. |
| TractorControl.HandleMovement | hardware/tractor_control.py:53-66 | Left `y+x` and right `y−x`, each clamped to [-1, 1]. The speed is `10·max(|left|,|right|)`, in [0, 10]. Nothing else changes. |
| TractorControl.CentredStickStops | hardware/tractor_control.py:55-66 | x = y = 0 stops both motors and gives speed 0. |
| TractorControl.ForwardAndTurn | hardware/tractor_control.py:55-66 | Full forward drives both wheels at full throttle. A pure turn drives them in opposite directions. |
| TractorControl.HandleAction | hardware/tractor_control.py:68-90 | `start_cutting` and `stop_cutting` set the cutting status and run or stop the cutter motor. `load_trailer` and `unload_trailer` set the trailer status to its end value and leave the loader motor at 0. Each action touches only its own motor and status. An unknown action changes nothing. Drive state is untouched. |
| TractorControl.ActionsPair | hardware/tractor_control.py:69-90 | A load then an unload ends empty with the loader stopped, and start then stop cutting ends idle. |
| TractorControl.ControlCallback | hardware/tractor_control.py:43-51 | The corrected callback on a decoded command: movement with numeric x and y moves and action runs the action. Anything else changes nothing. |
| TractorControl.ControlCallbackAsWritten | hardware/tractor_control.py:43-51 | As written every command leaves the state unchanged. |
| TractorControl.CommandsIgnoredAsWritten | hardware/tractor_control.py:44-47 | As written a movement never reaches the motors, while the decoded command does. |
| TractorControl.UpdateTelemetry | hardware/tractor_control.py:92-116 | The battery drops by 0.1, floored at 0. The temperature is the reading when there is one. The published telemetry is the new state. |
| TractorControl.BatteryDrains | hardware/tractor_control.py:102 | Each tick leaves the battery non-negative and no fuller. |
| TractorControl.TicksDrain | hardware/tractor_control.py:92-116 | After n ticks the battery is `max(0, b − 0.1·n)`. |

## Left out

- Storage and network mechanics are left out, because they are I/O. This covers IndexedDB transactions and cursors, `fetch`, `localStorage`, socket.io, Mongoose, ROS publishers and the serial line. Each one is an abstract map or sequence, or an outcome parameter.
- Storage failure is modelled for `queueOperation`, whose callers ignore its answer, and for the sync: its snapshot read (a database that cannot be opened, or a rejected request) and each `markOperationComplete` it awaits, as a per-record outcome: the mark succeeds, answers `false` because the database or transaction cannot be opened, or rejects. On its own, `markOperationComplete` answers `false` when storage is down; a rejected `get` or `put` request inside it is modelled only in the sync. A failed cache read or write and a failed cleanup are left out. A rejected `getPendingOperations` inside `getTask`, `updateTask` and `deleteTask` is left out too: their offline-created-task lookups assume the log can be read.
- `OfflineStore.SyncPendingOperations` stamps every record completed in one pass with the same time, whereas the source reads the clock again for each record.
- `OfflineStore.SyncPendingOperations` requires the store invariant `Valid` (ids strictly increasing and issued by the key generator). IndexedDB's key generator guarantees this for every reachable store, and every operation is proved to preserve it.
- The sync replay makes no API call in the source. Replaying a record is therefore an abstract step that may fail. No reconciliation of temporary `offline_` ids with server ids exists, and no guard against two concurrent syncs exists, so the model claims neither.
- The clock, `Math.random()`, `setInterval`/`setTimeout`, the simulated one-second sync delay, the battery drain and location jitter, and the delayed end of "return home" are left out. Timers are outside a sequential model, and timestamps are parameters.
- `JSON.stringify` and `JSON.parse` are parameters. Spreading a non-object value (a string or an array adds index keys) is left out: every payload spread here is an object.
- `TractorContext.TimeOf`: parsing a date string (`Date.parse`) is a parameter, like `JSON.parse`. An array or object `scheduledTime`, which JavaScript converts to a string first, is treated as an invalid date.
- `TractorContext.SendDirectionCommand` and `TractorContext.SendSpeedCommand` take a string direction and an integer speed, the values the control panel passes; the source accepts any value.
- Comparisons of strings with numbers (`"15" < 20`) are left out: a string compares as NaN. Infinity is not a value of the model.
- `Helpers.FormatBatteryStatus`: a language named like an inherited object key (`toString`) is treated as unsupported.
- `ChangePassword.HandleChangePassword` counts characters as code points, whereas JavaScript counts UTF-16 code units. The loading flag is left out.
- `ChangePassword.HandleChangePassword` takes the outcome of `changePassword` as a parameter and so describes the handler as written, not the app around it. The screen imports `AuthContext` from mobile-app/src/context/AuthContext.js, which does not export it (only `AuthProvider` and `useAuth` are exported), and that provider's value has no `changePassword`. As the app stands, `useContext(undefined)` throws when the screen renders, so neither the call nor going back can happen; were the context exported, every valid form would show "changePassword is not a function".
- `Diagnostics.UpdateDiagnostics` takes the component statuses as strings or absent. The `lastUpdate` timestamp is left out.
- `TractorControl` uses exact reals where the source uses floating point, and treats Python booleans as non-numbers. The loader's intermediate states are overwritten within the call and are not observable. `hardware/safety.py` is not part of this model.
- `hardware/tractor_control.py` also never imports `String`, so the node cannot be constructed as written. The model assumes the message type is available.
- `ResponseFormatter.Wire` drops `undefined` only from the envelope's own keys and from `pagination`. `JSON.stringify` also drops it inside `data` and `errors`, writes `NaN` and `undefined` array elements as `null`, and writes dates as ISO strings; serialising nested values is not modelled.
- `ApiClient.HandleResponse`: a truthy `message` that is not a string is kept as that value, where `new Error(message)` would turn it into its string form; converting arbitrary values to text is not modelled.
- `AuthMiddleware.CheckRole` compares roles structurally, as `includes` does for strings. Identity of objects is not modelled.
- Locale-dependent formatting (`formatDate`, `formatTime`, `formatDateTime`, `formatDistance`), `getOperationIcon`, `generateId`, `debounce` and `throttle` are left out. They are presentation or timing utilities outside the decision logic.
- Where the code and its documentation disagree, the model follows the code:
  - `markOperationComplete` stamps an already completed record again.
  - The sync answers `success: true` even when records fail.
  - A failed telemetry save suppresses the broadcast.
  - `getTask` and `updateTask` read an `all_tasks` cache entry that `getAllTasks` never writes (`SchedulerService.GetAllTasksLeavesTaskLookup`).
  - An offline edit of a server task is queued but not written to the cache, so a later offline `getTask` answers the task as it was (`SchedulerService.OfflineServerUpdate`).
  - The offline reads of `tractorService.js` never rethrow.
  - A lost queue write is still reported as queued.

## Findings

| source | as written | input that shows it | evidently intended | confidence | as-written member | corrected member |
|---|---|---|---|---|---|---|
| src/utils/helpers.js:212-217 | Hours are taken with `floor` before the remainder is rounded. | `formatDuration(119.6)` gives `1 hr 60 min`; `formatDuration(59.7)` gives `60 min` | Round to whole minutes first, so that the minutes shown are always below 60 (`2 hr`, `1 hr`) | not executed | Helpers.DurationAsWritten (Helpers.DurationShowsSixtyMinutes) | Helpers.Duration |
| hardware/tractor_control.py:44-49 | `msg.data` of a `String` message is text, and `command['type']` on text raises `TypeError`, which the handler catches and logs. | any control message, e.g. data `{"type": "movement", "x": 0, "y": 1}` | Decode the JSON text before dispatching on `type` | not executed | TractorControl.ControlCallbackAsWritten (TractorControl.CommandsIgnoredAsWritten) | TractorControl.ControlCallback |

=== FILE: api_client.dfy ===
/** The HTTP client of src/services/api.js: how each request's URL,
    headers and `fetch` options are assembled, and how a response becomes
    a value or a thrown error. `fetch` itself, `localStorage` and
    `JSON.stringify` are parameters. */
module ApiClient {
  import opened Wrappers
  import opened Json
  import opened Strings
  import opened Runtime

  const BaseUrl := "https://api.sevak.example.com/v1"

  /** A response as `handleResponse` sees it: the status and the body
      `response.json()` parses to, `None` when it does not parse. */
  datatype Response = Response(status: nat, body: Option<Json>)

  /** `response.ok`. */
  predicate Ok(r: Response) { 200 <= r.status <= 299 }

  function DefaultMessage(status: nat): string {
    "HTTP error! Status: " + NatToString(status)
  }

  /** `handleResponse(response)` (api.js:15-31). A body that does not parse
      is `{}` on the error path; a body that parses to `null` makes the
      read of `errorData.message` throw. */
  function HandleResponse(r: Response): (v: Result<Json, Error>)
    ensures v.Success? <==> Ok(r) && (r.status == 204 || r.body.Some?)
    ensures Ok(r) && r.status == 204 ==> v == Success(Null)
    ensures Ok(r) && r.status != 204 && r.body.Some? ==> v == Success(r.body.value)
    ensures Ok(r) && r.status != 204 && r.body.None? ==> v == Failure(BodyParseError)
    ensures !Ok(r) && r.body != Some(Null) ==> v.Failure? && v.error.HttpError? && v.error.status == r.status
    ensures !Ok(r) && r.body == Some(Null) ==> v == Failure(TypeError)
    ensures !Ok(r) && r.body != Some(Null) && Truthy(Get(r.body.GetOr(Obj(map[])), "message")) ==>
      v.error.message == Get(r.body.value, "message")
    ensures !Ok(r) && r.body != Some(Null) && !Truthy(Get(r.body.GetOr(Obj(map[])), "message")) ==>
      v.error.message == Str(DefaultMessage(r.status))
  {
    if !Ok(r) then
      var errorData := r.body.GetOr(Obj(map[]));
      if errorData.Null? then Failure(TypeError)
      else
        var message := if Truthy(Get(errorData, "message")) then Get(errorData, "message")
                       else Str(DefaultMessage(r.status));
        Failure(HttpError(r.status, message, errorData))
    else if r.status == 204 then Success(Null)
    else if r.body.Some? then Success(r.body.value)
    else Failure(BodyParseError)
  }

  /** The five request helpers; `data` is the payload to serialise and
      `form` the `FormData` sent as is. */
  datatype Call = GetCall | PostCall(data: Json) | PutCall(data: Json) | DeleteCall | UploadCall(form: Json)

  function MethodOf(c: Call): string {
    match c
    case GetCall => "GET"
    case PostCall(_) => "POST"
    case PutCall(_) => "PUT"
    case DeleteCall => "DELETE"
    case UploadCall(_) => "POST"
  }

  /** What `fetch` is called with. */
  datatype Request = Request(url: string, init: Record)

  /** `token ? { Authorization: ... } : {}`: an empty stored token counts as none. */
  predicate HasToken(token: Option<string>) {
    token.Some? && token.value != ""
  }

  /** The merged header set (api.js:48-52 and 145-149): the JSON content
      type except for uploads, then the bearer token, then
      `options.headers`, later entries winning. */
  function Headers(c: Call, token: Option<string>, options: Record): (h: Record)
    ensures "Authorization" in h <==> HasToken(token) || "Authorization" in Fields(Field(options, "headers"))
    ensures "Authorization" !in Fields(Field(options, "headers")) && HasToken(token) ==>
      h["Authorization"] == Str("Bearer " + token.value)
    ensures "Content-Type" in h <==> !c.UploadCall? || "Content-Type" in Fields(Field(options, "headers"))
    ensures !c.UploadCall? && "Content-Type" !in Fields(Field(options, "headers")) ==>
      h["Content-Type"] == Str("application/json")
    ensures forall k :: k in Fields(Field(options, "headers")) ==> k in h && h[k] == Fields(Field(options, "headers"))[k]
  {
    var defaults: Record := if c.UploadCall? then map[] else map["Content-Type" := Str("application/json")];
    var auth: Record := if HasToken(token) then map["Authorization" := Str("Bearer " + token.value)] else map[];
    defaults + auth + Fields(Field(options, "headers"))
  }

  /** The `body` entry: the serialised payload, the form as is, or none. */
  function BodyOf(c: Call, stringify: Json -> Json): Record {
    match c
    case PostCall(data) => map["body" := stringify(data)]
    case PutCall(data) => map["body" := stringify(data)]
    case UploadCall(form) => map["body" := form]
    case _ => map[]
  }

  /** `api.get/post/put/delete/uploadFile(endpoint, ..., options)` up to the
      `fetch` call (api.js:46-58, 70-83, 95-108, 119-131, 143-156): `...options`
      comes last, so a caller's `headers` or `method` replaces the built one. */
  function BuildRequest(c: Call, endpoint: string, options: Record, token: Option<string>, stringify: Json -> Json): (req: Request)
    ensures req.url == BaseUrl + endpoint
    ensures req.init.Keys == {"method", "headers"} + BodyOf(c, stringify).Keys + options.Keys
    ensures "headers" !in options ==> req.init["headers"] == Obj(Headers(c, token, options))
    ensures "headers" in options ==> req.init["headers"] == options["headers"]
    ensures "method" !in options ==> req.init["method"] == Str(MethodOf(c))
    ensures forall k :: k in options ==> req.init[k] == options[k]
  {
    var base: Record := map["method" := Str(MethodOf(c)), "headers" := Obj(Headers(c, token, options))];
    Request(BaseUrl + endpoint, base + BodyOf(c, stringify) + options)
  }

  /** A request helper end to end: `fetch` rejects (`None`) or answers. */
  function Send(response: Option<Response>): (v: Result<Json, Error>)
    ensures response.None? ==> v == Failure(NetworkError)
    ensures response.Some? ==> v == HandleResponse(response.value)
  {
    match response
    case None => Failure(NetworkError)
    case Some(r) => HandleResponse(r)
  }

  /** Without caller headers a stored token is always sent as a bearer
      token and no token means no `Authorization` header; caller headers
      replace the whole set, token included. */
  lemma AuthorizationExactlyWithToken(c: Call, endpoint: string, options: Record, token: Option<string>, stringify: Json -> Json)
    ensures var req := BuildRequest(c, endpoint, options, token, stringify);
      "headers" !in options ==>
        ("Authorization" in req.init["headers"].fields <==> HasToken(token))
    ensures var req := BuildRequest(c, endpoint, options, token, stringify);
      "headers" in options && options["headers"] == Obj(map[]) ==> "Authorization" !in req.init["headers"].fields
  {
  }

  /** Uploads never get the JSON content type unless the caller sets it;
      the other helpers always do unless the caller overrides it. */
  lemma ContentTypeOnlyForJson(c: Call, endpoint: string, token: Option<string>, stringify: Json -> Json)
    ensures var req := BuildRequest(c, endpoint, map[], token, stringify);
      ("Content-Type" in req.init["headers"].fields <==> !c.UploadCall?)
  {
  }

  /** Every non-2xx answer with an object body or no parsable body is
      thrown with its status; a 2xx answer never is, unless its body fails
      to parse. */
  lemma ErrorsCarryStatus(status: nat, body: Option<Json>)
    requires body.None? || body.value.Obj?
    ensures var v := HandleResponse(Response(status, body));
      (v.Failure? && v.error.HttpError?) <==> !(200 <= status <= 299)
    ensures var v := HandleResponse(Response(status, body));
      v.Failure? && v.error.HttpError? ==> v.error.status == status
  {
  }
}

=== FILE: auth_middleware.dfy ===
/** The Express middleware of server/src/middleware/auth.js: each one
    either answers with an error status or passes the request on. Token
    verification, the model lookup and `toString` are parameters. */
module AuthMiddleware {
  import opened Wrappers
  import opened Json
  import opened Strings
  import opened Runtime

  /** What a middleware does with a request: answer it with `status` and
      `{ error }`, or call `next()` with `req.user` as it then stands. */
  datatype Outcome = Reject(status: nat, error: string) | Proceed(user: Json)

  /** `req.headers.authorization?.split(' ')[1]`, `None` when undefined. */
  function TokenOf(authorization: Option<string>): (t: Option<string>)
    ensures t.Some? ==> authorization.Some? && ' ' !in t.value
  {
    if authorization.None? then None
    else
      var parts := Split(authorization.value, ' ');
      if |parts| < 2 then None else Some(parts[1])
  }

  /** `verifyToken` (auth.js:6-20). `verify` is `jwt.verify` with the
      configured secret: the decoded payload, or `None` when it throws. */
  function VerifyToken(authorization: Option<string>, verify: string -> Option<Json>): (o: Outcome)
    ensures o.Proceed? <==> TokenOf(authorization).Some? && TokenOf(authorization).value != ""
                            && verify(TokenOf(authorization).value).Some?
    ensures o.Proceed? ==> o.user == verify(TokenOf(authorization).value).value
    ensures o.Reject? ==> o.status == 401
    ensures (TokenOf(authorization).None? || TokenOf(authorization).value == "") ==> o == Reject(401, "No token provided")
  {
    var token := TokenOf(authorization);
    if token.None? || token.value == "" then Reject(401, "No token provided")
    else
      match verify(token.value)
      case None => Reject(401, "Invalid token")
      case Some(decoded) => Proceed(decoded)
  }

  /** The token is the word after the scheme, whatever the scheme says. */
  lemma TokenIsSecondWord(scheme: string, token: string, verify: string -> Option<Json>)
    requires ' ' !in scheme && ' ' !in token && token != ""
    ensures TokenOf(Some(scheme + " " + token)) == Some(token)
    ensures VerifyToken(Some(scheme + " " + token), verify) ==
      (if verify(token).Some? then Proceed(verify(token).value) else Reject(401, "Invalid token"))
  {
    var parts := [scheme, token];
    assert Join(parts, ' ') == scheme + " " + token by {
      assert Join(parts[1..], ' ') == token;
    }
    SplitJoin(parts, ' ');
  }

  /** A header with no space, or nothing after it, carries no token. */
  lemma BareHeaderHasNoToken(word: string, verify: string -> Option<Json>)
    requires ' ' !in word
    ensures VerifyToken(Some(word), verify) == Reject(401, "No token provided")
  {
    assert Join([word], ' ') == word;
    SplitJoin([word], ' ');
  }

  /** `checkRole(roles)` (auth.js:23-35). */
  function CheckRole(roles: seq<Json>, user: Json): (o: Outcome)
    ensures !Truthy(user) ==> o == Reject(401, "User not authenticated")
    ensures Truthy(user) && Get(user, "role") !in roles ==> o == Reject(403, "Insufficient permissions")
    ensures o.Proceed? <==> Truthy(user) && Get(user, "role") in roles
    ensures o.Proceed? ==> o.user == user
  {
    if !Truthy(user) then Reject(401, "User not authenticated")
    else if Get(user, "role") !in roles then Reject(403, "Insufficient permissions")
    else Proceed(user)
  }

  /** `verifyToken` followed by `checkRole`: a request gets through both
      exactly when its token decodes to a user whose role is listed. */
  lemma TokenThenRole(authorization: Option<string>, verify: string -> Option<Json>, roles: seq<Json>)
    ensures var first := VerifyToken(authorization, verify);
      (first.Proceed? && CheckRole(roles, first.user).Proceed?) <==>
        && TokenOf(authorization).Some? && TokenOf(authorization).value != ""
        && verify(TokenOf(authorization).value).Some?
        && Truthy(verify(TokenOf(authorization).value).value)
        && Get(verify(TokenOf(authorization).value).value, "role") in roles
  {
  }

  /** `checkOwnership(model, idField)` (auth.js:38-56). `lookup` is what the
      awaited `model.findById(req.params.id)` resolves to or throws, and
      `show` is the owner field's `toString()`. Any throw, including
      `toString` on a missing owner field or reading `req.user.id` without
      a user, becomes a 500. */
  function CheckOwnership(lookup: Result<Json, Error>, idField: string, user: Json, show: Json -> string): (o: Outcome)
    ensures lookup.Failure? ==> o == Reject(500, "Server error")
    ensures lookup.Success? && !Truthy(lookup.value) ==> o == Reject(404, "Resource not found")
    ensures o.Proceed? ==> lookup.Success? && Truthy(lookup.value) && Get(user, "id") == Str(show(Get(lookup.value, idField)))
    ensures lookup.Success? && Truthy(lookup.value) && !Nullish(Get(lookup.value, idField)) && !Nullish(user)
            && Get(user, "id") != Str(show(Get(lookup.value, idField)))
            ==> o == Reject(403, "Not authorized to access this resource")
    ensures lookup.Success? && Truthy(lookup.value) && (Nullish(Get(lookup.value, idField)) || Nullish(user)) ==>
      o == Reject(500, "Server error")
    ensures o.Proceed? ==> o.user == user
  {
    if lookup.Failure? then Reject(500, "Server error")
    else
      var resource := lookup.value;
      if !Truthy(resource) then Reject(404, "Resource not found")
      else
        var owner := Get(resource, idField);
        if Nullish(owner) || Nullish(user) then Reject(500, "Server error")
        else if Str(show(owner)) != Get(user, "id") then Reject(403, "Not authorized to access this resource")
        else Proceed(user)
  }

  /** Ownership admits one identity per resource: two users who both pass
      carry the same id, a user carrying the owner's id passes, and the
      verdict depends on the user's id alone. */
  lemma OnlyOwnerProceeds(lookup: Result<Json, Error>, idField: string, u1: Json, u2: Json, show: Json -> string)
    ensures CheckOwnership(lookup, idField, u1, show).Proceed? && CheckOwnership(lookup, idField, u2, show).Proceed? ==>
      Get(u1, "id") == Get(u2, "id")
    ensures lookup.Success? && Truthy(lookup.value) && !Nullish(Get(lookup.value, idField)) && !Nullish(u1)
            && Get(u1, "id") == Str(show(Get(lookup.value, idField)))
            ==> CheckOwnership(lookup, idField, u1, show).Proceed?
    ensures !Nullish(u1) && !Nullish(u2) && Get(u1, "id") == Get(u2, "id") ==>
      CheckOwnership(lookup, idField, u1, show).Reject? == CheckOwnership(lookup, idField, u2, show).Reject?
  {
  }

  /** `check2FA` (auth.js:59-69). */
  function Check2FA(user: Json): (o: Outcome)
    ensures !Truthy(user) ==> o == Reject(401, "User not authenticated")
    ensures Truthy(user) && !Truthy(Get(user, "twoFactorEnabled")) ==> o == Reject(403, "Two-factor authentication required")
    ensures o.Proceed? <==> Truthy(user) && Truthy(Get(user, "twoFactorEnabled"))
  {
    if !Truthy(user) then Reject(401, "User not authenticated")
    else if !Truthy(Get(user, "twoFactorEnabled")) then Reject(403, "Two-factor authentication required")
    else Proceed(user)
  }

  /** The status codes separate the causes: 401 means no usable identity,
      403 an identity without the right, and neither guard answers with
      anything else. */
  lemma GuardsAnswer401Or403(roles: seq<Json>, user: Json)
    ensures CheckRole(roles, user).Reject? ==> (CheckRole(roles, user).status == 401 <==> !Truthy(user))
    ensures Check2FA(user).Reject? ==> (Check2FA(user).status == 401 <==> !Truthy(user))
    ensures CheckRole(roles, user).Reject? ==> CheckRole(roles, user).status in {401, 403}
    ensures Check2FA(user).Reject? ==> Check2FA(user).status in {401, 403}
  {
  }
}

=== FILE: battery_indicator.dfy ===
/** The decisions in src/components/common/BatteryIndicator.jsx: the fill
    colour band and whether the remaining-runtime block is rendered. */
module BatteryIndicator {
  import opened Json

  datatype Fill = Red | Yellow | Green

  /** The fill colour (BatteryIndicator.jsx:5-12). A level that compares as
      NaN, `undefined` for one, fails both tests and is drawn green; `null`
      compares as 0 and is drawn red. */
  function FillColor(level: Json): (f: Fill)
    ensures f == Red <==> AtMost(level, 20.0)
    ensures f == Yellow <==> Above(level, 20.0) && AtMost(level, 40.0)
    ensures f == Green <==> !AtMost(level, 40.0)
  {
    if AtMost(level, 20.0) then Red
    else if AtMost(level, 40.0) then Yellow
    else Green
  }

  function ClassName(f: Fill): string {
    match f
    case Red => "bg-red-500"
    case Yellow => "bg-yellow-500"
    case Green => "bg-green-500"
  }

  /** For numeric levels the bands are ordered: more charge never gives a
      more alarming colour. */
  lemma FillMonotone(a: real, b: real)
    requires a <= b
    ensures FillColor(Num(a)) == Green ==> FillColor(Num(b)) == Green
    ensures FillColor(Num(b)) == Red ==> FillColor(Num(a)) == Red
    ensures FillColor(Undefined) == Green && FillColor(Null) == Red
  {
  }

  /** What `{estimatedRuntime && (<div>...)}` renders: the runtime block,
      nothing, or, for the falsy values React prints, the bare value. */
  datatype RuntimeDisplay = Block(minutes: Json) | Hidden | StrayText(text: string)

  function ShowRuntime(estimatedRuntime: Json): (d: RuntimeDisplay)
    ensures d.Block? <==> Truthy(estimatedRuntime)
    ensures d.Block? ==> d.minutes == estimatedRuntime
    ensures estimatedRuntime == Num(0.0) ==> d == StrayText("0")
    ensures d.Hidden? <==> Nullish(estimatedRuntime) || estimatedRuntime == Bool(false) || estimatedRuntime == Str("")
  {
    if Truthy(estimatedRuntime) then Block(estimatedRuntime)
    else if estimatedRuntime == Num(0.0) then StrayText("0")
    else if estimatedRuntime.NaN? then StrayText("NaN")
    else Hidden
  }

  /** A runtime estimate in whole minutes is never hidden: a positive one
      shows the block with that value, and an exhausted battery, estimated
      at 0, prints a stray "0" instead of a block. */
  lemma EstimateAlwaysShows(minutes: nat)
    ensures minutes > 0 ==> ShowRuntime(Num(minutes as real)) == Block(Num(minutes as real))
    ensures minutes == 0 ==> ShowRuntime(Num(minutes as real)) == StrayText("0")
    ensures !ShowRuntime(Num(minutes as real)).Hidden?
  {
  }
}

=== FILE: change_password.dfy ===
/** The form logic of `handleChangePassword` in
    mobile-app/src/screens/ChangePasswordScreen.js: two checks that stop
    the submission, then one call to `changePassword`. The call's outcome
    is a parameter, so this is the handler as written: the context it reads
    `changePassword` from is not exported by
    mobile-app/src/context/AuthContext.js and provides no such function.
    The loading flag, which ends as it began, is left out. */
module ChangePassword {
  import opened Wrappers

  /** The screen after a submission: the error text shown, the calls made
      to `changePassword` (current, new) and whether it navigated back. */
  datatype Screen = Screen(error: string, calls: seq<(string, string)>, wentBack: bool)

  const Mismatch := "New passwords do not match"
  const TooShort := "Password must be at least 8 characters long"
  const MinLength := 8

  /** `handleChangePassword()` (ChangePasswordScreen.js:15-35). `outcome`
      is what the awaited call does: resolve, or throw an error with that
      message. An earlier error stays on screen after a success. */
  function HandleChangePassword(error: string, current: string, newPassword: string, confirm: string,
                                outcome: Result<(), string>): (s: Screen)
    ensures newPassword != confirm ==> s == Screen(Mismatch, [], false)
    ensures newPassword == confirm && |newPassword| < MinLength ==> s == Screen(TooShort, [], false)
    ensures |s.calls| <= 1
    ensures |s.calls| == 1 <==> newPassword == confirm && |newPassword| >= MinLength
    ensures |s.calls| == 1 ==> s.calls[0] == (current, newPassword)
    ensures s.wentBack <==> |s.calls| == 1 && outcome.Success?
    ensures |s.calls| == 1 && outcome.Failure? ==> s.error == outcome.error
    ensures s.wentBack ==> s.error == error
  {
    if newPassword != confirm then Screen(Mismatch, [], false)
    else if |newPassword| < MinLength then Screen(TooShort, [], false)
    else
      match outcome
      case Success(_) => Screen(error, [(current, newPassword)], true)
      case Failure(message) => Screen(message, [(current, newPassword)], false)
  }

  /** The mismatch check comes first: whatever their length, two different
      passwords report the mismatch, never the length. */
  lemma MismatchBeforeLength(error: string, current: string, newPassword: string, confirm: string, outcome: Result<(), string>)
    requires newPassword != confirm
    ensures HandleChangePassword(error, current, newPassword, confirm, outcome).error == Mismatch
    ensures |newPassword| < MinLength ==> HandleChangePassword(error, current, newPassword, confirm, outcome).error != TooShort
  {
  }

  /** Every text the screen ends with is explained: one of the two
      validation messages, the message the call threw, or, after a
      success, the text that was already there. A success always needs a
      valid form. */
  lemma ErrorShownIsExplained(error: string, current: string, newPassword: string, confirm: string, outcome: Result<(), string>)
    ensures var s := HandleChangePassword(error, current, newPassword, confirm, outcome);
      || s.error == Mismatch
      || s.error == TooShort
      || (outcome.Failure? && s.error == outcome.error && s.calls == [(current, newPassword)])
      || (s.wentBack && s.error == error)
    ensures HandleChangePassword(error, current, newPassword, confirm, outcome).wentBack ==>
      newPassword == confirm && |newPassword| >= MinLength
  {
  }
}

=== FILE: diagnostics.dfy ===
/** The classification `updateDiagnostics` performs in
    mobile-app/src/screens/DiagnosticsScreen.js: two warning checks, two
    error checks, and the overall status they imply. The `lastUpdate`
    timestamp is left out. */
module Diagnostics {
  import opened Wrappers
  import opened Json

  /** The fields of `tractorData` the checks read. A status is `None`
      when the field is absent, which a template literal prints as
      "undefined". */
  datatype TractorData = TractorData(battery: Json, temperature: Json, motorStatus: Option<string>, sensorStatus: Option<string>)

  datatype SystemStatus = Normal | Warning | Error

  datatype Report = Report(systemStatus: SystemStatus, errors: seq<string>, warnings: seq<string>)

  const LowBattery := "Low battery level"
  const HighTemperature := "High temperature detected"

  /** `${value}` for a status field. */
  function StatusText(status: Option<string>): string {
    match status
    case None => "undefined"
    case Some(s) => s
  }

  predicate IsNormal(status: Option<string>) { status == Some("normal") }

  function WarningsOf(d: TractorData): (w: seq<string>)
    ensures |w| <= 2
    ensures LowBattery in w <==> Below(d.battery, 20.0)
    ensures HighTemperature in w <==> Above(d.temperature, 80.0)
    ensures |w| == 2 ==> w == [LowBattery, HighTemperature]
  {
    (if Below(d.battery, 20.0) then [LowBattery] else [])
    + (if Above(d.temperature, 80.0) then [HighTemperature] else [])
  }

  function ErrorsOf(d: TractorData): (e: seq<string>)
    ensures |e| <= 2
    ensures |e| == (if IsNormal(d.motorStatus) then 0 else 1) + (if IsNormal(d.sensorStatus) then 0 else 1)
    ensures !IsNormal(d.motorStatus) ==> e[0] == "Motor issue: " + StatusText(d.motorStatus)
    ensures !IsNormal(d.sensorStatus) ==> e[|e| - 1] == "Sensor issue: " + StatusText(d.sensorStatus)
  {
    (if IsNormal(d.motorStatus) then [] else ["Motor issue: " + StatusText(d.motorStatus)])
    + (if IsNormal(d.sensorStatus) then [] else ["Sensor issue: " + StatusText(d.sensorStatus)])
  }

  /** `updateDiagnostics()` (DiagnosticsScreen.js:28-64). */
  function UpdateDiagnostics(d: TractorData): (r: Report)
    ensures r.errors == ErrorsOf(d) && r.warnings == WarningsOf(d)
    ensures r.systemStatus == Error <==> |r.errors| > 0
    ensures r.systemStatus == Warning <==> |r.errors| == 0 && |r.warnings| > 0
    ensures r.systemStatus == Normal <==> |r.errors| == 0 && |r.warnings| == 0
  {
    var errors := ErrorsOf(d);
    var warnings := WarningsOf(d);
    var status := if |errors| > 0 then Error else if |warnings| > 0 then Warning else Normal;
    Report(status, errors, warnings)
  }

  /** The status is `Normal` exactly when both components report "normal",
      the battery is not below 20 and the temperature not above 80. A
      missing status is an error, and a missing battery reading is no
      warning (it compares as NaN). */
  lemma NormalExactly(d: TractorData)
    ensures UpdateDiagnostics(d).systemStatus == Normal <==>
      IsNormal(d.motorStatus) && IsNormal(d.sensorStatus) && !Below(d.battery, 20.0) && !Above(d.temperature, 80.0)
    ensures d.motorStatus.None? ==> UpdateDiagnostics(d).systemStatus == Error
    ensures d.battery.Undefined? ==> LowBattery !in UpdateDiagnostics(d).warnings
  {
    var w := WarningsOf(d);
    if Below(d.battery, 20.0) { assert LowBattery in w; }
    if Above(d.temperature, 80.0) { assert HighTemperature in w; }
  }

  /** Errors outrank warnings: a failing component reports `Error` even at
      a low battery and a high temperature. */
  lemma ErrorsOutrankWarnings(d: TractorData)
    requires !IsNormal(d.sensorStatus)
    ensures UpdateDiagnostics(d).systemStatus == Error
    ensures UpdateDiagnostics(d.(battery := Num(5.0), temperature := Num(95.0))).systemStatus == Error
  {
  }
}

=== FILE: helpers.dfy ===
/** The display helpers of src/utils/helpers.js: battery bands, the
    runtime estimate, the duration text and the status colour classes.
    Numbers are finite reals (`Num`) or `NaN`; `Math.round(x)` is
    `floor(x + 0.5)`. */
module Helpers {
  import opened Json
  import opened Strings
  import opened Wrappers

  /** `Math.round`: halves round up, towards positive infinity. */
  function Round(x: real): (r: int)
    ensures x - 0.5 < r as real <= x + 0.5
  {
    (x + 0.5).Floor
  }

  lemma RoundMonotone(x: real, y: real)
    requires x <= y
    ensures Round(x) <= Round(y)
  {
    assert Round(x) as real <= x + 0.5 <= y + 0.5 < Round(y) as real + 1.0;
  }

  /** `typeof v === 'number' && !isNaN(v)`. */
  predicate IsNumber(v: Json) { v.Num? }

  // ---------------------------------------------------------------------
  // formatBatteryStatus (helpers.js:106-156)

  datatype Band = Critical | Low | Medium | Good | Excellent

  /** The band a percentage falls in: the first threshold it does not exceed. */
  function BandOf(p: real): (b: Band)
    ensures b == Critical <==> p <= 10.0
    ensures b == Low <==> 10.0 < p <= 30.0
    ensures b == Medium <==> 30.0 < p <= 60.0
    ensures b == Good <==> 60.0 < p <= 80.0
    ensures b == Excellent <==> 80.0 < p
  {
    if p <= 10.0 then Critical
    else if p <= 30.0 then Low
    else if p <= 60.0 then Medium
    else if p <= 80.0 then Good
    else Excellent
  }

  function Rank(b: Band): nat {
    match b
    case Critical => 0
    case Low => 1
    case Medium => 2
    case Good => 3
    case Excellent => 4
  }

  /** A fuller battery never falls in a lower band. */
  lemma BandMonotone(p: real, q: real)
    requires p <= q
    ensures Rank(BandOf(p)) <= Rank(BandOf(q))
  {
  }

  function BandColor(b: Band): string {
    match b
    case Critical => "red"
    case Low => "orange"
    case Medium => "yellow"
    case Good => "light-green"
    case Excellent => "green"
  }

  const SupportedLabelLanguages := {"en", "hi", "mr", "te"}

  /** `descriptions[language] || descriptions.en`. */
  function LabelLanguage(language: string): (l: string)
    ensures l in SupportedLabelLanguages
    ensures language in SupportedLabelLanguages ==> l == language
  {
    if language in SupportedLabelLanguages then language else "en"
  }

  function Label(language: string, b: Band): string
    requires language in SupportedLabelLanguages
  {
    if language == "hi" then
      match b
      case Critical => "अत्यंत कम"
      case Low => "कम"
      case Medium => "मध्यम"
      case Good => "अच्छा"
      case Excellent => "उत्कृष्ट"
    else if language == "mr" then
      match b
      case Critical => "अत्यंत कमी"
      case Low => "कमी"
      case Medium => "मध्यम"
      case Good => "चांगला"
      case Excellent => "उत्कृष्ट"
    else if language == "te" then
      match b
      case Critical => "క్రిటికల్"
      case Low => "తక్కువ"
      case Medium => "మధ్యస్థం"
      case Good => "మంచిది"
      case Excellent => "అద్భుతం"
    else
      match b
      case Critical => "Critical"
      case Low => "Low"
      case Medium => "Medium"
      case Good => "Good"
      case Excellent => "Excellent"
  }

  datatype BatteryStatus = BatteryStatus(text: string, color: string)

  const UnknownBattery := BatteryStatus("Unknown", "gray")

  /** `formatBatteryStatus(percentage, language)`. */
  function FormatBatteryStatus(percentage: Json, language: string): (r: BatteryStatus)
    ensures !IsNumber(percentage) ==> r == UnknownBattery
    ensures IsNumber(percentage) ==>
      r == BatteryStatus(Label(LabelLanguage(language), BandOf(percentage.n)), BandColor(BandOf(percentage.n)))
  {
    if !IsNumber(percentage) then UnknownBattery
    else
      var band := BandOf(percentage.n);
      BatteryStatus(Label(LabelLanguage(language), band), BandColor(band))
  }

  /** The colour depends on the percentage alone, and an unsupported
      language reads exactly like English. */
  lemma BatteryColorIgnoresLanguage(percentage: Json, a: string, b: string)
    ensures FormatBatteryStatus(percentage, a).color == FormatBatteryStatus(percentage, b).color
    ensures a !in SupportedLabelLanguages ==> FormatBatteryStatus(percentage, a) == FormatBatteryStatus(percentage, "en")
  {
  }

  /** The colour alone tells the band: two readings share a colour exactly
      when both are unknown or both fall in the same band, whatever the
      languages. Within one language the text tells the band as well, and a
      number never reads "Unknown". */
  lemma BatteryStatusTellsBand(p: Json, q: Json, a: string, b: string)
    ensures FormatBatteryStatus(p, a).color == FormatBatteryStatus(q, b).color <==>
      (IsNumber(p) <==> IsNumber(q)) && (IsNumber(p) && IsNumber(q) ==> BandOf(p.n) == BandOf(q.n))
    ensures IsNumber(p) && IsNumber(q) ==>
      (FormatBatteryStatus(p, a).text == FormatBatteryStatus(q, a).text <==> BandOf(p.n) == BandOf(q.n))
    ensures IsNumber(p) ==> FormatBatteryStatus(p, a).text != UnknownBattery.text
  {
  }

  // ---------------------------------------------------------------------
  // calculateEstimatedRuntime (helpers.js:164-170)

  const DefaultFullChargeRuntime := 300.0

  function CalculateEstimatedRuntime(batteryPercentage: Json, fullChargeRuntime: real): (r: int)
    ensures r >= 0
    ensures !IsNumber(batteryPercentage) ==> r == 0
    ensures IsNumber(batteryPercentage) && batteryPercentage.n / 100.0 * fullChargeRuntime >= 0.0 ==>
      r as real - 0.5 <= batteryPercentage.n / 100.0 * fullChargeRuntime < r as real + 0.5
    ensures IsNumber(batteryPercentage) && batteryPercentage.n / 100.0 * fullChargeRuntime < 0.0 ==> r == 0
  {
    if !IsNumber(batteryPercentage) then 0
    else
      var minutes := Round(batteryPercentage.n / 100.0 * fullChargeRuntime);
      if minutes < 0 then 0 else minutes
  }

  lemma ProductNonNegative(a: real, b: real)
    requires a >= 0.0 && b >= 0.0
    ensures a * b >= 0.0
  {
  }

  /** More charge never means less runtime, for a non-negative full-charge
      runtime; a full battery gives the full-charge runtime rounded. */
  lemma RuntimeMonotone(p: real, q: real, fullChargeRuntime: real)
    requires p <= q && fullChargeRuntime >= 0.0
    ensures CalculateEstimatedRuntime(Num(p), fullChargeRuntime) <= CalculateEstimatedRuntime(Num(q), fullChargeRuntime)
    ensures CalculateEstimatedRuntime(Num(100.0), DefaultFullChargeRuntime) == 300
  {
    var low, high := p / 100.0 * fullChargeRuntime, q / 100.0 * fullChargeRuntime;
    ProductNonNegative((q - p) / 100.0, fullChargeRuntime);
    assert high - low == (q - p) / 100.0 * fullChargeRuntime;
    RoundMonotone(low, high);
  }

  // ---------------------------------------------------------------------
  // formatDuration (helpers.js:207-224)

  /** What `formatDuration` shows: `"N min"`, `"H hr"` (minutes 0) or
      `"H hr M min"`. */
  datatype Shown = ShownUnknown | ShownMinutes(minutes: int) | ShownHours(hours: int, minutes: int)

  function Render(s: Shown): string {
    match s
    case ShownUnknown => "Unknown"
    case ShownMinutes(m) => IntToString(m) + " min"
    case ShownHours(h, m) => if m == 0 then IntToString(h) + " hr" else IntToString(h) + " hr " + IntToString(m) + " min"
  }

  /** Reads a duration text back into what it shows: the words of the
      text, split at spaces, as `Render` writes them. */
  function ReadShown(text: string): Option<Shown> {
    ReadWords(Split(text, ' '))
  }

  function ReadWords(w: seq<string>): Option<Shown> {
    if w == ["Unknown"] then Some(ShownUnknown)
    else if |w| == 2 && w[1] == "min" && ParseInt(w[0]).Some? then Some(ShownMinutes(ParseInt(w[0]).value))
    else if |w| == 2 && w[1] == "hr" && ParseInt(w[0]).Some? then Some(ShownHours(ParseInt(w[0]).value, 0))
    else if |w| == 4 && w[1] == "hr" && w[3] == "min" && ParseInt(w[0]).Some? && ParseInt(w[2]).Some? then
      Some(ShownHours(ParseInt(w[0]).value, ParseInt(w[2]).value))
    else None
  }

  /** The words `Render` writes for a duration. */
  function Words(s: Shown): seq<string> {
    match s
    case ShownUnknown => ["Unknown"]
    case ShownMinutes(m) => [IntToString(m), "min"]
    case ShownHours(h, m) => if m == 0 then [IntToString(h), "hr"] else [IntToString(h), "hr", IntToString(m), "min"]
  }

  lemma RenderJoinsWords(s: Shown)
    ensures |Words(s)| >= 1 && Render(s) == Join(Words(s), ' ')
  {
    var w := Words(s);
    if |w| == 4 {
      assert Join(w[2..], ' ') == w[2] + " min";
      assert Join(w[1..], ' ') == "hr " + w[2] + " min";
    }
  }

  /** "Unknown" is not a number, so no rendered count reads as it. */
  lemma UnknownIsNoNumber()
    ensures ParseInt("Unknown").None?
  {
    assert "Unknown"[0] == 'U' && !IsDigit('U');
  }

  /** The words of a duration read back as that duration, and none holds
      a space. */
  lemma ReadWordsOf(s: Shown)
    ensures ReadWords(Words(s)) == Some(s)
    ensures forall i :: 0 <= i < |Words(s)| ==> ' ' !in Words(s)[i]
  {
    match s
    case ShownUnknown =>
    case ShownMinutes(m) =>
      ParseIntToString(m);
      UnknownIsNoNumber();
      var w := [IntToString(m), "min"];
      assert Words(s) == w && w != ["Unknown"];
    case ShownHours(h, m) =>
      ParseIntToString(h);
      ParseIntToString(m);
      if m == 0 {
        var w := [IntToString(h), "hr"];
        assert Words(s) == w && w != ["Unknown"] && w[1] != "min";
      } else {
        var w := [IntToString(h), "hr", IntToString(m), "min"];
        assert Words(s) == w && |w| == 4;
      }
  }

  /** The text of any duration reads back as that duration: "H hr" is
      what one shown with zero minutes reads as. */
  lemma ReadRender(s: Shown)
    ensures ReadShown(Render(s)) == Some(s)
  {
    RenderJoinsWords(s);
    ReadWordsOf(s);
    SplitJoin(Words(s), ' ');
  }

  /** The duration as the source computes it: below an hour the rounded
      minutes; otherwise the whole hours, taken before the remainder is
      rounded, so a remainder of 59.5 minutes or more shows as 60 minutes,
      and anything from 59.5 up to 60 shows as "60 min". */
  function DurationAsWritten(minutes: Json): (s: Shown)
    ensures !IsNumber(minutes) <==> s.ShownUnknown?
    ensures IsNumber(minutes) && minutes.n < 60.0 ==> s == ShownMinutes(Round(minutes.n))
    ensures IsNumber(minutes) && minutes.n >= 60.0 ==> s.ShownHours?
    ensures s.ShownHours? ==>
      && s.hours >= 1
      && 60.0 * s.hours as real <= minutes.n < 60.0 * (s.hours + 1) as real
      && s.minutes == Round(minutes.n - 60.0 * s.hours as real)
      && 0 <= s.minutes <= 60
  {
    if !IsNumber(minutes) then ShownUnknown
    else
      var m := minutes.n;
      if m < 60.0 then ShownMinutes(Round(m))
      else
        var hours := (m / 60.0).Floor;
        var remainder := m - 60.0 * hours as real;
        assert 0.0 <= remainder < 60.0;
        ShownHours(hours, Round(remainder))
  }

  /** `formatDuration(minutes)` as the source writes it: the text reads
      back as the duration the source computes. */
  function FormatDurationAsWritten(minutes: Json): (r: string)
    ensures ReadShown(r) == Some(DurationAsWritten(minutes))
    ensures !IsNumber(minutes) <==> r == "Unknown"
  {
    ReadRender(DurationAsWritten(minutes));
    Render(DurationAsWritten(minutes))
  }

  /** 119.6 minutes is shown as one hour and sixty minutes. */
  lemma DurationShowsSixtyMinutes()
    ensures DurationAsWritten(Num(119.6)) == ShownHours(1, 60)
    ensures FormatDurationAsWritten(Num(119.6)) == "1 hr 60 min"
    ensures DurationAsWritten(Num(59.7)) == ShownMinutes(60)
  {
    assert (119.6 / 60.0).Floor == 1;
    assert Round(119.6 - 60.0) == 60;
    assert DurationAsWritten(Num(119.6)) == ShownHours(1, 60);
    assert IntToString(1) == "1";
    assert NatToString(6) == "6";
    assert IntToString(60) == NatToString(6) + "0";
    assert Render(ShownHours(1, 60)) == "1 hr 60 min";
  }

  /** The duration as evidently intended: round to whole minutes first,
      then split into hours and minutes. */
  function Duration(minutes: Json): (s: Shown)
    ensures !IsNumber(minutes) <==> s.ShownUnknown?
    ensures s.ShownMinutes? ==> s.minutes == Round(minutes.n) && s.minutes < 60
    ensures s.ShownHours? ==>
      && s.hours >= 1 && 0 <= s.minutes < 60
      && 60 * s.hours + s.minutes == Round(minutes.n)
  {
    if !IsNumber(minutes) then ShownUnknown
    else
      var total := Round(minutes.n);
      if total < 60 then ShownMinutes(total)
      else ShownHours(total / 60, total % 60)
  }

  /** `formatDuration(minutes)` with the rounding corrected: the text reads
      back as the corrected duration. */
  function FormatDuration(minutes: Json): (r: string)
    ensures ReadShown(r) == Some(Duration(minutes))
    ensures !IsNumber(minutes) <==> r == "Unknown"
  {
    ReadRender(Duration(minutes));
    Render(Duration(minutes))
  }

  /** Rounding commutes with adding whole minutes. */
  lemma RoundShift(x: real, k: int)
    ensures Round(x + k as real) == Round(x) + k
  {
    assert (Round(x) + k) as real <= x + k as real + 0.5 < (Round(x) + k) as real + 1.0;
  }

  /** The source's duration always totals the rounded minutes, and it
      differs from the correction exactly when it shows 60 minutes. */
  lemma AsWrittenDiffersOnlyAtSixty(minutes: Json)
    ensures var w := DurationAsWritten(minutes);
      w.ShownHours? ==> 60 * w.hours + w.minutes == Round(minutes.n)
    ensures var w := DurationAsWritten(minutes);
      w == Duration(minutes) <==> !((w.ShownMinutes? || w.ShownHours?) && w.minutes == 60)
  {
    var w := DurationAsWritten(minutes);
    if w.ShownHours? {
      var rem := minutes.n - 60.0 * w.hours as real;
      RoundShift(rem, 60 * w.hours);
      assert rem + (60 * w.hours) as real == minutes.n;
      var total := Round(minutes.n);
      if w.minutes < 60 {
        assert total / 60 == w.hours && total % 60 == w.minutes;
      } else {
        assert total / 60 == w.hours + 1 && total % 60 == 0;
      }
    }
  }

  /** On whole numbers of minutes the source and the correction agree. */
  lemma DurationAgreesOnWholeMinutes(k: int)
    ensures DurationAsWritten(Num(k as real)) == Duration(Num(k as real))
  {
    var m := k as real;
    assert Round(m) == k;
    if k >= 60 {
      var hours := (m / 60.0).Floor;
      var remainder := m - 60.0 * hours as real;
      assert hours == k / 60 by {
        assert (k / 60) as real <= m / 60.0 < (k / 60) as real + 1.0;
      }
      assert remainder == (k % 60) as real;
    }
  }

  // ---------------------------------------------------------------------
  // getStatusColor (helpers.js:231-244), getTaskStatusColor (helpers.js:277-290)

  datatype ColorClasses = ColorClasses(bg: string, text: string, border: string)

  const DefaultStatusColor := ColorClasses("bg-gray-400", "text-gray-600", "border-gray-400")

  const TractorStatuses := ["operational", "standby", "error", "offline"]

  /** The `switch` on a tractor status; any other value, a non-string
      included, takes the default branch. */
  function GetStatusColor(status: Json): (c: ColorClasses)
    ensures (status.Str? && status.s in TractorStatuses) <==> c != DefaultStatusColor
  {
    if status == Str("operational") then ColorClasses("bg-green-500", "text-green-700", "border-green-500")
    else if status == Str("standby") then ColorClasses("bg-blue-500", "text-blue-700", "border-blue-500")
    else if status == Str("error") then ColorClasses("bg-red-500", "text-red-700", "border-red-500")
    else if status == Str("offline") then ColorClasses("bg-gray-500", "text-gray-700", "border-gray-500")
    else DefaultStatusColor
  }

  /** The colour tells the status: two statuses share a colour exactly
      when they are equal or both fall to the default. */
  lemma StatusColorTellsStatus(a: Json, b: Json)
    ensures GetStatusColor(a) == GetStatusColor(b) <==>
      a == b || (!(a.Str? && a.s in TractorStatuses) && !(b.Str? && b.s in TractorStatuses))
  {
  }

  const DefaultTaskColor := ColorClasses("bg-gray-100", "text-gray-700", "border-gray-200")

  /** The `switch` on a task status (`TASK_STATUSES` values). */
  function GetTaskStatusColor(status: Json): (c: ColorClasses)
    ensures status == Str("scheduled") ==> c.bg == "bg-blue-100"
    ensures status == Str("inProgress") ==> c.bg == "bg-green-100"
    ensures status == Str("cancelled") ==> c.bg == "bg-red-100"
    ensures status != Str("scheduled") && status != Str("inProgress") && status != Str("cancelled") ==> c == DefaultTaskColor
  {
    if status == Str("scheduled") then ColorClasses("bg-blue-100", "text-blue-700", "border-blue-200")
    else if status == Str("inProgress") then ColorClasses("bg-green-100", "text-green-700", "border-green-200")
    else if status == Str("completed") then ColorClasses("bg-gray-100", "text-gray-700", "border-gray-200")
    else if status == Str("cancelled") then ColorClasses("bg-red-100", "text-red-700", "border-red-200")
    else DefaultTaskColor
  }

  const HighlightedTaskStatuses := ["scheduled", "inProgress", "cancelled"]

  /** The colour tells a scheduled, running or cancelled task apart from
      every other status; a completed task looks like one whose status is
      unknown, since its case repeats the default classes. */
  lemma TaskColorTellsStatus(a: Json, b: Json)
    ensures GetTaskStatusColor(a) == GetTaskStatusColor(b) <==>
      a == b || (!(a.Str? && a.s in HighlightedTaskStatuses) && !(b.Str? && b.s in HighlightedTaskStatuses))
    ensures GetTaskStatusColor(Str("completed")) == DefaultTaskColor
  {
  }
}

=== FILE: json.dfy ===
/** JavaScript values as the application passes them around: request
    payloads, cached server responses, queued operation records and the
    objects its services return. A plain object is a `map<string, Json>`
    (a `Record`); the spread `{...a, ...b}` is the map union `a + b`, in
    which the keys of `b` win. */
module Json {
  import opened Wrappers

  datatype Json =
    | Undefined
    | Null
    | Bool(b: bool)
    | Num(n: real)     // a finite number
    | NaN
    | Str(s: string)
    | Date(millis: int) // a `Date` object; ISO-string parsing is abstracted into it
    | Arr(items: seq<Json>)
    | Obj(fields: map<string, Json>)

  type Record = map<string, Json>

  /** JavaScript truthiness: `undefined`, `null`, `false`, `0`, `NaN` and
      `''` are falsy; every object, array and date is truthy. */
  predicate Truthy(j: Json) {
    match j
    case Undefined => false
    case Null => false
    case Bool(b) => b
    case Num(n) => n != 0.0
    case NaN => false
    case Str(s) => s != ""
    case Date(_) => true
    case Arr(_) => true
    case Obj(_) => true
  }

  predicate Nullish(j: Json) {
    j.Undefined? || j.Null?
  }

  /** Property read `j.k`. A missing key and a read on a non-object both
      give `undefined`; reads on `null`/`undefined`, which throw in
      JavaScript, are handled by the callers that can reach them. */
  function Get(j: Json, k: string): Json {
    if j.Obj? && k in j.fields then j.fields[k] else Undefined
  }

  /** `Get` on a record. */
  function Field(r: Record, k: string): Json {
    if k in r then r[k] else Undefined
  }

  /** The number a relational operator (`<`, `<=`, `>`) compares: `null`
      is 0, booleans 0 and 1, a date its time value. `None` stands for
      NaN, which makes every comparison false; `undefined`, objects,
      arrays and strings are all taken to convert to NaN. */
  function ToNumber(j: Json): (r: Option<real>)
    ensures j.Num? ==> r == Some(j.n)
    ensures Nullish(j) ==> (r.Some? <==> j.Null?)
  {
    match j
    case Null => Some(0.0)
    case Bool(b) => Some(if b then 1.0 else 0.0)
    case Num(n) => Some(n)
    case Date(ms) => Some(ms as real)
    case _ => None
  }

  /** `j < bound`, `j <= bound` and `j > bound` against a number. */
  predicate Below(j: Json, bound: real) { ToNumber(j).Some? && ToNumber(j).value < bound }
  predicate AtMost(j: Json, bound: real) { ToNumber(j).Some? && ToNumber(j).value <= bound }
  predicate Above(j: Json, bound: real) { ToNumber(j).Some? && ToNumber(j).value > bound }

  /** The own fields a value contributes when spread with `...`:
      `null`, `undefined` and the other non-objects add none. */
  function Fields(j: Json): Record {
    if j.Obj? then j.fields else map[]
  }

  /** `{...a, ...b}`: every key of either, the value from `b` where both have it. */
  function Spread(a: Record, b: Record): (r: Record)
    ensures r.Keys == a.Keys + b.Keys
    ensures forall k :: k in b ==> r[k] == b[k]
    ensures forall k :: k in a && k !in b ==> r[k] == a[k]
  {
    a + b
  }
}

=== FILE: language.dfy ===
/** The language choice of src/context/LanguageContext.jsx: which of the
    four supported languages the interface starts in, and how a change is
    accepted and persisted. `localStorage`, `navigator.language` and
    `JSON.parse` are parameters. */
module Language {
  import opened Wrappers
  import opened Json
  import opened Strings
  import opened Runtime

  const SupportedLanguages := ["en", "hi", "mr", "te"]

  const DefaultLanguage := "hi"

  /** `supportedLanguages.includes(v)` for a value of any type. */
  predicate IsSupported(v: Json) {
    v.Str? && v.s in SupportedLanguages
  }

  /** The language stored in the user profile, `preferences?.language`, or
      `undefined`; `Failure` when parsing the profile throws or it parses
      to `null`, whose destructuring throws. */
  function ProfileLanguage(userProfile: string, parse: string -> Option<Json>): (r: Result<Json, Error>)
    ensures parse(userProfile).None? ==> r.Failure?
    ensures parse(userProfile) == Some(Null) ==> r == Failure(TypeError)
    ensures parse(userProfile).Some? && !parse(userProfile).value.Null? ==>
      r == Success(Get(Get(parse(userProfile).value, "preferences"), "language"))
  {
    match parse(userProfile)
    case None => Failure(SyntaxError)
    case Some(profile) =>
      if profile.Null? then Failure(TypeError)
      else Success(Get(Get(profile, "preferences"), "language"))
  }

  /** `getUserLanguage()` (LanguageContext.jsx:12-33): `stored` and
      `userProfile` are the `localStorage` entries, `browser` is
      `navigator.language`. */
  function GetUserLanguage(stored: Option<string>, userProfile: Option<string>, parse: string -> Option<Json>, browser: string): (r: Result<string, Error>)
    ensures r.Success? ==> r.value in SupportedLanguages
    ensures stored.Some? && stored.value in SupportedLanguages ==> r == Success(stored.value)
  {
    if stored.Some? && stored.value != "" && stored.value in SupportedLanguages then Success(stored.value)
    else
      var fromProfile: Result<Json, Error> :=
        if userProfile.Some? && userProfile.value != "" then ProfileLanguage(userProfile.value, parse)
        else Success(Undefined);
      if fromProfile.Failure? then Failure(fromProfile.error)
      else if Truthy(fromProfile.value) && IsSupported(fromProfile.value) then Success(fromProfile.value.s)
      else
        var browserLang := BeforeFirst(browser, '-');
        if browserLang in SupportedLanguages then Success(browserLang) else Success(DefaultLanguage)
  }

  /** The precedence: a supported stored language wins; without one a
      supported profile language, whatever else the profile holds; without
      one the browser's primary subtag; and Hindi last. An unsupported or
      missing candidate is passed over, and a profile that does not parse,
      or parses to `null`, makes the whole call throw. */
  lemma GetUserLanguagePrecedence(stored: Option<string>, userProfile: Option<string>, parse: string -> Option<Json>, browser: string)
    requires stored.None? || stored.value !in SupportedLanguages
    ensures userProfile.Some? && userProfile.value != "" && parse(userProfile.value).Some?
            && !parse(userProfile.value).value.Null?
            && IsSupported(Get(Get(parse(userProfile.value).value, "preferences"), "language"))
            ==> GetUserLanguage(stored, userProfile, parse, browser)
                == Success(Get(Get(parse(userProfile.value).value, "preferences"), "language").s)
    ensures userProfile.Some? && userProfile.value != "" && parse(userProfile.value).Some?
            && !parse(userProfile.value).value.Null?
            && !IsSupported(Get(Get(parse(userProfile.value).value, "preferences"), "language"))
            ==> GetUserLanguage(stored, userProfile, parse, browser) == Success(BrowserOrDefault(browser))
    ensures userProfile.Some? && userProfile.value != "" && parse(userProfile.value).None? ==>
      GetUserLanguage(stored, userProfile, parse, browser) == Failure(SyntaxError)
    ensures userProfile.Some? && userProfile.value != "" && parse(userProfile.value) == Some(Null) ==>
      GetUserLanguage(stored, userProfile, parse, browser) == Failure(TypeError)
    ensures (userProfile.None? || userProfile.value == "") ==>
      GetUserLanguage(stored, userProfile, parse, browser) == Success(BrowserOrDefault(browser))
    ensures BrowserOrDefault(browser) == BeforeFirst(browser, '-') || BrowserOrDefault(browser) == DefaultLanguage
    ensures BeforeFirst(browser, '-') in SupportedLanguages <==> BrowserOrDefault(browser) == BeforeFirst(browser, '-')
  {
  }

  /** The browser's primary subtag when it is supported, Hindi otherwise. */
  function BrowserOrDefault(browser: string): string {
    var browserLang := BeforeFirst(browser, '-');
    if browserLang in SupportedLanguages then browserLang else DefaultLanguage
  }

  /** Only the primary subtag of the browser language counts: `mr-IN` picks
      Marathi while `en_US`, which has no `-`, is unsupported. */
  lemma BrowserPrimarySubtag(parse: string -> Option<Json>)
    ensures GetUserLanguage(None, None, parse, "mr-IN") == Success("mr")
    ensures GetUserLanguage(None, None, parse, "en_US") == Success(DefaultLanguage)
  {
    var r := BeforeFirst("mr-IN", '-');
    assert "mr-IN"[2] == '-';
    assert |r| == 2;
    assert r == "mr-IN"[..2] == "mr";
  }

  /** The provider's language and the `sevak_language` storage entry. */
  datatype LangState = LangState(language: string, stored: Option<string>)

  /** `setLanguage(lang)` (LanguageContext.jsx:38-46). */
  function SetLanguage(st: LangState, lang: string): (st': LangState)
    ensures lang !in SupportedLanguages ==> st' == st
    ensures lang in SupportedLanguages ==> st'.language == lang && st'.stored == Some(lang)
  {
    if lang !in SupportedLanguages then st else LangState(lang, Some(lang))
  }

  /** A language once set is the one the next load starts in, whatever the
      profile and browser say. */
  lemma SetLanguagePersists(st: LangState, lang: string, userProfile: Option<string>, parse: string -> Option<Json>, browser: string)
    requires lang in SupportedLanguages
    ensures GetUserLanguage(SetLanguage(st, lang).stored, userProfile, parse, browser) == Success(SetLanguage(st, lang).language)
  {
  }
}

=== FILE: offline_context.dfy ===
/** The in-memory offline state of src/context/OfflineContext.jsx: the
    offline flag, the append-only list of operations performed while
    offline, and the time of the last sync. React state updates are applied
    at once, and a change to the list re-runs the connectivity effect, as
    its dependency list `[pendingOperations]` (OfflineContext.jsx:36)
    makes React do; the simulated one-second sync delay is left out. */
module OfflineContext {
  import opened Wrappers
  import opened Json
  import opened Strings
  import opened Runtime

  datatype Ctx = Ctx(isOffline: bool, pending: seq<Record>, lastSyncTime: Option<int>)

  /** The provider's initial state. */
  const Initial := Ctx(false, [], None)

  /** The element `queueOperation` appends: the operation's own fields
      followed by `timestamp` and an `op-<ms>` id, which win. */
  function Entry(operation: Record, clock: Clock): (e: Record)
    ensures "id" in e && e["id"] == Str("op-" + NatToString(clock.millis))
    ensures "timestamp" in e && e["timestamp"] == Date(clock.millis)
    ensures forall k :: k in operation && k != "id" && k != "timestamp" ==> k in e && e[k] == operation[k]
  {
    operation + map["timestamp" := Date(clock.millis), "id" := Str("op-" + NatToString(clock.millis))]
  }

  /** `queueOperation(operation)` (OfflineContext.jsx:62-68). */
  function QueueOperation(c: Ctx, operation: Record, clock: Clock): (c': Ctx)
    ensures |c'.pending| == |c.pending| + 1
    ensures c'.pending[..|c.pending|] == c.pending
    ensures c'.pending[|c.pending|] == Entry(operation, clock)
    ensures c'.isOffline == c.isOffline && c'.lastSyncTime == c.lastSyncTime
  {
    c.(pending := c.pending + [Entry(operation, clock)])
  }

  function Succeeded(result: Json, isOfflineResult: bool): Json {
    Obj(map["success" := Bool(true), "result" := result, "isOfflineResult" := Bool(isOfflineResult)])
  }

  function Failed(message: string): Json {
    Obj(map["success" := Bool(false), "error" := Str(message)])
  }

  /** `executeOperation(operationFn, offlineFallback, operationData)`
      (OfflineContext.jsx:71-93). `online` and `fallback` are what the
      awaited online call and the fallback return or throw (the message);
      only the one the branch calls is used. Nothing ever propagates. */
  function ExecuteOperation(c: Ctx, online: Result<Json, string>, fallback: Result<Json, string>, operationData: Json, clock: Clock): (r: (Ctx, Json))
    ensures !c.isOffline ==> r.0 == c
    ensures !c.isOffline && online.Success? ==> r.1 == Succeeded(online.value, false)
    ensures !c.isOffline && online.Failure? ==> r.1 == Failed(online.error)
    ensures c.isOffline && fallback.Success? && !Nullish(operationData) ==>
      && r.1 == Succeeded(fallback.value, true)
      && r.0 == QueueOperation(c, map["type" := Get(operationData, "type"), "data" := operationData,
                                      "fallbackResult" := fallback.value], clock)
    ensures c.isOffline && fallback.Failure? ==> r == (c, Failed(fallback.error))
    ensures c.isOffline && fallback.Success? && Nullish(operationData) ==> r == (c, Failed(NullRead(operationData, "type")))
  {
    if c.isOffline then
      match fallback
      case Failure(message) => (c, Failed(message))
      case Success(result) =>
        if Nullish(operationData) then (c, Failed(NullRead(operationData, "type")))
        else
          var operation := map["type" := Get(operationData, "type"), "data" := operationData, "fallbackResult" := result];
          (QueueOperation(c, operation, clock), Succeeded(result, true))
    else
      match online
      case Failure(message) => (c, Failed(message))
      case Success(result) => (c, Succeeded(result, false))
  }

  /** `syncPendingOperations()` (OfflineContext.jsx:39-59): nothing happens
      with an empty list; otherwise the list is emptied and the sync time
      stamped. */
  function SyncPendingOperations(c: Ctx, now: int): (c': Ctx)
    ensures c.pending == [] ==> c' == c
    ensures c.pending != [] ==> c'.pending == [] && c'.lastSyncTime == Some(now)
    ensures c'.isOffline == c.isOffline
  {
    if |c.pending| == 0 then c
    else c.(pending := [], lastSyncTime := Some(now))
  }

  /** `handleStatusChange()` (OfflineContext.jsx:14-22): records the new
      connectivity and syncs only when online with something pending. */
  function HandleStatusChange(c: Ctx, online: bool, now: int): (c': Ctx)
    ensures c'.isOffline == !online
    ensures !online || c.pending == [] ==> c'.pending == c.pending && c'.lastSyncTime == c.lastSyncTime
    ensures online && c.pending != [] ==> c'.pending == [] && c'.lastSyncTime == Some(now)
  {
    var c1 := c.(isOffline := !online);
    if online && |c.pending| > 0 then SyncPendingOperations(c1, now) else c1
  }

  /** `queueOperation(operation)` as the provider commits it: the new list
      re-runs the connectivity effect, whose initial check
      (OfflineContext.jsx:24-25) syncs at once when the browser is online.
      The sync's own emptying of the list re-runs the effect again, which
      then finds nothing pending (`CommitIsStable`). */
  function QueueAndCommit(c: Ctx, operation: Record, clock: Clock, online: bool, now: int): (c': Ctx)
    ensures c'.isOffline == !online
    ensures online ==> c'.pending == [] && c'.lastSyncTime == Some(now)
    ensures !online ==> c'.pending == c.pending + [Entry(operation, clock)] && c'.lastSyncTime == c.lastSyncTime
  {
    HandleStatusChange(QueueOperation(c, operation, clock), online, now)
  }

  /** `executeOperation` as the provider commits it: when the call queued
      something, the changed list re-runs the connectivity effect. The
      answer is the one `ExecuteOperation` gives. */
  function ExecuteAndCommit(c: Ctx, onlineCall: Result<Json, string>, fallback: Result<Json, string>, operationData: Json,
                            clock: Clock, online: bool, now: int): (r: (Ctx, Json))
    ensures r.1 == ExecuteOperation(c, onlineCall, fallback, operationData, clock).1
    ensures !c.isOffline || fallback.Failure? || Nullish(operationData) ==> r.0 == c
    ensures c.isOffline && fallback.Success? && !Nullish(operationData) && online ==>
      r.0.pending == [] && r.0.lastSyncTime == Some(now) && !r.0.isOffline
    ensures c.isOffline && fallback.Success? && !Nullish(operationData) && !online ==>
      r.0 == QueueOperation(c, map["type" := Get(operationData, "type"), "data" := operationData,
                                   "fallbackResult" := fallback.value], clock)
  {
    var (c1, answer) := ExecuteOperation(c, onlineCall, fallback, operationData, clock);
    if c1 == c then (c, answer)
    else
      var queued := map["type" := Get(operationData, "type"), "data" := operationData, "fallbackResult" := fallback.value];
      assert c1 == QueueOperation(c, queued, clock);
      (HandleStatusChange(c1, online, now), answer)
  }

  /** Re-running the connectivity effect with the browser's state unchanged
      changes nothing more: the committed state is a fixed point. */
  lemma CommitIsStable(c: Ctx, online: bool, now: int, later: int)
    ensures var c' := HandleStatusChange(c, online, now);
      (online ==> c'.pending == []) && HandleStatusChange(c', online, later) == c'
  {
  }

  /** While the browser is online nothing stays queued: whatever was
      pending, committing one or more `queueOperation` calls leaves the list
      empty. Offline, the entries accumulate in call order. */
  lemma {:induction false} OnlineQueueNeverLingers(c: Ctx, ops: seq<Record>, clock: Clock, online: bool, now: int)
    ensures online && ops != [] ==>
      QueueAll(c, ops, clock, online, now).pending == [] && QueueAll(c, ops, clock, online, now).lastSyncTime == Some(now)
    ensures !online ==>
      QueueAll(c, ops, clock, online, now).pending == c.pending + seq(|ops|, i requires 0 <= i < |ops| => Entry(ops[i], clock))
    decreases |ops|
  {
    if ops == [] {
      assert seq(|ops|, i requires 0 <= i < |ops| => Entry(ops[i], clock)) == [];
    } else {
      var c1 := QueueAndCommit(c, ops[0], clock, online, now);
      OnlineQueueNeverLingers(c1, ops[1..], clock, online, now);
      if !online {
        var tail := seq(|ops| - 1, i requires 0 <= i < |ops| - 1 => Entry(ops[1..][i], clock));
        assert seq(|ops|, i requires 0 <= i < |ops| => Entry(ops[i], clock)) == [Entry(ops[0], clock)] + tail;
      } else if ops[1..] == [] {
        assert QueueAll(c1, ops[1..], clock, online, now) == c1;
      }
    }
  }

  /** Committing several `queueOperation` calls one after another, each
      with the same connectivity. */
  function QueueAll(c: Ctx, ops: seq<Record>, clock: Clock, online: bool, now: int): Ctx
    decreases |ops|
  {
    if ops == [] then c else QueueAll(QueueAndCommit(c, ops[0], clock, online, now), ops[1..], clock, online, now)
  }

  /** Operations executed while offline accumulate in order; regaining
      connectivity then empties the list and stamps the sync time. */
  lemma OfflineThenOnline(c: Ctx, data: Json, result: Json, onlineCall: Result<Json, string>, clock: Clock, now: int)
    requires c.isOffline && !Nullish(data)
    ensures var r := ExecuteOperation(c, onlineCall, Success(result), data, clock);
      && |r.0.pending| == |c.pending| + 1
      && r.0.pending[|c.pending|]["fallbackResult"] == result
      && HandleStatusChange(r.0, true, now).pending == []
      && HandleStatusChange(r.0, true, now).lastSyncTime == Some(now)
      && HandleStatusChange(r.0, false, now).pending == r.0.pending
  {
    var r := ExecuteOperation(c, onlineCall, Success(result), data, clock);
    assert r.0.pending[|c.pending|] == Entry(map["type" := Get(data, "type"), "data" := data, "fallbackResult" := result], clock);
  }
}

=== FILE: offline_store.dfy ===
/** The browser-side offline store of src/services/offlineService.js: a
    key/value cache of last-known server data (object store `cached_data`)
    and an auto-increment log of operations recorded while offline (object
    store `pending_operations`). IndexedDB transactions, cursors and
    requests are abstracted into pure transitions on `Store`; the clock is
    a parameter. */
module OfflineStore {
  import opened Wrappers
  import opened Json

  /** The `type` strings the services queue. */
  datatype OpKind =
    | CreateTaskOp      // 'create_task'
    | UpdateTaskOp      // 'update_task'
    | DeleteTaskOp      // 'delete_task'
    | ExecuteTaskOp     // 'execute_task'
    | TractorCommandOp  // 'tractor_command'
    | StartOperationOp  // 'start_operation'

  datatype OpStatus = Pending | Completed

  /** What a caller passes to `queueOperation`: `{type, data, localResult?}`.
      An absent `localResult` is `Undefined`. */
  datatype Request = Request(kind: OpKind, data: Json, localResult: Json)

  /** A record of `pending_operations`, keyed by its auto-increment `id`. */
  datatype Op = Op(
    id: nat,
    kind: OpKind,
    data: Json,
    localResult: Json,
    timestamp: int,
    status: OpStatus,
    completedAt: Option<int>)

  /** A record of `cached_data`: `{key, data, timestamp}`. */
  datatype CacheEntry = CacheEntry(data: Json, timestamp: int)

  /** The whole store. `nextId` is the object store's key generator, which
      never goes back, even after records are deleted. */
  datatype Store = Store(cache: map<string, CacheEntry>, ops: seq<Op>, nextId: nat)

  /** A fresh database: both object stores empty, key generator at 1. */
  const Empty := Store(map[], [], 1)

  /** Ids strictly increase along the log (the order `getAll` returns). */
  predicate IdsIncreasing(ops: seq<Op>) {
    forall i, j :: 0 <= i < j < |ops| ==> ops[i].id < ops[j].id
  }

  /** Store invariant: the log is in key order and every key was issued by
      the key generator. */
  predicate Valid(s: Store) {
    && s.nextId >= 1
    && IdsIncreasing(s.ops)
    && forall i :: 0 <= i < |s.ops| ==> 1 <= s.ops[i].id < s.nextId
  }

  predicate HasId(ops: seq<Op>, id: nat) {
    exists i :: 0 <= i < |ops| && ops[i].id == id
  }

  // ---------------------------------------------------------------------
  // Cache (offlineService.js:52-125)

  /** `cacheData(key, data)`: puts `{key, data, timestamp}`, replacing any
      earlier entry under `key`; the log is untouched. */
  function CacheData(s: Store, key: string, data: Json, now: int): (s': Store)
    ensures key in s'.cache && s'.cache[key].data == data
    ensures forall k :: k != key ==> (k in s'.cache <==> k in s.cache)
    ensures forall k :: k != key && k in s.cache ==> s'.cache[k] == s.cache[k]
    ensures s'.ops == s.ops && s'.nextId == s.nextId
  {
    s.(cache := s.cache[key := CacheEntry(data, now)])
  }

  /** `getCachedData(key)`: the cached `data`, or `null` for a missing key. */
  function GetCachedData(s: Store, key: string): (d: Json)
    ensures key !in s.cache ==> d == Null
  {
    if key in s.cache then s.cache[key].data else Null
  }

  /** `clearCache(key = null)`: a truthy key deletes that entry only; an
      omitted, `null` or empty key clears the whole cache. */
  function ClearCache(s: Store, key: Option<string>): (s': Store)
    ensures key.Some? && key.value != "" ==> s'.cache.Keys == s.cache.Keys - {key.value}
    ensures forall k :: k in s'.cache ==> k in s.cache && s'.cache[k] == s.cache[k]
    ensures key.None? || key.value == "" ==> s'.cache == map[]
    ensures s'.ops == s.ops && s'.nextId == s.nextId
  {
    if key.Some? && key.value != "" then
      s.(cache := map k | k in s.cache && k != key.value :: s.cache[k])
    else
      s.(cache := map[])
  }

  lemma CacheThenGet(s: Store, key: string, data: Json, now: int)
    ensures GetCachedData(CacheData(s, key, data, now), key) == data
  {
  }

  /** Caching under one key does not disturb what another key reads. */
  lemma CacheOtherKey(s: Store, key: string, other: string, data: Json, now: int)
    requires other != key
    ensures GetCachedData(CacheData(s, key, data, now), other) == GetCachedData(s, other)
  {
  }

  /** After `clearCache(key)` that key reads `null`, the others read as before. */
  lemma ClearKeyThenGet(s: Store, key: string, other: string)
    requires key != ""
    ensures GetCachedData(ClearCache(s, Some(key)), key) == Null
    ensures other != key ==> GetCachedData(ClearCache(s, Some(key)), other) == GetCachedData(s, other)
  {
  }

  // ---------------------------------------------------------------------
  // Operation log (offlineService.js:132-265)

  /** `queueOperation(operation)`: adds `{...operation, timestamp, status:
      'pending'}` under the next generated key and reports `true`; when the
      database cannot be written (`storageUp` false) it reports `false` and
      nothing is stored. */
  function QueueOperation(s: Store, req: Request, now: int, storageUp: bool): (r: (Store, bool))
    ensures !storageUp ==> r.0 == s && !r.1
    ensures storageUp ==> r.1
    ensures storageUp ==> |r.0.ops| == |s.ops| + 1 && r.0.ops[..|s.ops|] == s.ops
    ensures storageUp ==>
      var op := r.0.ops[|s.ops|];
      && op.kind == req.kind && op.data == req.data && op.localResult == req.localResult
      && op.status == Pending && op.timestamp == now && op.completedAt.None?
    ensures storageUp && Valid(s) ==>
      forall i :: 0 <= i < |s.ops| ==> s.ops[i].id < r.0.ops[|s.ops|].id
    ensures Valid(s) ==> Valid(r.0)
    ensures r.0.cache == s.cache
  {
    if !storageUp then (s, false)
    else
      var op := Op(s.nextId, req.kind, req.data, req.localResult, now, Pending, None);
      (s.(ops := s.ops + [op], nextId := s.nextId + 1), true)
  }

  /** `getPendingOperations()`: every record in key order, completed ones
      included. */
  function GetPendingOperations(s: Store): (r: seq<Op>)
    ensures forall op :: op in s.ops ==> op in r
    ensures forall op :: op in r ==> op in s.ops
    ensures Valid(s) ==> IdsIncreasing(r)
  {
    s.ops
  }

  /** The record as `markOperationComplete` writes it back. */
  function Complete(op: Op, now: int): (c: Op)
    ensures c.status == Completed && c.completedAt == Some(now)
    ensures c.id == op.id && c.kind == op.kind && c.data == op.data
    ensures c.localResult == op.localResult && c.timestamp == op.timestamp
  {
    op.(status := Completed, completedAt := Some(now))
  }

  /** `markOperationComplete(id)`: `false` and no change when the database
      cannot be opened or the transaction cannot be created (`storageUp`
      false: the `catch` at offlineService.js:221-224), and for an unknown
      id; otherwise the record with that id gets `status: 'completed'` and a
      fresh `completedAt` (also when it was already completed), every other
      record and field staying as it was. A rejected `get` or `put` request
      is a rejection, which the sync models as a failed replay. */
  function MarkOperationComplete(s: Store, id: nat, now: int, storageUp: bool): (r: (Store, bool))
    ensures r.1 <==> storageUp && HasId(s.ops, id)
    ensures !r.1 ==> r.0 == s
    ensures |r.0.ops| == |s.ops| && r.0.cache == s.cache && r.0.nextId == s.nextId
    ensures storageUp ==> forall i :: 0 <= i < |s.ops| && s.ops[i].id == id ==> r.0.ops[i] == Complete(s.ops[i], now)
    ensures forall i :: 0 <= i < |s.ops| && s.ops[i].id != id ==> r.0.ops[i] == s.ops[i]
  {
    if !storageUp || !HasId(s.ops, id) then (s, false)
    else
      var ops := seq(|s.ops|, i requires 0 <= i < |s.ops| =>
        if s.ops[i].id == id then Complete(s.ops[i], now) else s.ops[i]);
      (s.(ops := ops), true)
  }

  /** Marking keeps every id where it was, so the store stays valid. */
  lemma MarkPreservesValid(s: Store, id: nat, now: int, storageUp: bool)
    requires Valid(s)
    ensures Valid(MarkOperationComplete(s, id, now, storageUp).0)
  {
    var s' := MarkOperationComplete(s, id, now, storageUp).0;
    assert forall i :: 0 <= i < |s.ops| ==> s'.ops[i].id == s.ops[i].id;
  }

  /** Marking the same id twice leaves it completed, with the second stamp. */
  lemma MarkTwice(s: Store, id: nat, t1: int, t2: int)
    requires HasId(s.ops, id)
    ensures var s2 := MarkOperationComplete(MarkOperationComplete(s, id, t1, true).0, id, t2, true);
      && s2.1
      && forall i :: 0 <= i < |s.ops| && s.ops[i].id == id ==> s2.0.ops[i] == Complete(s.ops[i], t2)
  {
    var s1 := MarkOperationComplete(s, id, t1, true).0;
    var i :| 0 <= i < |s.ops| && s.ops[i].id == id;
    assert s1.ops[i].id == id;
  }

  /** Reference: the records a cleanup keeps, in log order. */
  function PendingOps(ops: seq<Op>): seq<Op>
    decreases |ops|
  {
    if ops == [] then []
    else PendingOps(ops[..|ops| - 1]) + (if ops[|ops| - 1].status == Pending then [ops[|ops| - 1]] else [])
  }

  /** Reference: how many records are completed. */
  function CompletedCount(ops: seq<Op>): nat
    decreases |ops|
  {
    if ops == [] then 0
    else CompletedCount(ops[..|ops| - 1]) + (if ops[|ops| - 1].status == Completed then 1 else 0)
  }

  /** The kept and the removed records account for the whole log. */
  lemma {:induction false} PendingPlusCompleted(ops: seq<Op>)
    ensures |PendingOps(ops)| + CompletedCount(ops) == |ops|
    decreases |ops|
  {
    if ops != [] {
      PendingPlusCompleted(ops[..|ops| - 1]);
    }
  }

  /** Cleanup keeps exactly the pending records. */
  lemma {:induction false} PendingOpsMembers(ops: seq<Op>)
    ensures forall op :: op in PendingOps(ops) <==> op in ops && op.status == Pending
    decreases |ops|
  {
    if ops != [] {
      var init := ops[..|ops| - 1];
      PendingOpsMembers(init);
      assert ops == init + [ops[|ops| - 1]];
    }
  }

  /** Cleanup keeps the surviving records in their original key order. */
  lemma {:induction false} PendingOpsOrdered(ops: seq<Op>)
    requires IdsIncreasing(ops)
    ensures IdsIncreasing(PendingOps(ops))
    decreases |ops|
  {
    if ops != [] {
      var init := ops[..|ops| - 1];
      var last := ops[|ops| - 1];
      PendingOpsOrdered(init);
      PendingOpsMembers(init);
      var p := PendingOps(init);
      if last.status == Pending {
        forall i | 0 <= i < |p|
          ensures p[i].id < last.id
        {
          assert p[i] in init;
          var k :| 0 <= k < |init| && init[k] == p[i];
        }
      }
    }
  }

  /** `clearCompletedOperations()`: walks the log with a cursor, deleting
      every completed record, and returns how many it deleted. */
  method ClearCompletedOperations(s: Store) returns (s': Store, count: nat)
    ensures s'.ops == PendingOps(s.ops)
    ensures count == CompletedCount(s.ops)
    ensures count == |s.ops| - |s'.ops|
    ensures s'.cache == s.cache && s'.nextId == s.nextId
  {
    var kept: seq<Op> := [];
    count := 0;
    var i := 0;
    while i < |s.ops|
      invariant 0 <= i <= |s.ops|
      invariant kept == PendingOps(s.ops[..i])
      invariant count == CompletedCount(s.ops[..i])
    {
      assert s.ops[..i + 1][..i] == s.ops[..i];
      if s.ops[i].status == Completed {
        count := count + 1;
      } else {
        kept := kept + [s.ops[i]];
      }
      i := i + 1;
    }
    assert s.ops[..i] == s.ops;
    PendingPlusCompleted(s.ops);
    s' := s.(ops := kept);
  }

  /** Cleanup keeps the store valid: the key generator is not reset. */
  lemma ClearPreservesValid(s: Store)
    requires Valid(s)
    ensures Valid(s.(ops := PendingOps(s.ops)))
  {
    PendingOpsOrdered(s.ops);
    PendingOpsMembers(s.ops);
    var p := PendingOps(s.ops);
    forall i | 0 <= i < |p|
      ensures 1 <= p[i].id < s.nextId
    {
      assert p[i] in s.ops;
    }
  }

  // ---------------------------------------------------------------------
  // Sync pass (offlineService.js:275-319)

  /** The outcome of replaying one record. The source makes no API call at
      this point; what can go wrong is the awaited `markOperationComplete`,
      which rejects (`ReplayFailed`) or, when the database or transaction
      cannot be opened, resolves `false` (`NotMarked`). The sync ignores
      that answer, so a `NotMarked` record is counted as synced yet stays
      pending. */
  datatype Replay = Replayed | NotMarked | ReplayFailed(message: string)

  datatype SyncFailure = SyncFailure(operationId: nat, kind: OpKind, error: string)

  /** How `getPendingOperations` answers the sync: with the log; with an
      empty list, which it returns when the database cannot be opened; or
      by rejecting with the `getAll` request's error message. */
  datatype SnapshotRead = ReadOk | OpenFailed | RequestFailed(message: string)

  /** `{success, synced, failed, failures}`, where the empty-log answer has
      no `failures` field; or `{success: false, error}` when the snapshot
      of the log cannot be read. */
  datatype SyncSummary =
    | SyncSummary(success: bool, synced: nat, failed: nat, failures: Option<seq<SyncFailure>>)
    | SyncAborted(error: string)

  /** A record after the pass: pending ones that replay become completed. */
  function Settle(op: Op, attempt: Op -> Replay, now: int): Op {
    if op.status == Pending && attempt(op).Replayed? then Complete(op, now) else op
  }

  /** Reference: the log after a pass, record by record. */
  function SettleAll(ops: seq<Op>, attempt: Op -> Replay, now: int): (r: seq<Op>)
    ensures |r| == |ops|
    ensures forall i :: 0 <= i < |ops| ==> r[i] == Settle(ops[i], attempt, now)
  {
    seq(|ops|, i requires 0 <= i < |ops| => Settle(ops[i], attempt, now))
  }

  /** Reference: how many pending records the pass counts as synced: every
      one whose mark did not reject, whatever it resolved. */
  function CountSynced(ops: seq<Op>, attempt: Op -> Replay): nat
    decreases |ops|
  {
    if ops == [] then 0
    else
      var last := ops[|ops| - 1];
      CountSynced(ops[..|ops| - 1], attempt) + (if last.status == Pending && !attempt(last).ReplayFailed? then 1 else 0)
  }

  /** Reference: the failures list, in log order. */
  function FailuresOf(ops: seq<Op>, attempt: Op -> Replay): seq<SyncFailure>
    decreases |ops|
  {
    if ops == [] then []
    else
      var last := ops[|ops| - 1];
      FailuresOf(ops[..|ops| - 1], attempt) +
        (if last.status == Pending && attempt(last).ReplayFailed?
         then [SyncFailure(last.id, last.kind, attempt(last).message)] else [])
  }

  /** With ids laid out as in a key-ordered snapshot, marking the id at
      position `i` completes that record and no other. */
  lemma MarkOnlyAt(t: Store, snapshot: seq<Op>, i: nat, now: int)
    requires i < |snapshot| == |t.ops| && IdsIncreasing(snapshot)
    requires forall j :: 0 <= j < |snapshot| ==> t.ops[j].id == snapshot[j].id
    ensures var m := MarkOperationComplete(t, snapshot[i].id, now, true).0;
      && m.cache == t.cache && m.nextId == t.nextId && |m.ops| == |t.ops|
      && m.ops[i] == Complete(t.ops[i], now)
      && forall j :: 0 <= j < |t.ops| && j != i ==> m.ops[j] == t.ops[j]
  {
    forall j | 0 <= j < |t.ops| && j != i
      ensures t.ops[j].id != snapshot[i].id
    {
      assert snapshot[j].id != snapshot[i].id;
    }
  }

  /** One step of the pass on a record that is pending and whose mark does
      not reject: the mark settles that record and no other. */
  lemma SettleStep(t: Store, snapshot: seq<Op>, i: nat, attempt: Op -> Replay, now: int)
    requires i < |snapshot| == |t.ops| && IdsIncreasing(snapshot)
    requires forall j :: 0 <= j < |snapshot| ==> t.ops[j].id == snapshot[j].id
    requires t.ops[i] == snapshot[i] && snapshot[i].status == Pending && !attempt(snapshot[i]).ReplayFailed?
    ensures var m := MarkOperationComplete(t, snapshot[i].id, now, attempt(snapshot[i]).Replayed?).0;
      && m.cache == t.cache && m.nextId == t.nextId && |m.ops| == |t.ops|
      && m.ops[i] == Settle(snapshot[i], attempt, now)
      && forall j :: 0 <= j < |t.ops| && j != i ==> m.ops[j] == t.ops[j]
  {
    if attempt(snapshot[i]).Replayed? {
      MarkOnlyAt(t, snapshot, i, now);
    }
  }

  /** The reference counts grow by one record at a time. */
  lemma CountStep(ops: seq<Op>, attempt: Op -> Replay, i: nat)
    requires i < |ops|
    ensures CountSynced(ops[..i + 1], attempt) ==
      CountSynced(ops[..i], attempt) + (if ops[i].status == Pending && !attempt(ops[i]).ReplayFailed? then 1 else 0)
    ensures FailuresOf(ops[..i + 1], attempt) == FailuresOf(ops[..i], attempt) +
      (if ops[i].status == Pending && attempt(ops[i]).ReplayFailed?
       then [SyncFailure(ops[i].id, ops[i].kind, attempt(ops[i]).message)] else [])
  {
    assert ops[..i + 1][..i] == ops[..i];
  }

  /** `syncPendingOperations()`: snapshots the log and visits it in key
      order; completed records are skipped, each pending record is replayed
      and marked completed on success or counted as a failure, and the pass
      never stops early. `success` is `true` even when some failed.
      `read` says how the snapshot of the log was obtained: a database that
      cannot be opened reads as an empty log, and a rejected request ends
      the pass with `{success: false, error}` before it touches the log. */
  method SyncPendingOperations(s: Store, attempt: Op -> Replay, now: int, read: SnapshotRead) returns (s': Store, summary: SyncSummary)
    requires Valid(s)
    ensures read.RequestFailed? ==> s' == s && summary == SyncAborted(read.message)
    ensures read.OpenFailed? || (read.ReadOk? && s.ops == []) ==> s' == s && summary == SyncSummary(true, 0, 0, None)
    ensures read.ReadOk? && s.ops != [] ==>
      summary == SyncSummary(true, CountSynced(s.ops, attempt), |FailuresOf(s.ops, attempt)|, Some(FailuresOf(s.ops, attempt)))
    ensures read.ReadOk? ==> s'.ops == SettleAll(s.ops, attempt, now)
    ensures s'.cache == s.cache && s'.nextId == s.nextId
  {
    if read.RequestFailed? {
      return s, SyncAborted(read.message);
    } else if read.OpenFailed? {
      return s, SyncSummary(true, 0, 0, None);
    }
    var snapshot := GetPendingOperations(s);
    if |snapshot| == 0 {
      return s, SyncSummary(true, 0, 0, None);
    }
    var synced := 0;
    var failures: seq<SyncFailure> := [];
    s' := s;
    var i := 0;
    while i < |snapshot|
      invariant 0 <= i <= |snapshot|
      invariant |s'.ops| == |snapshot|
      invariant s'.cache == s.cache && s'.nextId == s.nextId
      invariant forall j :: 0 <= j < |snapshot| ==> s'.ops[j].id == snapshot[j].id
      invariant forall j :: 0 <= j < i ==> s'.ops[j] == Settle(snapshot[j], attempt, now)
      invariant forall j :: i <= j < |snapshot| ==> s'.ops[j] == snapshot[j]
      invariant synced == CountSynced(snapshot[..i], attempt)
      invariant failures == FailuresOf(snapshot[..i], attempt)
    {
      var op := snapshot[i];
      CountStep(snapshot, attempt, i);
      if op.status == Pending {
        var outcome := attempt(op);
        if !outcome.ReplayFailed? {
          SettleStep(s', snapshot, i, attempt, now);
          var marked := MarkOperationComplete(s', op.id, now, outcome.Replayed?);
          s' := marked.0;
          synced := synced + 1;
        } else {
          failures := failures + [SyncFailure(op.id, op.kind, outcome.message)];
        }
      }
      i := i + 1;
    }
    assert snapshot[..i] == snapshot;
    summary := SyncSummary(true, synced, |failures|, Some(failures));
  }

  /** Every pending record of the snapshot is counted exactly once, as
      synced or as failed. */
  lemma {:induction false} SyncAccountsForEveryPending(ops: seq<Op>, attempt: Op -> Replay)
    ensures CountSynced(ops, attempt) + |FailuresOf(ops, attempt)| == |PendingOps(ops)|
    decreases |ops|
  {
    if ops != [] {
      SyncAccountsForEveryPending(ops[..|ops| - 1], attempt);
    }
  }

  /** A record that fails to replay stays pending, and one that replays is
      completed; nothing is removed and no id changes. */
  lemma SyncOutcomePerRecord(ops: seq<Op>, attempt: Op -> Replay, now: int, i: nat)
    requires i < |ops| && ops[i].status == Pending
    ensures !attempt(ops[i]).Replayed? ==> SettleAll(ops, attempt, now)[i] == ops[i]
    ensures attempt(ops[i]).Replayed? ==> SettleAll(ops, attempt, now)[i].status == Completed
    ensures SettleAll(ops, attempt, now)[i].id == ops[i].id
  {
  }

  /** Every pending record that is marked means every record of the
      snapshot is now completed; the reported failures alone do not tell,
      since an unmarked record is not among them (`UnmarkedCountedAsSynced`). */
  lemma {:induction false} NoFailuresCompletesAll(ops: seq<Op>, attempt: Op -> Replay, now: int)
    requires forall i :: 0 <= i < |ops| && ops[i].status == Pending ==> attempt(ops[i]).Replayed?
    ensures forall i :: 0 <= i < |ops| ==> SettleAll(ops, attempt, now)[i].status == Completed
    decreases |ops|
  {
    if ops != [] {
      var init := ops[..|ops| - 1];
      NoFailuresCompletesAll(init, attempt, now);
      forall i | 0 <= i < |ops|
        ensures SettleAll(ops, attempt, now)[i].status == Completed
      {
        if i < |init| {
          assert ops[i] == init[i];
          assert SettleAll(init, attempt, now)[i] == Settle(init[i], attempt, now);
        }
      }
    }
  }

  /** With every record completed, a pass replays nothing and fails nothing. */
  lemma {:induction false} AllCompletedSyncsNothing(ops: seq<Op>, attempt: Op -> Replay)
    requires forall i :: 0 <= i < |ops| ==> ops[i].status == Completed
    ensures CountSynced(ops, attempt) == 0 && FailuresOf(ops, attempt) == []
    decreases |ops|
  {
    if ops != [] {
      AllCompletedSyncsNothing(ops[..|ops| - 1], attempt);
    }
  }

  /** After a pass that marked every pending record, an immediate second
      pass, whatever its replay outcomes, syncs nothing and leaves the log as
      it is. */
  lemma SecondPassIsNoop(ops: seq<Op>, first: Op -> Replay, second: Op -> Replay, t1: int, t2: int)
    requires forall i :: 0 <= i < |ops| && ops[i].status == Pending ==> first(ops[i]).Replayed?
    ensures var after := SettleAll(ops, first, t1);
      && CountSynced(after, second) == 0
      && FailuresOf(after, second) == []
      && SettleAll(after, second, t2) == after
  {
    NoFailuresCompletesAll(ops, first, t1);
    var after := SettleAll(ops, first, t1);
    AllCompletedSyncsNothing(after, second);
  }

  /** A pass whose marks never reject reports no failures. */
  lemma {:induction false} NoRejectionNoFailures(ops: seq<Op>, attempt: Op -> Replay)
    requires forall j :: 0 <= j < |ops| && ops[j].status == Pending ==> !attempt(ops[j]).ReplayFailed?
    ensures FailuresOf(ops, attempt) == []
    decreases |ops|
  {
    if ops != [] {
      var init := ops[..|ops| - 1];
      assert forall j :: 0 <= j < |init| ==> init[j] == ops[j];
      NoRejectionNoFailures(init, attempt);
    }
  }

  /** A pending record whose mark does not reject is counted as synced. */
  lemma {:induction false} SyncedCountsRecord(ops: seq<Op>, attempt: Op -> Replay, i: nat)
    requires i < |ops| && ops[i].status == Pending && !attempt(ops[i]).ReplayFailed?
    ensures CountSynced(ops, attempt) >= 1
    decreases |ops|
  {
    if i < |ops| - 1 {
      var init := ops[..|ops| - 1];
      assert init[i] == ops[i];
      SyncedCountsRecord(init, attempt, i);
    }
  }

  /** The sync discards the answer of `markOperationComplete`: a record
      whose mark resolves `false` is counted as synced and reported as no
      failure, yet stays pending, so the next pass syncs it again. */
  lemma UnmarkedCountedAsSynced(ops: seq<Op>, attempt: Op -> Replay, second: Op -> Replay, now: int, i: nat)
    requires i < |ops| && ops[i].status == Pending && attempt(ops[i]).NotMarked?
    requires forall j :: 0 <= j < |ops| && ops[j].status == Pending ==> !attempt(ops[j]).ReplayFailed?
    requires !second(ops[i]).ReplayFailed?
    ensures FailuresOf(ops, attempt) == []
    ensures CountSynced(ops, attempt) == |PendingOps(ops)|
    ensures SettleAll(ops, attempt, now)[i] == ops[i]
    ensures CountSynced(SettleAll(ops, attempt, now), second) >= 1
  {
    NoRejectionNoFailures(ops, attempt);
    SyncAccountsForEveryPending(ops, attempt);
    SyncedCountsRecord(SettleAll(ops, attempt, now), second, i);
  }

  /** A pass keeps the store valid. */
  lemma SyncPreservesValid(s: Store, attempt: Op -> Replay, now: int)
    requires Valid(s)
    ensures Valid(s.(ops := SettleAll(s.ops, attempt, now)))
  {
  }
}

=== FILE: response_formatter.dfy ===
/** The response envelope of server/src/middleware/responseFormatter.js.
    Each helper fixes an HTTP status and a JSON body; an argument left
    `undefined` takes its default, and `res.json` drops keys whose value
    is `undefined`. */
module ResponseFormatter {
  import opened Wrappers
  import opened Json

  /** What the client receives: the status and the serialised body. */
  datatype Reply = Reply(status: nat, body: Record)

  /** `JSON.stringify` on the envelope: keys holding `undefined` vanish. */
  function Wire(r: Record): (w: Record)
    ensures forall k :: k in w <==> k in r && !r[k].Undefined?
    ensures forall k :: k in w ==> w[k] == r[k]
  {
    map k | k in r && !r[k].Undefined? :: r[k]
  }

  /** A default parameter: only `undefined` is replaced. */
  function OrDefault(v: Json, default: Json): (r: Json)
    ensures v.Undefined? ==> r == default
    ensures !v.Undefined? ==> r == v
  {
    if v.Undefined? then default else v
  }

  /** `res.success(data, message = 'Success', statusCode = 200)` (responseFormatter.js:3-9). */
  function Success(data: Json, message: Json, statusCode: Option<nat>): (r: Reply)
    ensures r.status == statusCode.GetOr(200)
    ensures Field(r.body, "success") == Bool(true)
    ensures message.Undefined? ==> Field(r.body, "message") == Str("Success")
    ensures ("data" in r.body) <==> !data.Undefined?
  {
    Reply(statusCode.GetOr(200), Wire(map["success" := Bool(true), "message" := OrDefault(message, Str("Success")), "data" := data]))
  }

  /** `Math.ceil(total / limit)` as serialised: a zero limit gives an
      infinite or NaN quotient, which JSON writes as `null`. */
  function Pages(total: real, limit: real): (p: Json)
    ensures limit == 0.0 <==> p.Null?
    ensures limit != 0.0 ==>
      p.Num? && p.n.Floor as real == p.n && p.n - 1.0 < total / limit <= p.n
  {
    if limit == 0.0 then Null
    else
      var q := total / limit;
      Num(-((-q).Floor) as real)
  }

  /** With positive whole numbers, `pages` pages of `limit` items hold all
      `total` items and one page fewer would not. */
  lemma PagesCoverTotal(total: nat, limit: nat)
    requires limit > 0 && total > 0
    ensures var p := Pages(total as real, limit as real).n;
      p * (limit as real) >= total as real && (p - 1.0) * (limit as real) < total as real
  {
    var t, l := total as real, limit as real;
    var p := Pages(t, l).n;
    var q := t / l;
    assert q * l == t;
    MultiplyOrder(q, p, l);
    var fewer := p - 1.0;
    assert fewer < q;
    MultiplyStrict(fewer, q, l);
    calc {
      fewer * l;
    <  q * l;
    == t;
    }
    assert (p - 1.0) * l == fewer * l;
  }

  lemma MultiplyOrder(a: real, b: real, c: real)
    requires a <= b && c > 0.0
    ensures a * c <= b * c
  {
  }

  lemma MultiplyStrict(a: real, b: real, c: real)
    requires a < b && c > 0.0
    ensures a * c < b * c
  {
  }

  /** `res.paginated(data, pagination, message = 'Success', statusCode = 200)`
      (responseFormatter.js:12-24) for a `pagination` object. */
  function Paginated(data: Json, total: real, page: Json, limit: real, message: Json, statusCode: Option<nat>): (r: Reply)
    ensures r.status == statusCode.GetOr(200)
    ensures Field(r.body, "success") == Bool(true)
    ensures Get(Field(r.body, "pagination"), "pages") == Pages(total, limit)
    ensures Get(Field(r.body, "pagination"), "total") == Num(total) && Get(Field(r.body, "pagination"), "limit") == Num(limit)
  {
    var pagination := Obj(Wire(map["total" := Num(total), "page" := page, "limit" := Num(limit), "pages" := Pages(total, limit)]));
    Reply(statusCode.GetOr(200),
          Wire(map["success" := Bool(true), "message" := OrDefault(message, Str("Success")), "data" := data, "pagination" := pagination]))
  }

  /** `res.error(message, statusCode = 400, errors = null)` (responseFormatter.js:27-33). */
  function Error(message: Json, statusCode: Option<nat>, errors: Json): (r: Reply)
    ensures r.status == statusCode.GetOr(400)
    ensures Field(r.body, "success") == Bool(false)
    ensures Field(r.body, "errors") == (if errors.Undefined? then Null else errors)
  {
    Reply(statusCode.GetOr(400), Wire(map["success" := Bool(false), "message" := message, "errors" := OrDefault(errors, Null)]))
  }

  /** The three fixed-status helpers (responseFormatter.js:36-57). */
  function Fixed(status: nat, message: Json, default: string): (r: Reply)
    ensures r.status == status && Field(r.body, "success") == Bool(false)
    ensures Field(r.body, "message") == (if message.Undefined? then Str(default) else message)
  {
    Reply(status, Wire(map["success" := Bool(false), "message" := OrDefault(message, Str(default))]))
  }

  function NotFound(message: Json): Reply { Fixed(404, message, "Resource not found") }
  function Unauthorized(message: Json): Reply { Fixed(401, message, "Unauthorized access") }
  function Forbidden(message: Json): Reply { Fixed(403, message, "Forbidden access") }

  /** What a client reads from any envelope is what the handler passed:
      the data, message and errors come back as given (an omitted one as
      its default, `undefined` as absent), `success` tells the two kinds
      apart, and no other key is sent. The fixed helpers answer 404, 401
      and 403 with a message that is never absent. */
  lemma EnvelopeReadsBack(data: Json, message: Json, errors: Json, code: Option<nat>, status: nat, default: string)
    ensures var b := Success(data, message, code).body;
      && Field(b, "data") == data && Field(b, "message") == OrDefault(message, Str("Success"))
      && b.Keys <= {"success", "message", "data"}
    ensures var b := Error(message, code, errors).body;
      && Field(b, "message") == message && Field(b, "errors") == OrDefault(errors, Null)
      && "errors" in b && b.Keys <= {"success", "message", "errors"}
    ensures Field(Success(data, message, code).body, "success") != Field(Error(message, code, errors).body, "success")
    ensures Fixed(status, message, default).body.Keys == {"success", "message"}
    ensures NotFound(message).status == 404 && Unauthorized(message).status == 401 && Forbidden(message).status == 403
  {
  }
}

=== FILE: runtime.dfy ===
/** What the client code receives from its surroundings: clock readings and
    the errors an awaited call can throw. */
module Runtime {
  import opened Json

  /** One reading of the clock: `Date.now()` and `new Date().toISOString()`. */
  datatype Clock = Clock(millis: nat, iso: string)

  /** What the services see at the moment a call fails. */
  datatype Env = Env(online: bool, storageUp: bool, clock: Clock)

  /** An error an awaited call can throw. */
  datatype Error =
    | HttpError(status: nat, message: Json, data: Json) // non-2xx answer (api.js handleResponse)
    | BodyParseError                                    // a 2xx body that is not JSON
    | NetworkError                                      // `fetch` itself rejected
    | TypeError                                         // a method called on a value that lacks it
    | SyntaxError                                       // `JSON.parse` on text that is not JSON

  /** The message V8 gives the TypeError thrown when a property of `null`
      or `undefined` is read. */
  function NullRead(data: Json, property: string): (m: string)
    requires Nullish(data)
    ensures |m| > 31 && m[..26] == "Cannot read properties of "
    ensures data.Null? <==> m[26] == 'n'
  {
    "Cannot read properties of " + (if data.Null? then "null" else "undefined") + " (reading '" + property + "')"
  }
}

=== FILE: scheduler_service.dfy ===
/** The task service of src/services/schedulerService.js: every call first
    tries the server; the offline branches fall back to the offline store.
    The server call is a parameter (`call`, the value the awaited request
    returns or the error it throws) and so is connectivity. */
module SchedulerService {
  import opened Wrappers
  import opened Json
  import opened Strings
  import opened Runtime
  import opened OfflineStore

  /** The store after a call and what the call returns or throws. */
  datatype Step = Step(store: Store, result: Result<Json, Error>)

  const OfflinePrefix := "offline_"
  const AllTasksKey := "all_tasks"

  function TasksKey(tractorId: string): string {
    "tractor_tasks_" + tractorId
  }

  /** The temporary id of a task created offline at `millis`. */
  function OfflineId(millis: nat): (id: string)
    ensures StartsWith(id, OfflinePrefix)
  {
    StartsWithConcat(OfflinePrefix, NatToString(millis));
    OfflinePrefix + NatToString(millis)
  }

  /** Two offline creations at different instants get different ids. */
  lemma OfflineIdsDistinct(a: nat, b: nat)
    requires a != b
    ensures OfflineId(a) != OfflineId(b)
  {
    NatToStringInjective(a, b);
    assert OfflineId(a)[|OfflinePrefix|..] == NatToString(a);
    assert OfflineId(b)[|OfflinePrefix|..] == NatToString(b);
  }

  /** `op.type === 'create_task' && op.localResult.id === taskId`. */
  predicate CreatesTask(op: Op, taskId: string) {
    op.kind == CreateTaskOp && Get(op.localResult, "id") == Str(taskId)
  }

  /** `pendingOperations.findIndex(...)` for `CreatesTask`. */
  function FindCreate(ops: seq<Op>, taskId: string): (r: Option<nat>)
    ensures r.Some? ==> r.value < |ops| && CreatesTask(ops[r.value], taskId)
    ensures r.Some? ==> forall j :: 0 <= j < r.value ==> !CreatesTask(ops[j], taskId)
    ensures r.None? ==> forall j :: 0 <= j < |ops| ==> !CreatesTask(ops[j], taskId)
    decreases |ops|
  {
    if ops == [] then None
    else if CreatesTask(ops[0], taskId) then Some(0)
    else
      match FindCreate(ops[1..], taskId)
      case None => None
      case Some(i) => Some(i + 1)
  }

  /** An element `find` reads past: `t.id` is defined and not the id. */
  predicate PassedOver(t: Json, taskId: string) {
    !Nullish(t) && Get(t, "id") != Str(taskId)
  }

  /** `cachedTasks.find(t => t.id === taskId)` on a truthy cached value:
      `Failure(TypeError)` when it is not an array or the search reaches a
      `null`/`undefined` element, whose `.id` throws; otherwise the first
      task with that id, if any. */
  function FindCachedTask(cached: Json, taskId: string): (r: Result<Option<Json>, Error>)
    ensures r.Failure? ==> r.error == TypeError
    ensures !cached.Arr? ==> r.Failure?
    ensures cached.Arr? ==> r == FindById(cached.items, taskId)
  {
    if !cached.Arr? then Failure(TypeError)
    else FindById(cached.items, taskId)
  }

  /** `items.find(t => t.id === taskId)`, scanning from the front. */
  function FindById(items: seq<Json>, taskId: string): (r: Result<Option<Json>, Error>)
    ensures r.Success? && r.value.Some? ==>
      exists i :: 0 <= i < |items| && items[i] == r.value.value && Get(items[i], "id") == Str(taskId)
                  && forall j :: 0 <= j < i ==> PassedOver(items[j], taskId)
    ensures r.Success? && r.value.None? <==> forall j :: 0 <= j < |items| ==> PassedOver(items[j], taskId)
    ensures r.Failure? ==> r.error == TypeError
    ensures r.Failure? <==> exists i :: 0 <= i < |items| && Nullish(items[i])
                                        && forall j :: 0 <= j < i ==> PassedOver(items[j], taskId)
    decreases |items|
  {
    if items == [] then Success(None)
    else if Nullish(items[0]) then Failure(TypeError)
    else if Get(items[0], "id") == Str(taskId) then Success(Some(items[0]))
    else
      var rest := FindById(items[1..], taskId);
      assert forall j :: 1 <= j < |items| ==> items[j] == items[1..][j - 1];
      if rest.Failure? then
        assert exists i :: 0 <= i < |items| && Nullish(items[i])
                           && forall j :: 0 <= j < i ==> PassedOver(items[j], taskId) by {
          var i :| 0 <= i < |items[1..]| && Nullish(items[1..][i])
                   && forall j :: 0 <= j < i ==> PassedOver(items[1..][j], taskId);
          assert Nullish(items[i + 1]);
          assert forall j :: 0 <= j < i + 1 ==> PassedOver(items[j], taskId);
        }
        rest
      else if rest.value.Some? then
        assert exists i :: 0 <= i < |items| && items[i] == rest.value.value && Get(items[i], "id") == Str(taskId)
                           && forall j :: 0 <= j < i ==> PassedOver(items[j], taskId) by {
          var i :| 0 <= i < |items[1..]| && items[1..][i] == rest.value.value && Get(items[1..][i], "id") == Str(taskId)
                   && forall j :: 0 <= j < i ==> PassedOver(items[1..][j], taskId);
          assert items[i + 1] == rest.value.value;
          assert forall j :: 0 <= j < i + 1 ==> PassedOver(items[j], taskId);
        }
        rest
      else
        rest
  }

  /** The cached task list consulted by `getTask`/`updateTask` offline: a
      falsy cache gives no task; otherwise the search of `FindCachedTask`,
      whose failure is the `TypeError` it throws. */
  function LookUpCachedTask(s: Store, taskId: string): (r: Result<Option<Json>, Error>)
    ensures !Truthy(GetCachedData(s, AllTasksKey)) ==> r == Success(None)
    ensures r.Failure? ==> r.error == TypeError
    ensures r.Success? && r.value.Some? ==>
      GetCachedData(s, AllTasksKey).Arr? && r.value.value in GetCachedData(s, AllTasksKey).items
      && Get(r.value.value, "id") == Str(taskId)
    ensures Truthy(GetCachedData(s, AllTasksKey)) && r.Success? && r.value.None? ==>
      GetCachedData(s, AllTasksKey).Arr?
      && forall t :: t in GetCachedData(s, AllTasksKey).items ==> PassedOver(t, taskId)
  {
    var cached := GetCachedData(s, AllTasksKey);
    if Truthy(cached) then FindCachedTask(cached, taskId) else Success(None)
  }

  /** Whether the id names a task created offline whose `create_task` record
      is still in the log. */
  predicate CreatedOffline(s: Store, taskId: string) {
    StartsWith(taskId, OfflinePrefix) && FindCreate(s.ops, taskId).Some?
  }

  // ---------------------------------------------------------------------

  /** `getAllTasks(tractorId)` (schedulerService.js:14-34). */
  function GetAllTasks(s: Store, tractorId: string, call: Result<Json, Error>, online: bool, now: int): (r: Step)
    ensures call.Success? ==> r.result == call
    ensures call.Success? && Truthy(call.value) ==>
      r.store == CacheData(s, TasksKey(tractorId), call.value, now)
    ensures call.Success? && !Truthy(call.value) ==> r.store == s
    ensures call.Failure? ==> r.store == s
    ensures call.Failure? && !online && Truthy(GetCachedData(s, TasksKey(tractorId))) ==>
      r.result == Success(GetCachedData(s, TasksKey(tractorId)))
    ensures call.Failure? && (online || !Truthy(GetCachedData(s, TasksKey(tractorId)))) ==>
      r.result == call
  {
    match call
    case Success(response) =>
      Step(if Truthy(response) then CacheData(s, TasksKey(tractorId), response, now) else s, call)
    case Failure(e) =>
      var cached := GetCachedData(s, TasksKey(tractorId));
      if !online && Truthy(cached) then Step(s, Success(cached)) else Step(s, call)
  }

  /** The task `createTask` shows while offline. */
  function OfflineTask(taskData: Record, clock: Clock): (t: Record)
    ensures "id" in t && t["id"] == Str(OfflineId(clock.millis))
    ensures "status" in t && t["status"] == Str("scheduled")
    ensures "createdAt" in t && t["createdAt"] == Str(clock.iso)
    ensures forall k :: k in taskData && k !in {"id", "status", "createdAt"} ==> k in t && t[k] == taskData[k]
    ensures t.Keys == taskData.Keys + {"id", "status", "createdAt"}
  {
    taskData + map["id" := Str(OfflineId(clock.millis)), "status" := Str("scheduled"), "createdAt" := Str(clock.iso)]
  }

  /** `createTask(taskData)` (schedulerService.js:41-66). */
  function CreateTask(s: Store, taskData: Record, call: Result<Json, Error>, env: Env): (r: Step)
    ensures call.Success? ==> r == Step(s, call)
    ensures call.Failure? && env.online ==> r == Step(s, call)
    ensures call.Failure? && !env.online ==>
      && r.result == Success(Obj(OfflineTask(taskData, env.clock)))
      && r.store == QueueOperation(s, Request(CreateTaskOp, Obj(taskData), r.result.value), env.clock.millis, env.storageUp).0
  {
    match call
    case Success(_) => Step(s, call)
    case Failure(_) =>
      if env.online then Step(s, call)
      else
        var local := Obj(OfflineTask(taskData, env.clock));
        var queued := QueueOperation(s, Request(CreateTaskOp, Obj(taskData), local), env.clock.millis, env.storageUp);
        Step(queued.0, Success(local))
  }

  /** `getTask(taskId)` (schedulerService.js:73-100). */
  function GetTask(s: Store, taskId: string, call: Result<Json, Error>, online: bool): (r: Result<Json, Error>)
    ensures CreatedOffline(s, taskId) ==>
      r == Success(s.ops[FindCreate(s.ops, taskId).value].localResult)
    ensures !CreatedOffline(s, taskId) && (call.Success? || online) ==> r == call
    ensures !CreatedOffline(s, taskId) && call.Failure? && !online ==>
      match LookUpCachedTask(s, taskId)
      case Success(Some(t)) => r == Success(t)
      case Success(None) => r == call
      case Failure(_) => r == Failure(TypeError)
  {
    if StartsWith(taskId, OfflinePrefix) && FindCreate(s.ops, taskId).Some? then
      Success(s.ops[FindCreate(s.ops, taskId).value].localResult)
    else if call.Success? || online then call
    else
      match LookUpCachedTask(s, taskId)
      case Failure(e) => Failure(e)
      case Success(found) =>
        if found.Some? then Success(found.value) else call
  }

  /** `updateTask(taskId, updates)` (schedulerService.js:108-175). */
  function UpdateTask(s: Store, taskId: string, updates: Record, call: Result<Json, Error>, env: Env): (r: Step)
    ensures CreatedOffline(s, taskId) ==>
      var create := s.ops[FindCreate(s.ops, taskId).value];
      var local := Fields(create.localResult) + updates + map["updatedAt" := Str(env.clock.iso)];
      && r.result == Success(Obj(local))
      && r.store == QueueOperation(s,
           Request(UpdateTaskOp, Obj(map["originalTask" := create.data, "updates" := Obj(updates)]), Obj(local)),
           env.clock.millis, env.storageUp).0
    ensures !CreatedOffline(s, taskId) && (call.Success? || env.online) ==> r == Step(s, call)
    ensures !CreatedOffline(s, taskId) && call.Failure? && !env.online ==>
      match LookUpCachedTask(s, taskId)
      case Success(Some(t)) =>
        var updated := Fields(t) + updates + map["updatedAt" := Str(env.clock.iso)];
        && r.result == Success(Obj(updated))
        && r.store == QueueOperation(s,
             Request(UpdateTaskOp, Obj(map["taskId" := Str(taskId), "updates" := Obj(updates)]), Obj(updated)),
             env.clock.millis, env.storageUp).0
      case Success(None) => r == Step(s, call)
      case Failure(_) => r == Step(s, Failure(TypeError))
    ensures r.result.Failure? ==> r.store == s
  {
    if StartsWith(taskId, OfflinePrefix) && FindCreate(s.ops, taskId).Some? then
      var create := s.ops[FindCreate(s.ops, taskId).value];
      var local := Fields(create.localResult) + updates + map["updatedAt" := Str(env.clock.iso)];
      var data := Obj(map["originalTask" := create.data, "updates" := Obj(updates)]);
      var queued := QueueOperation(s, Request(UpdateTaskOp, data, Obj(local)), env.clock.millis, env.storageUp);
      Step(queued.0, Success(Obj(local)))
    else if call.Success? || env.online then Step(s, call)
    else
      match LookUpCachedTask(s, taskId)
      case Failure(e) => Step(s, Failure(e))
      case Success(found) =>
        if found.None? then Step(s, call)
        else
          var updated := Fields(found.value) + updates + map["updatedAt" := Str(env.clock.iso)];
          var data := Obj(map["taskId" := Str(taskId), "updates" := Obj(updates)]);
          var queued := QueueOperation(s, Request(UpdateTaskOp, data, Obj(updated)), env.clock.millis, env.storageUp);
          Step(queued.0, Success(Obj(updated)))
  }

  const DeletionQueued := Obj(map["success" := Bool(true), "message" := Str("Task deletion queued")])

  /** `deleteTask(taskId)` (schedulerService.js:182-214). */
  function DeleteTask(s: Store, taskId: string, call: Result<Json, Error>, env: Env): (r: Step)
    ensures StartsWith(taskId, OfflinePrefix) && FindCreate(s.ops, taskId).Some? ==>
      r == Step(MarkOperationComplete(s, s.ops[FindCreate(s.ops, taskId).value].id, env.clock.millis, env.storageUp).0, Success(DeletionQueued))
    ensures !(StartsWith(taskId, OfflinePrefix) && FindCreate(s.ops, taskId).Some?) ==>
      && (call.Success? || env.online ==> r == Step(s, call))
      && (call.Failure? && !env.online ==>
            r == Step(QueueOperation(s, Request(DeleteTaskOp, Obj(map["taskId" := Str(taskId)]), Undefined),
                                     env.clock.millis, env.storageUp).0,
                      Success(DeletionQueued)))
  {
    if StartsWith(taskId, OfflinePrefix) && FindCreate(s.ops, taskId).Some? then
      var create := s.ops[FindCreate(s.ops, taskId).value];
      Step(MarkOperationComplete(s, create.id, env.clock.millis, env.storageUp).0, Success(DeletionQueued))
    else if call.Success? || env.online then Step(s, call)
    else
      var queued := QueueOperation(s, Request(DeleteTaskOp, Obj(map["taskId" := Str(taskId)]), Undefined),
                                   env.clock.millis, env.storageUp);
      Step(queued.0, Success(DeletionQueued))
  }

  const ExecutionQueued := Obj(map[
    "success" := Bool(true),
    "message" := Str("Task execution queued for when connection is restored"),
    "offlineQueued" := Bool(true)])

  /** `executeTask(taskId)` (schedulerService.js:221-243). */
  function ExecuteTask(s: Store, taskId: string, call: Result<Json, Error>, env: Env): (r: Step)
    ensures call.Success? || env.online ==> r == Step(s, call)
    ensures call.Failure? && !env.online ==>
      && r.result == Success(ExecutionQueued)
      && r.store == QueueOperation(s, Request(ExecuteTaskOp, Obj(map["taskId" := Str(taskId)]), Undefined),
                                   env.clock.millis, env.storageUp).0
  {
    if call.Success? || env.online then Step(s, call)
    else
      var queued := QueueOperation(s, Request(ExecuteTaskOp, Obj(map["taskId" := Str(taskId)]), Undefined),
                                   env.clock.millis, env.storageUp);
      Step(queued.0, Success(ExecutionQueued))
  }

  // ---------------------------------------------------------------------
  // Properties across calls

  /** A failing call while online rethrows and queues nothing, for every
      mutating call of the service. */
  lemma OnlineFailureRethrows(s: Store, taskId: string, taskData: Record, updates: Record, e: Error, env: Env)
    requires env.online
    requires !StartsWith(taskId, OfflinePrefix)
    ensures CreateTask(s, taskData, Failure(e), env) == Step(s, Failure(e))
    ensures UpdateTask(s, taskId, updates, Failure(e), env) == Step(s, Failure(e))
    ensures DeleteTask(s, taskId, Failure(e), env) == Step(s, Failure(e))
    ensures ExecuteTask(s, taskId, Failure(e), env) == Step(s, Failure(e))
  {
  }

  /** Offline creation queues exactly one `create_task` record, pending,
      whose `localResult` is the task handed back, and whose temporary id
      starts with `offline_`. */
  lemma {:induction false} OfflineCreateQueuesOne(s: Store, taskData: Record, e: Error, env: Env)
    requires Valid(s) && !env.online && env.storageUp
    ensures var r := CreateTask(s, taskData, Failure(e), env);
      && Valid(r.store)
      && |r.store.ops| == |s.ops| + 1
      && r.store.ops[..|s.ops|] == s.ops
      && r.store.ops[|s.ops|].kind == CreateTaskOp
      && r.store.ops[|s.ops|].status == Pending
      && r.store.ops[|s.ops|].data == Obj(taskData)
      && Success(r.store.ops[|s.ops|].localResult) == r.result
      && StartsWith(Get(r.result.value, "id").s, OfflinePrefix)
  {
  }

  /** A task created offline is then found by `getTask` under its temporary
      id without asking the server, provided no earlier queued creation
      carries the same id. */
  lemma CreateThenGet(s: Store, taskData: Record, e: Error, env: Env, call: Result<Json, Error>, online: bool)
    requires !env.online && env.storageUp
    requires FindCreate(s.ops, OfflineId(env.clock.millis)).None?
    ensures var r := CreateTask(s, taskData, Failure(e), env);
      GetTask(r.store, OfflineId(env.clock.millis), call, online) == r.result
  {
    var r := CreateTask(s, taskData, Failure(e), env);
    var id := OfflineId(env.clock.millis);
    var n := |s.ops|;
    assert CreatesTask(r.store.ops[n], id);
    var f := FindCreate(r.store.ops, id);
    assert f.Some?;
  }

  /** Editing a task created offline answers the earlier local task overlaid
      with the edits (the edits win), queues one `update_task` carrying the
      original payload, and leaves the stored `create_task` record as it was. */
  lemma UpdateOfflineTask(s: Store, taskId: string, updates: Record, call: Result<Json, Error>, env: Env)
    requires Valid(s) && env.storageUp
    requires StartsWith(taskId, OfflinePrefix) && FindCreate(s.ops, taskId).Some?
    ensures var i := FindCreate(s.ops, taskId).value;
      var r := UpdateTask(s, taskId, updates, call, env);
      && r.result.Success? && r.result.value.Obj?
      && (forall k :: k in updates && k != "updatedAt" ==> r.result.value.fields[k] == updates[k])
      && (forall k :: k in Fields(s.ops[i].localResult) && k !in updates && k != "updatedAt" ==>
            r.result.value.fields[k] == Fields(s.ops[i].localResult)[k])
      && |r.store.ops| == |s.ops| + 1
      && r.store.ops[i] == s.ops[i]
      && r.store.ops[|s.ops|].kind == UpdateTaskOp
      && Get(r.store.ops[|s.ops|].data, "originalTask") == s.ops[i].data
  {
  }

  /** Deleting a task created offline marks its `create_task` record
      completed and queues no `delete_task`; when storage is down the mark
      resolves `false`, nothing changes, and success is reported all the
      same. */
  lemma DeleteOfflineTask(s: Store, taskId: string, call: Result<Json, Error>, env: Env)
    requires Valid(s)
    requires StartsWith(taskId, OfflinePrefix) && FindCreate(s.ops, taskId).Some?
    ensures var i := FindCreate(s.ops, taskId).value;
      var r := DeleteTask(s, taskId, call, env);
      && r.result == Success(DeletionQueued)
      && |r.store.ops| == |s.ops|
      && (env.storageUp ==> r.store.ops[i].status == Completed)
      && (!env.storageUp ==> r.store == s)
      && (forall j :: 0 <= j < |s.ops| && j != i ==> r.store.ops[j] == s.ops[j])
  {
    var i := FindCreate(s.ops, taskId).value;
    forall j | 0 <= j < |s.ops| && j != i
      ensures s.ops[j].id != s.ops[i].id
    {
    }
  }

  /** Because the log lists completed records too, a task created and then
      deleted offline is still returned by `getTask`. */
  lemma DeletedOfflineTaskStillVisible(s: Store, taskId: string, call: Result<Json, Error>, call2: Result<Json, Error>, env: Env, online: bool)
    requires Valid(s)
    requires StartsWith(taskId, OfflinePrefix) && FindCreate(s.ops, taskId).Some?
    ensures var r := DeleteTask(s, taskId, call, env);
      GetTask(r.store, taskId, call2, online) == Success(s.ops[FindCreate(s.ops, taskId).value].localResult)
  {
    var i := FindCreate(s.ops, taskId).value;
    var r := DeleteTask(s, taskId, call, env);
    DeleteOfflineTask(s, taskId, call, env);
    forall j | 0 <= j < |s.ops|
      ensures CreatesTask(r.store.ops[j], taskId) <==> CreatesTask(s.ops[j], taskId)
    {
    }
    var f := FindCreate(r.store.ops, taskId);
    assert CreatesTask(r.store.ops[i], taskId);
    assert f.Some?;
    assert f.value == i;
  }

  /** Deleting a server task while offline queues exactly one `delete_task`
      naming that task and reports success. */
  lemma OfflineDeleteQueuesOne(s: Store, taskId: string, e: Error, env: Env)
    requires Valid(s) && !env.online && env.storageUp
    requires !StartsWith(taskId, OfflinePrefix)
    ensures var r := DeleteTask(s, taskId, Failure(e), env);
      && r.result == Success(DeletionQueued)
      && |r.store.ops| == |s.ops| + 1
      && r.store.ops[|s.ops|].kind == DeleteTaskOp
      && Get(r.store.ops[|s.ops|].data, "taskId") == Str(taskId)
  {
  }

  /** A task list read while online is what a later offline read of the
      same tractor answers when the server cannot be reached. */
  lemma TasksCachedThenRead(s: Store, tractorId: string, tasks: Json, e: Error, t1: int, t2: int)
    requires Truthy(tasks)
    ensures var r := GetAllTasks(s, tractorId, Success(tasks), true, t1);
      GetAllTasks(r.store, tractorId, Failure(e), false, t2).result == Success(tasks)
  {
  }

  /** `getAllTasks` caches under `tractor_tasks_<id>` and never under
      `all_tasks`, so it does not change what the offline `getTask` and
      `updateTask` fallbacks find. */
  lemma GetAllTasksLeavesTaskLookup(s: Store, tractorId: string, call: Result<Json, Error>, online: bool, now: int, taskId: string)
    ensures LookUpCachedTask(GetAllTasks(s, tractorId, call, online, now).store, taskId) == LookUpCachedTask(s, taskId)
  {
    assert TasksKey(tractorId)[0] != AllTasksKey[0];
  }

  /** Editing a server task while offline, with the task in the cached
      list, queues exactly one pending `update_task {taskId, updates}` and
      answers the cached task overlaid with the edits; the cache itself is
      not rewritten, so a later offline `getTask` still answers the task as
      cached. */
  lemma OfflineServerUpdate(s: Store, taskId: string, updates: Record, e: Error, e2: Error, env: Env, t: Json)
    requires Valid(s) && !env.online && env.storageUp
    requires !StartsWith(taskId, OfflinePrefix)
    requires LookUpCachedTask(s, taskId) == Success(Some(t))
    ensures var r := UpdateTask(s, taskId, updates, Failure(e), env);
      && r.result.Success? && r.result.value.Obj?
      && (forall k :: k in updates && k != "updatedAt" ==> r.result.value.fields[k] == updates[k])
      && (forall k :: k in Fields(t) && k !in updates && k != "updatedAt" ==> r.result.value.fields[k] == Fields(t)[k])
      && Valid(r.store)
      && |r.store.ops| == |s.ops| + 1 && r.store.ops[..|s.ops|] == s.ops
      && r.store.ops[|s.ops|].kind == UpdateTaskOp && r.store.ops[|s.ops|].status == Pending
      && Get(r.store.ops[|s.ops|].data, "taskId") == Str(taskId)
      && Get(r.store.ops[|s.ops|].data, "updates") == Obj(updates)
      && GetTask(r.store, taskId, Failure(e2), false) == Success(t)
  {
  }

  /** When the database cannot be written the action is lost, yet the
      caller is still told it was queued: the queue result is ignored. */
  lemma LostWhenStorageDown(s: Store, taskData: Record, taskId: string, e: Error, env: Env)
    requires !env.online && !env.storageUp
    ensures CreateTask(s, taskData, Failure(e), env) == Step(s, Success(Obj(OfflineTask(taskData, env.clock))))
    ensures ExecuteTask(s, taskId, Failure(e), env) == Step(s, Success(ExecutionQueued))
  {
  }
}

=== FILE: socket_gate.dfy ===
/** The socket handlers of backend/src/index.js: control commands are
    checked against two allowed types and broadcast, telemetry is checked
    for three truthy fields, persisted and then broadcast. The database
    save is a parameter saying whether it succeeded. */
module SocketGate {
  import opened Json
  import opened Runtime

  /** One `emit`: to every connected client (`io.emit`) or back to the
      sending socket only (`socket.emit`). */
  datatype Emit = Broadcast(event: string, payload: Json) | ToSender(event: string, payload: Json)

  /** The observable server: the saved telemetry documents and the emits so far. */
  datatype Server = Server(saved: seq<Json>, emits: seq<Emit>)

  predicate IsBroadcast(e: Emit) { e.Broadcast? }

  const InvalidControl := "Invalid control command type"

  /** `!data.type || !['movement', 'action'].includes(data.type)` is false. */
  predicate ValidControl(data: Json) {
    Get(data, "type") == Str("movement") || Get(data, "type") == Str("action")
  }

  /** The `control` handler (index.js:50-62). */
  function OnControl(srv: Server, data: Json): (srv': Server)
    ensures srv'.saved == srv.saved
    ensures |srv'.emits| == |srv.emits| + 1 && srv'.emits[..|srv.emits|] == srv.emits
    ensures ValidControl(data) <==> IsBroadcast(srv'.emits[|srv.emits|])
    ensures ValidControl(data) ==> srv'.emits[|srv.emits|] == Broadcast("tractor-control", data)
    ensures !ValidControl(data) ==> srv'.emits[|srv.emits|].event == "error"
  {
    if Nullish(data) then
      srv.(emits := srv.emits + [ToSender("error", Obj(map["message" := Str(NullRead(data, "type"))]))])
    else if !Truthy(Get(data, "type")) || !ValidControl(data) then
      srv.(emits := srv.emits + [ToSender("error", Obj(map["message" := Str(InvalidControl)]))])
    else
      srv.(emits := srv.emits + [Broadcast("tractor-control", data)])
  }

  /** The three fields whose falsiness rejects a telemetry message. */
  predicate ValidTelemetry(data: Json) {
    Truthy(Get(data, "battery")) && Truthy(Get(data, "speed")) && Truthy(Get(data, "motorTemperature"))
  }

  /** The `telemetry` handler (index.js:65-81). `saveOk` says whether the
      awaited `telemetry.save()` resolved. Every failure is only logged. */
  function OnTelemetry(srv: Server, data: Json, saveOk: bool): (srv': Server)
    ensures ValidTelemetry(data) && saveOk ==>
      srv' == Server(srv.saved + [data], srv.emits + [Broadcast("tractor-telemetry", data)])
    ensures !(ValidTelemetry(data) && saveOk) ==> srv' == srv
  {
    if Nullish(data) then srv
    else if !ValidTelemetry(data) then srv
    else if !saveOk then srv
    else
      var persisted := srv.(saved := srv.saved + [data]);
      persisted.(emits := persisted.emits + [Broadcast("tractor-telemetry", data)])
  }

  /** A rejected control command reaches the sender alone: no broadcast is
      added whatever the payload, and a null payload is rejected too. */
  lemma RejectedControlNeverBroadcasts(srv: Server, data: Json)
    requires !ValidControl(data)
    ensures forall i :: |srv.emits| <= i < |OnControl(srv, data).emits| ==>
      !IsBroadcast(OnControl(srv, data).emits[i])
    ensures !ValidControl(Null) && !ValidControl(Undefined)
  {
  }

  /** A zero reading is falsy, so telemetry with a zero battery, speed or
      temperature is neither saved nor broadcast. */
  lemma ZeroTelemetryDropped(srv: Server, data: Json, saveOk: bool)
    requires Get(data, "battery") == Num(0.0) || Get(data, "speed") == Num(0.0)
             || Get(data, "motorTemperature") == Num(0.0)
    ensures OnTelemetry(srv, data, saveOk) == srv
  {
  }

  /** Every broadcast telemetry message was saved first: over any run of
      messages the broadcasts are exactly the saved documents, in order. */
  lemma {:induction false} BroadcastsFollowSaves(srv: Server, msgs: seq<(Json, bool)>)
    requires |srv.saved| == |srv.emits|
    requires forall i :: 0 <= i < |srv.emits| ==> srv.emits[i] == Broadcast("tractor-telemetry", srv.saved[i])
    ensures var end := Replay(srv, msgs);
      && |end.saved| == |end.emits|
      && forall i :: 0 <= i < |end.emits| ==> end.emits[i] == Broadcast("tractor-telemetry", end.saved[i])
    decreases |msgs|
  {
    if msgs != [] {
      var next := OnTelemetry(srv, msgs[0].0, msgs[0].1);
      BroadcastsFollowSaves(next, msgs[1..]);
    }
  }

  /** Feeds the telemetry messages, each with its save outcome, in order. */
  function Replay(srv: Server, msgs: seq<(Json, bool)>): (end: Server)
    ensures |end.saved| - |srv.saved| <= |msgs|
    decreases |msgs|
  {
    if msgs == [] then srv else Replay(OnTelemetry(srv, msgs[0].0, msgs[0].1), msgs[1..])
  }
}

=== FILE: strings.dfy ===
/** The string operations the application relies on: decimal rendering of
    clock values and status codes (template literals such as
    `offline_${Date.now()}`), `startsWith`, and `split` by one character. */
module Strings {
  import opened Wrappers

  predicate IsDigit(ch: char) {
    '0' <= ch <= '9'
  }

  predicate AllDigits(s: string) {
    forall i :: 0 <= i < |s| ==> IsDigit(s[i])
  }

  function DigitChar(d: nat): (ch: char)
    requires d < 10
    ensures IsDigit(ch)
  {
    "0123456789"[d]
  }

  function DigitValue(ch: char): (d: nat)
    requires IsDigit(ch)
    ensures d < 10
  {
    (ch as int - '0' as int) as nat
  }

  lemma DigitRoundTrip(d: nat)
    requires d < 10
    ensures DigitValue(DigitChar(d)) == d
  {
  }

  /** `String(n)` for a non-negative integer: its decimal digits, without
      leading zeros. */
  function NatToString(n: nat): (r: string)
    ensures |r| >= 1
    ensures AllDigits(r)
    ensures |r| > 1 ==> r[0] != '0'
    decreases n
  {
    if n < 10 then [DigitChar(n)]
    else NatToString(n / 10) + [DigitChar(n % 10)]
  }

  /** `String(i)` for any integer. */
  function IntToString(i: int): (r: string)
    ensures |r| >= 1
    ensures i >= 0 ==> r == NatToString(i)
    ensures i < 0 ==> r[0] == '-'
  {
    if i >= 0 then NatToString(i) else "-" + NatToString(-i)
  }

  /** The value of a string of decimal digits. */
  function ParseDigits(s: string): nat
    requires AllDigits(s)
    decreases |s|
  {
    if s == [] then 0
    else ParseDigits(s[..|s| - 1]) * 10 + DigitValue(s[|s| - 1])
  }

  /** Reading back the decimal rendering gives the number again. */
  lemma {:induction false} ParseNatToString(n: nat)
    ensures ParseDigits(NatToString(n)) == n
    decreases n
  {
    if n < 10 {
      DigitRoundTrip(n);
    } else {
      var s := NatToString(n / 10);
      var r := s + [DigitChar(n % 10)];
      assert r[..|r| - 1] == s;
      ParseNatToString(n / 10);
      DigitRoundTrip(n % 10);
    }
  }

  /** `Number(w)` for a word written by `IntToString`: an optional minus
      sign followed by at least one digit; `None` for anything else. */
  function ParseInt(w: string): Option<int> {
    if |w| >= 2 && w[0] == '-' && AllDigits(w[1..]) then Some(-(ParseDigits(w[1..]) as int))
    else if |w| >= 1 && AllDigits(w) then Some(ParseDigits(w))
    else None
  }

  /** Reading back the rendering of any integer gives the integer again. */
  lemma ParseIntToString(i: int)
    ensures ParseInt(IntToString(i)) == Some(i)
    ensures ' ' !in IntToString(i)
  {
    if i >= 0 {
      ParseNatToString(i);
    } else {
      var r := IntToString(i);
      assert r[1..] == NatToString(-i);
      ParseNatToString(-i);
    }
  }

  /** Distinct numbers render to distinct strings. */
  lemma NatToStringInjective(a: nat, b: nat)
    requires a != b
    ensures NatToString(a) != NatToString(b)
  {
    ParseNatToString(a);
    ParseNatToString(b);
  }

  predicate StartsWith(s: string, prefix: string) {
    |prefix| <= |s| && s[..|prefix|] == prefix
  }

  lemma StartsWithConcat(prefix: string, rest: string)
    ensures StartsWith(prefix + rest, prefix)
  {
    assert (prefix + rest)[..|prefix|] == prefix;
  }

  /** Index of the first occurrence of `c` in `s`. */
  function IndexOf(s: string, c: char): (i: nat)
    requires c in s
    ensures i < |s| && s[i] == c
    ensures c !in s[..i]
    decreases |s|
  {
    if s[0] == c then 0
    else
      assert c in s[1..] by {
        var k :| 0 <= k < |s| && s[k] == c;
        assert s[1..][k - 1] == c;
      }
      var j := IndexOf(s[1..], c);
      assert s[..j + 1] == [s[0]] + s[1..][..j];
      j + 1
  }

  /** `s.split(c)` for a one-character separator. */
  function Split(s: string, c: char): (parts: seq<string>)
    ensures |parts| >= 1
    ensures forall i :: 0 <= i < |parts| ==> c !in parts[i]
    decreases |s|
  {
    if c !in s then [s]
    else
      var i := IndexOf(s, c);
      [s[..i]] + Split(s[i + 1..], c)
  }

  /** `parts.join(c)`. */
  function Join(parts: seq<string>, c: char): string
    requires |parts| >= 1
    decreases |parts|
  {
    if |parts| == 1 then parts[0] else parts[0] + [c] + Join(parts[1..], c)
  }

  /** Splitting and joining again gives back the original string. */
  lemma {:induction false} JoinSplit(s: string, c: char)
    ensures Join(Split(s, c), c) == s
    decreases |s|
  {
    if c in s {
      var i := IndexOf(s, c);
      var rest := s[i + 1..];
      var parts := Split(s, c);
      assert parts[1..] == Split(rest, c);
      JoinSplit(rest, c);
      assert s == s[..i] + [c] + rest;
    }
  }

  /** The first `c` after a prefix free of `c` is the one right after it. */
  lemma {:induction false} IndexOfAfterPrefix(p: string, c: char, rest: string)
    requires c !in p
    ensures c in p + [c] + rest && IndexOf(p + [c] + rest, c) == |p|
    decreases |p|
  {
    var s := p + [c] + rest;
    assert s[|p|] == c;
    if p != [] {
      assert s[0] == p[0];
      assert s[1..] == p[1..] + [c] + rest;
      IndexOfAfterPrefix(p[1..], c, rest);
    }
  }

  /** Joining separator-free parts and splitting again gives back the parts. */
  lemma {:induction false} SplitJoin(parts: seq<string>, c: char)
    requires |parts| >= 1
    requires forall i :: 0 <= i < |parts| ==> c !in parts[i]
    ensures Split(Join(parts, c), c) == parts
    decreases |parts|
  {
    if |parts| > 1 {
      var p := parts[0];
      var rest := Join(parts[1..], c);
      var s := p + [c] + rest;
      assert Join(parts, c) == s;
      IndexOfAfterPrefix(p, c, rest);
      assert s[..|p|] == p;
      assert s[|p| + 1..] == rest;
      SplitJoin(parts[1..], c);
    }
  }

  /** `s.split(c)[0]`: the longest prefix of `s` that does not contain `c`. */
  function BeforeFirst(s: string, c: char): (r: string)
    ensures StartsWith(s, r)
    ensures c !in r
    ensures r == s || s[|r|] == c
  {
    Split(s, c)[0]
  }
}

=== FILE: tractor_context.dfy ===
/** The tractor UI state of src/context/TractorContext.jsx: the status
    record the control buttons update, the task list and the derived list
    of upcoming tasks. Timers (battery drain, location jitter, the delayed
    end of "return home") are left out; the clock is a parameter. */
module TractorContext {
  import opened Wrappers
  import opened Json
  import opened Strings
  import opened Runtime

  datatype Status = Operational | Standby | Error | Offline

  datatype TractorStatus = TractorStatus(
    id: string,
    status: Status,
    operationMode: Option<string>,
    batteryLevel: real,
    isCharging: bool,
    estimatedRuntime: int,
    direction: Option<string>,
    speed: int)

  const InitialStatus := TractorStatus("sevak-001", Standby, None, 78.0, false, 240, None, 0)

  /** The fields no control command touches. */
  predicate SamePower(a: TractorStatus, b: TractorStatus) {
    a.id == b.id && a.batteryLevel == b.batteryLevel && a.isCharging == b.isCharging
    && a.estimatedRuntime == b.estimatedRuntime
  }

  /** `sendDirectionCommand(direction)` (TractorContext.jsx:90-97). */
  function SendDirectionCommand(t: TractorStatus, direction: string): (t': TractorStatus)
    ensures t'.direction == Some(direction)
    ensures t'.status == (if direction == "stop" then Standby else Operational)
    ensures SamePower(t, t') && t'.operationMode == t.operationMode && t'.speed == t.speed
  {
    t.(direction := Some(direction), status := if direction == "stop" then Standby else Operational)
  }

  /** `sendSpeedCommand(speed)` (TractorContext.jsx:99-105). */
  function SendSpeedCommand(t: TractorStatus, speed: int): (t': TractorStatus)
    ensures t'.speed == speed
    ensures SamePower(t, t') && t'.status == t.status && t'.operationMode == t.operationMode
    ensures t'.direction == t.direction
  {
    t.(speed := speed)
  }

  /** `toggleOperation(operationType)` (TractorContext.jsx:107-114). */
  function ToggleOperation(t: TractorStatus, operationType: string): (t': TractorStatus)
    ensures t.operationMode == Some(operationType) ==> t'.operationMode.None?
    ensures t.operationMode != Some(operationType) ==> t'.operationMode == Some(operationType)
    ensures t'.status == Operational
    ensures SamePower(t, t') && t'.direction == t.direction && t'.speed == t.speed
  {
    t.(operationMode := if t.operationMode == Some(operationType) then None else Some(operationType),
       status := Operational)
  }

  /** Toggling the same mode twice from no mode comes back to no mode. */
  lemma ToggleTwice(t: TractorStatus, operationType: string)
    requires t.operationMode.None?
    ensures ToggleOperation(ToggleOperation(t, operationType), operationType).operationMode.None?
  {
  }

  /** `triggerOperation(operationType)` (TractorContext.jsx:116-147),
      without the timer that later puts the tractor back on standby. */
  function TriggerOperation(t: TractorStatus, operationType: string): (t': TractorStatus)
    ensures t'.status == Operational
    ensures operationType == "returnHome" ==>
      t'.operationMode == Some("transport") && t'.direction == Some("forward") && t'.speed == 50
    ensures operationType != "returnHome" ==>
      t'.operationMode == Some(operationType) && t'.direction == t.direction && t'.speed == t.speed
    ensures SamePower(t, t')
  {
    if operationType == "returnHome" then
      t.(status := Operational, operationMode := Some("transport"), direction := Some("forward"), speed := 50)
    else
      t.(status := Operational, operationMode := Some(operationType))
  }

  /** `triggerEmergencyStop()` (TractorContext.jsx:149-158). */
  function TriggerEmergencyStop(t: TractorStatus): (t': TractorStatus)
    ensures t'.status == Standby && t'.operationMode.None? && t'.direction.None? && t'.speed == 0
    ensures SamePower(t, t')
  {
    t.(status := Standby, operationMode := None, direction := None, speed := 0)
  }

  /** Whatever the tractor was doing, an emergency stop ends in the same
      halted state, and stopping again changes nothing. */
  lemma EmergencyStopHalts(a: TractorStatus, b: TractorStatus)
    requires SamePower(a, b)
    ensures TriggerEmergencyStop(a) == TriggerEmergencyStop(b)
    ensures TriggerEmergencyStop(TriggerEmergencyStop(a)) == TriggerEmergencyStop(a)
  {
  }

  /** Each control writes its own fields only: the last direction and the
      last speed win, a direction and a speed commute, and triggering the
      same operation twice is the same as once. */
  lemma CommandsLastWins(t: TractorStatus, d1: string, d2: string, v1: int, v2: int, op: string)
    ensures SendDirectionCommand(SendDirectionCommand(t, d1), d2) == SendDirectionCommand(t, d2)
    ensures SendSpeedCommand(SendSpeedCommand(t, v1), v2) == SendSpeedCommand(t, v2)
    ensures SendSpeedCommand(SendDirectionCommand(t, d1), v1) == SendDirectionCommand(SendSpeedCommand(t, v1), d1)
    ensures TriggerOperation(TriggerOperation(t, op), op) == TriggerOperation(t, op)
  {
  }

  /** An emergency stop undoes any control command: the stopped state is
      the one reached by stopping without it. */
  lemma StopUndoesCommands(t: TractorStatus, d: string, v: int, op: string)
    ensures TriggerEmergencyStop(SendDirectionCommand(t, d)) == TriggerEmergencyStop(t)
    ensures TriggerEmergencyStop(SendSpeedCommand(t, v)) == TriggerEmergencyStop(t)
    ensures TriggerEmergencyStop(TriggerOperation(t, op)) == TriggerEmergencyStop(t)
    ensures TriggerEmergencyStop(ToggleOperation(t, op)) == TriggerEmergencyStop(t)
  {
  }

  // ---------------------------------------------------------------------
  // Tasks (TractorContext.jsx:161-180)

  type Task = Record

  predicate HasId(task: Task, taskId: string) {
    Field(task, "id") == Str(taskId)
  }

  /** `addTask(task)`: appends the task with a `t<ms>` id and status
      `scheduled`. */
  function AddTask(tasks: seq<Task>, task: Task, clock: Clock): (r: seq<Task>)
    ensures |r| == |tasks| + 1 && r[..|tasks|] == tasks
    ensures HasId(r[|tasks|], "t" + NatToString(clock.millis))
    ensures Field(r[|tasks|], "status") == Str("scheduled")
    ensures forall k :: k in task && k != "id" && k != "status" ==> k in r[|tasks|] && r[|tasks|][k] == task[k]
  {
    tasks + [task + map["id" := Str("t" + NatToString(clock.millis)), "status" := Str("scheduled")]]
  }

  /** `updateTask(taskId, updates)`: overlays `updates` on every task with
      that id. */
  function UpdateTask(tasks: seq<Task>, taskId: string, updates: Task): (r: seq<Task>)
    ensures |r| == |tasks|
    ensures forall i :: 0 <= i < |tasks| && !HasId(tasks[i], taskId) ==> r[i] == tasks[i]
    ensures forall i :: 0 <= i < |tasks| && HasId(tasks[i], taskId) ==>
      r[i].Keys == tasks[i].Keys + updates.Keys
      && (forall k :: k in updates ==> r[i][k] == updates[k])
      && (forall k :: k in tasks[i] && k !in updates ==> r[i][k] == tasks[i][k])
  {
    seq(|tasks|, i requires 0 <= i < |tasks| => if HasId(tasks[i], taskId) then tasks[i] + updates else tasks[i])
  }

  /** `deleteTask(taskId)`: keeps the tasks with another id. */
  function DeleteTask(tasks: seq<Task>, taskId: string): (r: seq<Task>)
    ensures forall t :: t in r ==> t in tasks && !HasId(t, taskId)
    ensures forall t :: t in tasks && !HasId(t, taskId) ==> t in r
    ensures |r| <= |tasks|
    ensures forall t :: multiset(r)[t] == if HasId(t, taskId) then 0 else multiset(tasks)[t]
    decreases |tasks|
  {
    if tasks == [] then []
    else
      var rest := DeleteTask(tasks[1..], taskId);
      assert forall t :: t in tasks ==> t == tasks[0] || t in tasks[1..];
      assert tasks == [tasks[0]] + tasks[1..];
      if HasId(tasks[0], taskId) then rest else [tasks[0]] + rest
  }

  /** `a` is `b` with some elements left out, the rest in their order. */
  ghost predicate Subsequence(a: seq<Task>, b: seq<Task>)
    decreases |b|
  {
    if a == [] then true
    else if b == [] then false
    else (a[0] == b[0] && Subsequence(a[1..], b[1..])) || Subsequence(a, b[1..])
  }

  /** Deletion keeps the remaining tasks in their original order. */
  lemma {:induction false} DeleteKeepsOrder(tasks: seq<Task>, taskId: string)
    ensures Subsequence(DeleteTask(tasks, taskId), tasks)
    decreases |tasks|
  {
    if tasks != [] {
      DeleteKeepsOrder(tasks[1..], taskId);
      var r := DeleteTask(tasks, taskId);
      if !HasId(tasks[0], taskId) {
        assert r[0] == tasks[0] && r[1..] == DeleteTask(tasks[1..], taskId);
      }
    }
  }

  /** Deleting an id no task carries leaves the list as it was. */
  lemma {:induction false} DeleteAbsentIsIdentity(tasks: seq<Task>, taskId: string)
    requires forall i :: 0 <= i < |tasks| ==> !HasId(tasks[i], taskId)
    ensures DeleteTask(tasks, taskId) == tasks
    decreases |tasks|
  {
    if tasks != [] {
      DeleteAbsentIsIdentity(tasks[1..], taskId);
      assert [tasks[0]] + tasks[1..] == tasks;
    }
  }

  // ---------------------------------------------------------------------
  // Upcoming tasks (TractorContext.jsx:52-56)

  /** `Date.parse(s)`: the time value of a date string, or `None` when the
      string is not a date. It is a parameter, as `JSON.parse` is. */
  type DateParser = string -> Option<int>

  /** The largest time value a `Date` can hold, in milliseconds. */
  const MaxTimeValue := 8_640_000_000_000_000

  /** `ToIntegerOrInfinity` on a finite number: truncation towards zero. */
  function Truncate(x: real): (r: int)
    ensures x >= 0.0 ==> r as real <= x < r as real + 1.0
    ensures x < 0.0 ==> r as real - 1.0 < x <= r as real
  {
    if x >= 0.0 then x.Floor else -((-x).Floor)
  }

  /** `new Date(v).getTime()` when it is a valid date: a date keeps its
      time, a string is parsed, a number (`null` as 0, a boolean as 0 or 1)
      is truncated and must lie within the `Date` range; `undefined`,
      `NaN`, arrays and objects give an invalid date. */
  function TimeOf(task: Task, parseDate: DateParser): (r: Option<int>)
    ensures Field(task, "scheduledTime").Date? ==> r == Some(Field(task, "scheduledTime").millis)
    ensures Field(task, "scheduledTime").Str? ==> r == parseDate(Field(task, "scheduledTime").s)
    ensures Field(task, "scheduledTime").Num? ==>
      var n := Field(task, "scheduledTime").n;
      (r.Some? <==> -MaxTimeValue <= Truncate(n) <= MaxTimeValue)
      && (r.Some? ==> r.value == Truncate(n))
    ensures Field(task, "scheduledTime").Undefined? || Field(task, "scheduledTime").NaN? ==> r.None?
  {
    match Field(task, "scheduledTime")
    case Date(ms) => Some(ms)
    case Str(text) => parseDate(text)
    case Num(n) =>
      var ms := Truncate(n);
      if -MaxTimeValue <= ms <= MaxTimeValue then Some(ms) else None
    case Null => Some(0)
    case Bool(b) => Some(if b then 1 else 0)
    case _ => None
  }

  /** The sort key: the time value, 0 for an invalid date. */
  function Key(task: Task, parseDate: DateParser): int {
    TimeOf(task, parseDate).GetOr(0)
  }

  /** The filter: `status === 'scheduled'` and a date after `now` (an
      invalid date compares false). */
  predicate Upcoming(task: Task, now: int, parseDate: DateParser) {
    Field(task, "status") == Str("scheduled") && TimeOf(task, parseDate).Some? && TimeOf(task, parseDate).value > now
  }

  function FilterUpcoming(tasks: seq<Task>, now: int, parseDate: DateParser): (r: seq<Task>)
    ensures forall t :: t in r <==> t in tasks && Upcoming(t, now, parseDate)
    ensures multiset(r) <= multiset(tasks)
    decreases |tasks|
  {
    if tasks == [] then []
    else
      var init := tasks[..|tasks| - 1];
      var last := tasks[|tasks| - 1];
      assert tasks == init + [last];
      FilterUpcoming(init, now, parseDate) + (if Upcoming(last, now, parseDate) then [last] else [])
  }

  predicate SortedByTime(s: seq<Task>, parseDate: DateParser) {
    forall i, j :: 0 <= i < j < |s| ==> Key(s[i], parseDate) <= Key(s[j], parseDate)
  }

  /** Inserts `x` after every element whose time is not later than its own,
      so equal times keep their input order (`SortByTimeStable`). */
  function Insert(sorted: seq<Task>, x: Task, parseDate: DateParser): (r: seq<Task>)
    ensures multiset(r) == multiset(sorted) + multiset{x}
    decreases |sorted|
  {
    if sorted == [] then [x]
    else
      var init := sorted[..|sorted| - 1];
      var last := sorted[|sorted| - 1];
      assert sorted == init + [last];
      if Key(last, parseDate) <= Key(x, parseDate) then sorted + [x]
      else Insert(init, x, parseDate) + [last]
  }

  /** An upper bound on the times of a list and of `x` bounds the result. */
  lemma {:induction false} InsertBounded(sorted: seq<Task>, x: Task, bound: int, parseDate: DateParser)
    requires forall i :: 0 <= i < |sorted| ==> Key(sorted[i], parseDate) <= bound
    requires Key(x, parseDate) <= bound
    ensures forall i :: 0 <= i < |Insert(sorted, x, parseDate)| ==> Key(Insert(sorted, x, parseDate)[i], parseDate) <= bound
    decreases |sorted|
  {
    if sorted != [] {
      var init := sorted[..|sorted| - 1];
      if Key(sorted[|sorted| - 1], parseDate) > Key(x, parseDate) {
        InsertBounded(init, x, bound, parseDate);
      }
    }
  }

  /** Insertion keeps a time-sorted list sorted. */
  lemma {:induction false} InsertSorted(sorted: seq<Task>, x: Task, parseDate: DateParser)
    requires SortedByTime(sorted, parseDate)
    ensures SortedByTime(Insert(sorted, x, parseDate), parseDate)
    decreases |sorted|
  {
    if sorted != [] {
      var init := sorted[..|sorted| - 1];
      var last := sorted[|sorted| - 1];
      if Key(last, parseDate) > Key(x, parseDate) {
        InsertSorted(init, x, parseDate);
        InsertBounded(init, x, Key(last, parseDate), parseDate);
        var m := Insert(init, x, parseDate);
        var r := m + [last];
        assert r == Insert(sorted, x, parseDate);
        forall i, j | 0 <= i < j < |r|
          ensures Key(r[i], parseDate) <= Key(r[j], parseDate)
        {
          assert r[i] == m[i];
          if j < |r| - 1 {
            assert r[j] == m[j];
          }
        }
      }
    }
  }

  /** `.sort((a, b) => new Date(a.scheduledTime) - new Date(b.scheduledTime))`. */
  function SortByTime(s: seq<Task>, parseDate: DateParser): (r: seq<Task>)
    ensures multiset(r) == multiset(s)
    decreases |s|
  {
    if s == [] then []
    else
      var init := s[..|s| - 1];
      assert s == init + [s[|s| - 1]];
      Insert(SortByTime(init, parseDate), s[|s| - 1], parseDate)
  }

  /** The sort orders by time. */
  lemma {:induction false} SortByTimeSorted(s: seq<Task>, parseDate: DateParser)
    ensures SortedByTime(SortByTime(s, parseDate), parseDate)
    decreases |s|
  {
    if s != [] {
      var init := s[..|s| - 1];
      SortByTimeSorted(init, parseDate);
      InsertSorted(SortByTime(init, parseDate), s[|s| - 1], parseDate);
    }
  }

  /** The tasks of `s` whose time is `k`, in their order in `s`. */
  function AtTime(s: seq<Task>, k: int, parseDate: DateParser): seq<Task>
    decreases |s|
  {
    if s == [] then []
    else AtTime(s[..|s| - 1], k, parseDate) + (if Key(s[|s| - 1], parseDate) == k then [s[|s| - 1]] else [])
  }

  lemma {:induction false} AtTimeAppend(a: seq<Task>, b: seq<Task>, k: int, parseDate: DateParser)
    ensures AtTime(a + b, k, parseDate) == AtTime(a, k, parseDate) + AtTime(b, k, parseDate)
    decreases |b|
  {
    if b != [] {
      var b' := b[..|b| - 1];
      assert (a + b)[..|a + b| - 1] == a + b';
      assert (a + b)[|a + b| - 1] == b[|b| - 1];
      AtTimeAppend(a, b', k, parseDate);
    } else {
      assert a + b == a;
    }
  }

  /** Insertion puts `x` after every task of its own time. */
  lemma {:induction false} InsertStable(sorted: seq<Task>, x: Task, k: int, parseDate: DateParser)
    ensures AtTime(Insert(sorted, x, parseDate), k, parseDate)
         == AtTime(sorted, k, parseDate) + AtTime([x], k, parseDate)
    decreases |sorted|
  {
    if sorted == [] {
      assert [x][..0] == [];
    } else {
      var init := sorted[..|sorted| - 1];
      var last := sorted[|sorted| - 1];
      assert sorted == init + [last];
      assert [last][..0] == [] && [x][..0] == [];
      if Key(last, parseDate) <= Key(x, parseDate) {
        AtTimeAppend(sorted, [x], k, parseDate);
      } else {
        InsertStable(init, x, k, parseDate);
        AtTimeAppend(Insert(init, x, parseDate), [last], k, parseDate);
        AtTimeAppend(init, [last], k, parseDate);
      }
    }
  }

  /** The sort is stable: the tasks of any one time come out in their
      input order, as `Array.prototype.sort` guarantees. */
  lemma {:induction false} SortByTimeStable(s: seq<Task>, k: int, parseDate: DateParser)
    ensures AtTime(SortByTime(s, parseDate), k, parseDate) == AtTime(s, k, parseDate)
    decreases |s|
  {
    if s != [] {
      var init := s[..|s| - 1];
      SortByTimeStable(init, k, parseDate);
      InsertStable(SortByTime(init, parseDate), s[|s| - 1], k, parseDate);
      assert [s[|s| - 1]][..0] == [];
    }
  }

  /** `upcomingTasks`: the scheduled tasks dated after `now`, earliest first. */
  function UpcomingTasks(allTasks: seq<Task>, now: int, parseDate: DateParser): (r: seq<Task>)
    ensures SortedByTime(r, parseDate)
    ensures multiset(r) == multiset(FilterUpcoming(allTasks, now, parseDate))
    ensures forall t :: t in r <==> t in allTasks && Upcoming(t, now, parseDate)
  {
    var r := SortByTime(FilterUpcoming(allTasks, now, parseDate), parseDate);
    SortByTimeSorted(FilterUpcoming(allTasks, now, parseDate), parseDate);
    assert forall t :: t in r <==> t in multiset(r);
    r
  }

  /** Every upcoming task occurs in the list exactly as often as in
      `allTasks`: nothing is duplicated or dropped by the sort. */
  lemma UpcomingIsSubMultiset(allTasks: seq<Task>, now: int, parseDate: DateParser)
    ensures multiset(UpcomingTasks(allTasks, now, parseDate)) <= multiset(allTasks)
    ensures |UpcomingTasks(allTasks, now, parseDate)| <= |allTasks|
  {
    var r := UpcomingTasks(allTasks, now, parseDate);
    assert |multiset(r)| <= |multiset(allTasks)| by {
      var f := FilterUpcoming(allTasks, now, parseDate);
      assert multiset(f) <= multiset(allTasks);
      MultisetSubsetCard(multiset(f), multiset(allTasks));
    }
  }

  lemma MultisetSubsetCard(a: multiset<Task>, b: multiset<Task>)
    requires a <= b
    ensures |a| <= |b|
  {
    assert b == a + (b - a);
  }

  /** A task just added is scheduled, so it is upcoming exactly when its
      date is after `now`. */
  lemma AddedTaskUpcoming(tasks: seq<Task>, task: Task, clock: Clock, now: int, parseDate: DateParser)
    ensures var all := AddTask(tasks, task, clock);
      all[|tasks|] in UpcomingTasks(all, now, parseDate) <==>
      TimeOf(task, parseDate).Some? && TimeOf(task, parseDate).value > now
  {
    var all := AddTask(tasks, task, clock);
    assert TimeOf(all[|tasks|], parseDate) == TimeOf(task, parseDate);
    assert all[|tasks|] in all;
  }

  /** A scheduled task whose time is a whole number of milliseconds in the
      `Date` range, or an ISO string that parses, is upcoming exactly when
      that time is after `now`. */
  lemma NumericAndStringTimes(task: Task, now: int, parseDate: DateParser, ms: int, text: string)
    requires Field(task, "status") == Str("scheduled")
    requires -MaxTimeValue <= ms <= MaxTimeValue
    ensures Upcoming(task["scheduledTime" := Num(ms as real)], now, parseDate) <==> ms > now
    ensures parseDate(text) == Some(ms) ==>
      (Upcoming(task["scheduledTime" := Str(text)], now, parseDate) <==> ms > now)
  {
    assert Field(task["scheduledTime" := Num(ms as real)], "status") == Field(task, "status");
    assert Field(task["scheduledTime" := Str(text)], "status") == Field(task, "status");
  }
}

=== FILE: tractor_control.dfy ===
/** The on-board controller of hardware/tractor_control.py: joystick input
    becomes two clamped drive throttles, actions drive the cutter and the
    trailer motor, and each telemetry tick drains the simulated battery.
    The motor kit is the four throttles; the serial line is a parameter;
    arithmetic is exact (the source uses floating point). */
module TractorControl {
  import opened Wrappers
  import opened Json

  /** `kit.motorN.throttle`; `None` until first set. */
  datatype Motors = Motors(m1: Option<real>, m2: Option<real>, m3: Option<real>, m4: Option<real>)

  datatype State = State(
    motors: Motors,
    speed: real,
    cuttingStatus: string,
    trailerStatus: string,
    batteryLevel: real,
    motorTemperature: real)

  /** The state `__init__` leaves (tractor_control.py:18-23). */
  const Initial := State(Motors(None, None, None, None), 0.0, "idle", "empty", 100.0, 25.0)

  /** `np.clip(v, -1, 1)`. */
  function Clip(v: real): (r: real)
    ensures -1.0 <= r <= 1.0
    ensures -1.0 <= v <= 1.0 ==> r == v
    ensures v < -1.0 ==> r == -1.0
    ensures v > 1.0 ==> r == 1.0
  {
    if v < -1.0 then -1.0 else if v > 1.0 then 1.0 else v
  }

  function Abs(v: real): real { if v < 0.0 then -v else v }

  function Max(a: real, b: real): real { if a < b then b else a }

  /** `handle_movement(x, y)` (tractor_control.py:53-66): differential
      drive, left `y + x` and right `y - x`, each clamped. */
  function HandleMovement(s: State, x: real, y: real): (s': State)
    ensures s'.motors.m1 == Some(Clip(y + x)) && s'.motors.m2 == Some(Clip(y - x))
    ensures -1.0 <= s'.motors.m1.value <= 1.0 && -1.0 <= s'.motors.m2.value <= 1.0
    ensures 0.0 <= s'.speed <= 10.0
    ensures s'.speed == 10.0 * Max(Abs(s'.motors.m1.value), Abs(s'.motors.m2.value))
    ensures s'.motors.m3 == s.motors.m3 && s'.motors.m4 == s.motors.m4
    ensures s'.cuttingStatus == s.cuttingStatus && s'.trailerStatus == s.trailerStatus
    ensures s'.batteryLevel == s.batteryLevel && s'.motorTemperature == s.motorTemperature
  {
    var left := Clip(y + x);
    var right := Clip(y - x);
    s.(motors := s.motors.(m1 := Some(left), m2 := Some(right)), speed := Max(Abs(left), Abs(right)) * 10.0)
  }

  /** Centring the joystick stops both drive motors. */
  lemma CentredStickStops(s: State)
    ensures HandleMovement(s, 0.0, 0.0).motors.m1 == Some(0.0)
    ensures HandleMovement(s, 0.0, 0.0).motors.m2 == Some(0.0)
    ensures HandleMovement(s, 0.0, 0.0).speed == 0.0
  {
  }

  /** Full forward drives both wheels at full throttle and top speed; a
      pure turn drives them in opposite directions. */
  lemma ForwardAndTurn(s: State, x: real)
    requires 0.0 < x <= 1.0
    ensures HandleMovement(s, 0.0, 1.0).speed == 10.0
    ensures HandleMovement(s, 0.0, 1.0).motors.m1 == HandleMovement(s, 0.0, 1.0).motors.m2 == Some(1.0)
    ensures HandleMovement(s, x, 0.0).motors.m1 == Some(x) && HandleMovement(s, x, 0.0).motors.m2 == Some(-x)
  {
  }

  /** `handle_action(action)` (tractor_control.py:68-90). The loader runs
      for two seconds inside the call; the model keeps the state at its
      end. Any other action changes nothing. */
  function HandleAction(s: State, action: Json): (s': State)
    ensures action == Str("start_cutting") ==> s' == s.(cuttingStatus := "cutting", motors := s.motors.(m3 := Some(1.0)))
    ensures action == Str("stop_cutting") ==> s' == s.(cuttingStatus := "idle", motors := s.motors.(m3 := Some(0.0)))
    ensures action == Str("load_trailer") ==> s' == s.(trailerStatus := "loaded", motors := s.motors.(m4 := Some(0.0)))
    ensures action == Str("unload_trailer") ==> s' == s.(trailerStatus := "empty", motors := s.motors.(m4 := Some(0.0)))
    ensures !IsAction(action) ==> s' == s
    ensures s'.speed == s.speed && s'.motors.m1 == s.motors.m1 && s'.motors.m2 == s.motors.m2
  {
    if action == Str("start_cutting") then s.(cuttingStatus := "cutting", motors := s.motors.(m3 := Some(1.0)))
    else if action == Str("stop_cutting") then s.(cuttingStatus := "idle", motors := s.motors.(m3 := Some(0.0)))
    else if action == Str("load_trailer") then
      var loading := s.(trailerStatus := "loading", motors := s.motors.(m4 := Some(1.0)));
      loading.(trailerStatus := "loaded", motors := loading.motors.(m4 := Some(0.0)))
    else if action == Str("unload_trailer") then
      var unloading := s.(trailerStatus := "unloading", motors := s.motors.(m4 := Some(-1.0)));
      unloading.(trailerStatus := "empty", motors := unloading.motors.(m4 := Some(0.0)))
    else s
  }

  predicate IsAction(action: Json) {
    action in [Str("start_cutting"), Str("stop_cutting"), Str("load_trailer"), Str("unload_trailer")]
  }

  /** A load followed by an unload leaves the trailer empty and its motor
      stopped; cutting can be stopped after starting. */
  lemma ActionsPair(s: State)
    ensures HandleAction(HandleAction(s, Str("load_trailer")), Str("unload_trailer")).trailerStatus == "empty"
    ensures HandleAction(HandleAction(s, Str("load_trailer")), Str("unload_trailer")).motors.m4 == Some(0.0)
    ensures HandleAction(HandleAction(s, Str("start_cutting")), Str("stop_cutting")).cuttingStatus == "idle"
  {
  }

  /** `control_callback` on a decoded command (tractor_control.py:43-51).
      A missing key, a value of the wrong type or an unknown type raises
      inside the `try` or matches no branch; either way nothing changes. */
  function ControlCallback(s: State, command: Json): (s': State)
    ensures !command.Obj? ==> s' == s
    ensures Get(command, "type") != Str("movement") && Get(command, "type") != Str("action") ==> s' == s
    ensures Get(command, "type") == Str("movement") && Get(command, "x").Num? && Get(command, "y").Num? ==>
      s' == HandleMovement(s, Get(command, "x").n, Get(command, "y").n)
    ensures Get(command, "type") == Str("movement") && !(Get(command, "x").Num? && Get(command, "y").Num?) ==> s' == s
    ensures Get(command, "type") == Str("action") ==> s' == HandleAction(s, Get(command, "action"))
  {
    if !command.Obj? then s
    else
      var kind := Get(command, "type");
      if kind == Str("movement") then
        var x, y := Get(command, "x"), Get(command, "y");
        if x.Num? && y.Num? then HandleMovement(s, x.n, y.n) else s
      else if kind == Str("action") then HandleAction(s, Get(command, "action"))
      else s
  }

  /** `control_callback` as written: `msg.data` of a ROS `String` message is
      text, and indexing text with `'type'` raises `TypeError`, which the
      handler catches. */
  function ControlCallbackAsWritten(s: State, data: string): (s': State)
    ensures s' == s
  {
    ControlCallback(s, Str(data))
  }

  /** As written, a movement command never reaches the motors, while the
      same command decoded first does. */
  lemma CommandsIgnoredAsWritten(s: State, data: string, x: real, y: real)
    requires s.motors.m1.None?
    ensures ControlCallbackAsWritten(s, data).motors.m1.None?
    ensures var cmd := Obj(map["type" := Str("movement"), "x" := Num(x), "y" := Num(y)]);
      ControlCallback(s, cmd).motors.m1 == Some(Clip(y + x))
  {
  }

  datatype Telemetry = Telemetry(battery: real, speed: real, motorTemperature: real, cuttingStatus: string, trailerStatus: string)

  /** `update_telemetry()` (tractor_control.py:92-116). `reading` is the
      temperature parsed from the serial line, `None` when the line is
      empty, unreadable or not a number. */
  function UpdateTelemetry(s: State, reading: Option<real>): (r: (State, Telemetry))
    ensures r.0.batteryLevel == (if s.batteryLevel - 0.1 < 0.0 then 0.0 else s.batteryLevel - 0.1)
    ensures r.0.motorTemperature == reading.GetOr(s.motorTemperature)
    ensures r.0.motors == s.motors && r.0.speed == s.speed
    ensures r.1 == Telemetry(r.0.batteryLevel, r.0.speed, r.0.motorTemperature, r.0.cuttingStatus, r.0.trailerStatus)
  {
    var temperature := reading.GetOr(s.motorTemperature);
    var battery := if s.batteryLevel - 0.1 < 0.0 then 0.0 else s.batteryLevel - 0.1;
    var s' := s.(motorTemperature := temperature, batteryLevel := battery);
    (s', Telemetry(battery, s'.speed, temperature, s'.cuttingStatus, s'.trailerStatus))
  }

  /** Each tick leaves the battery non-negative and no fuller than before,
      for any battery level it starts from that is non-negative. */
  lemma BatteryDrains(s: State, reading: Option<real>)
    requires s.batteryLevel >= 0.0
    ensures 0.0 <= UpdateTelemetry(s, reading).0.batteryLevel <= s.batteryLevel
  {
  }

  /** A run of telemetry ticks, one per serial reading. */
  function Ticks(s: State, readings: seq<Option<real>>): (s': State)
    ensures s.batteryLevel >= 0.0 ==> 0.0 <= s'.batteryLevel <= s.batteryLevel
    decreases |readings|
  {
    if readings == [] then s else Ticks(UpdateTelemetry(s, readings[0]).0, readings[1..])
  }

  /** Every tick takes 0.1 off the battery until it reaches zero. */
  lemma {:induction false} TicksDrain(s: State, readings: seq<Option<real>>)
    requires s.batteryLevel >= 0.0
    ensures Ticks(s, readings).batteryLevel == Max(0.0, s.batteryLevel - 0.1 * |readings| as real)
    decreases |readings|
  {
    if readings != [] {
      TicksDrain(UpdateTelemetry(s, readings[0]).0, readings[1..]);
    }
  }
}

=== FILE: tractor_service.dfy ===
/** The tractor service of src/services/tractorService.js: status reads
    fall back to the cache, commands fall back to the operation log, and
    the emergency stop falls back to a local acknowledgement. */
module TractorService {
  import opened Wrappers
  import opened Json
  import opened Runtime
  import opened OfflineStore

  /** The store after a call and what the call returns or throws. */
  datatype Step = Step(store: Store, result: Result<Json, Error>)

  function StatusKey(tractorId: string): string { "tractor_status_" + tractorId }
  function LocationKey(tractorId: string): string { "tractor_location_" + tractorId }
  function DiagnosticsKey(tractorId: string): string { "tractor_diagnostics_" + tractorId }

  /** The offline read shared by `getStatus`, `getLocation` and
      `getDiagnostics`. The cache lookup is not awaited, so the value tested
      for truthiness is a promise, which always is: the caller receives the
      cached data, or `null` when nothing is cached, and the error is never
      rethrown. */
  function ReadWithFallback(s: Store, key: string, call: Result<Json, Error>, online: bool): (r: Result<Json, Error>)
    ensures call.Success? ==> r == call
    ensures call.Failure? && online ==> r == call
    ensures call.Failure? && !online ==> r.Success? && (key !in s.cache ==> r.value == Null)
    ensures call.Failure? && !online && key in s.cache ==> r == Success(s.cache[key].data)
  {
    if call.Success? || online then call
    else Success(GetCachedData(s, key))
  }

  /** `getStatus(tractorId)` (tractorService.js:14-28). */
  function GetStatus(s: Store, tractorId: string, call: Result<Json, Error>, online: bool): (r: Result<Json, Error>)
    ensures call.Success? || online ==> r == call
    ensures call.Failure? && !online ==> r == Success(GetCachedData(s, StatusKey(tractorId)))
  {
    ReadWithFallback(s, StatusKey(tractorId), call, online)
  }

  /** `getLocation(tractorId)` (tractorService.js:99-119): a truthy answer
      is also cached. */
  function GetLocation(s: Store, tractorId: string, call: Result<Json, Error>, online: bool, now: int): (r: Step)
    ensures call.Success? && Truthy(call.value) ==>
      r == Step(CacheData(s, LocationKey(tractorId), call.value, now), call)
    ensures !(call.Success? && Truthy(call.value)) ==> r.store == s
    ensures r.result == ReadWithFallback(s, LocationKey(tractorId), call, online)
  {
    if call.Success? && Truthy(call.value) then
      Step(CacheData(s, LocationKey(tractorId), call.value, now), call)
    else
      Step(s, ReadWithFallback(s, LocationKey(tractorId), call, online))
  }

  /** `getDiagnostics(tractorId)` (tractorService.js:126-140). */
  function GetDiagnostics(s: Store, tractorId: string, call: Result<Json, Error>, online: bool): (r: Result<Json, Error>)
    ensures call.Success? || online ==> r == call
    ensures call.Failure? && !online ==> r == Success(GetCachedData(s, DiagnosticsKey(tractorId)))
  {
    ReadWithFallback(s, DiagnosticsKey(tractorId), call, online)
  }

  /** While offline a failed read never throws, for all three reads. */
  lemma OfflineReadsNeverThrow(s: Store, tractorId: string, e: Error, now: int)
    ensures GetStatus(s, tractorId, Failure(e), false).Success?
    ensures GetLocation(s, tractorId, Failure(e), false, now).result.Success?
    ensures GetDiagnostics(s, tractorId, Failure(e), false).Success?
  {
  }

  /** A location read on line, then one off line, answers the cached location. */
  lemma LocationCachedThenRead(s: Store, tractorId: string, location: Json, e: Error, t1: int, t2: int)
    requires Truthy(location)
    ensures var r := GetLocation(s, tractorId, Success(location), true, t1);
      GetLocation(r.store, tractorId, Failure(e), false, t2).result == Success(location)
  {
  }

  /** The three reads use separate cache entries: caching a location does
      not change what an offline status or diagnostics read answers, for
      this tractor or any other. */
  lemma ReadsUseSeparateKeys(s: Store, tractorId: string, other: string, location: Json, e: Error, online: bool, now: int)
    ensures var s' := GetLocation(s, tractorId, Success(location), online, now).store;
      && GetStatus(s', other, Failure(e), false) == GetStatus(s, other, Failure(e), false)
      && GetDiagnostics(s', other, Failure(e), false) == GetDiagnostics(s, other, Failure(e), false)
  {
    assert StatusKey(other) != LocationKey(tractorId) by {
      assert StatusKey(other)[9] != LocationKey(tractorId)[9];
    }
    assert DiagnosticsKey(other) != LocationKey(tractorId) by {
      assert DiagnosticsKey(other)[8] != LocationKey(tractorId)[8];
    }
  }

  const CommandQueued := Obj(map[
    "success" := Bool(true),
    "offlineQueued" := Bool(true),
    "message" := Str("Command queued for execution when connection is restored")])

  /** The payload of a queued `tractor_command`. */
  function CommandData(tractorId: string, command: string, value: Json, clock: Clock): Json {
    Obj(map["tractorId" := Str(tractorId), "command" := Str(command), "value" := value,
            "timestamp" := Date(clock.millis)])
  }

  /** `sendCommand(tractorId, command, value)` (tractorService.js:37-67). */
  function SendCommand(s: Store, tractorId: string, command: string, value: Json, call: Result<Json, Error>, env: Env): (r: Step)
    ensures call.Success? || env.online ==> r == Step(s, call)
    ensures call.Failure? && !env.online ==>
      && r.result == Success(CommandQueued)
      && r.store == QueueOperation(s, Request(TractorCommandOp, CommandData(tractorId, command, value, env.clock), Undefined),
                                   env.clock.millis, env.storageUp).0
  {
    if call.Success? || env.online then Step(s, call)
    else
      var queued := QueueOperation(s, Request(TractorCommandOp, CommandData(tractorId, command, value, env.clock), Undefined),
                                   env.clock.millis, env.storageUp);
      Step(queued.0, Success(CommandQueued))
  }

  const StopExecutedLocally := Obj(map[
    "success" := Bool(true),
    "localExecution" := Bool(true),
    "message" := Str("Emergency stop executed locally")])

  /** `emergencyStop(tractorId)` (tractorService.js:74-92): the server's
      answer when there is one; any failure, whatever the connectivity,
      becomes a local acknowledgement. It never throws and never touches
      the store. */
  function EmergencyStop(s: Store, call: Result<Json, Error>): (r: Step)
    ensures r.store == s
    ensures r.result.Success?
    ensures call.Success? ==> r.result == call
    ensures call.Failure? ==> r.result == Success(StopExecutedLocally)
  {
    if call.Success? then Step(s, call) else Step(s, Success(StopExecutedLocally))
  }

  function OperationQueued(operation: string): Json {
    Obj(map[
      "success" := Bool(true),
      "offlineQueued" := Bool(true),
      "message" := Str("Operation " + operation + " queued for when connection is restored")])
  }

  /** The payload of a queued `start_operation`. */
  function OperationData(tractorId: string, operation: string, clock: Clock): Json {
    Obj(map["tractorId" := Str(tractorId), "operation" := Str(operation), "timestamp" := Date(clock.millis)])
  }

  /** `startOperation(tractorId, operation)` (tractorService.js:148-173). */
  function StartOperation(s: Store, tractorId: string, operation: string, call: Result<Json, Error>, env: Env): (r: Step)
    ensures call.Success? || env.online ==> r == Step(s, call)
    ensures call.Failure? && !env.online ==>
      && r.result == Success(OperationQueued(operation))
      && r.store == QueueOperation(s, Request(StartOperationOp, OperationData(tractorId, operation, env.clock), Undefined),
                                   env.clock.millis, env.storageUp).0
  {
    if call.Success? || env.online then Step(s, call)
    else
      var queued := QueueOperation(s, Request(StartOperationOp, OperationData(tractorId, operation, env.clock), Undefined),
                                   env.clock.millis, env.storageUp);
      Step(queued.0, Success(OperationQueued(operation)))
  }

  /** Offline, a failed command or operation start queues exactly one
      record carrying its arguments and reports `offlineQueued`. */
  lemma OfflineCommandQueuesOne(s: Store, tractorId: string, command: string, value: Json, operation: string, e: Error, env: Env)
    requires Valid(s) && !env.online && env.storageUp
    ensures var r := SendCommand(s, tractorId, command, value, Failure(e), env);
      && |r.store.ops| == |s.ops| + 1 && r.store.ops[..|s.ops|] == s.ops
      && r.store.ops[|s.ops|].kind == TractorCommandOp
      && r.store.ops[|s.ops|].status == Pending
      && Get(r.store.ops[|s.ops|].data, "tractorId") == Str(tractorId)
      && Get(r.store.ops[|s.ops|].data, "command") == Str(command)
      && Get(r.store.ops[|s.ops|].data, "value") == value
      && Get(r.result.value, "offlineQueued") == Bool(true)
    ensures var r := StartOperation(s, tractorId, operation, Failure(e), env);
      && |r.store.ops| == |s.ops| + 1 && r.store.ops[..|s.ops|] == s.ops
      && r.store.ops[|s.ops|].kind == StartOperationOp
      && Get(r.store.ops[|s.ops|].data, "tractorId") == Str(tractorId)
      && Get(r.store.ops[|s.ops|].data, "operation") == Str(operation)
      && Get(r.result.value, "offlineQueued") == Bool(true)
  {
  }

  /** The emergency stop, unlike every other command, leaves the operation
      log as it was when the server is unreachable. */
  lemma EmergencyStopNeverQueues(s: Store, tractorId: string, command: string, value: Json, e: Error, env: Env)
    requires !env.online && env.storageUp
    ensures |EmergencyStop(s, Failure(e)).store.ops| == |s.ops|
    ensures |SendCommand(s, tractorId, command, value, Failure(e), env).store.ops| == |s.ops| + 1
  {
  }
}

=== FILE: wrappers.dfy ===
/** Failure-compatible wrappers shared by every module of the model.
    `Option` stands for a JavaScript value that may be absent (`null` or
    `undefined` where the source does not tell the two apart) and `Result`
    for a call that either returns a value or throws. */
module Wrappers {

  datatype Option<+T> = None | Some(value: T) {

    predicate IsFailure() {
      None?
    }

    function PropagateFailure<U>(): Option<U>
      requires None?
    {
      None
    }

    function Extract(): T
      requires Some?
    {
      value
    }

    /** The wrapped value, or `default` when there is none. */
    function GetOr(default: T): T {
      match this
      case Some(v) => v
      case None => default
    }
  }

  /** A call that returns `value` or throws `error`. */
  datatype Result<+R, +E> = Success(value: R) | Failure(error: E) {

    predicate IsFailure() {
      Failure?
    }

    function PropagateFailure<U>(): Result<U, E>
      requires Failure?
    {
      Failure(error)
    }

    function Extract(): R
      requires Success?
    {
      value
    }
  }
}
